=== FILE: README.md ===
# Trie key-value store: storage, formulas, evaluator, printer

This project models the sequential core of a small replicated key-value
store, written in Python. A server keeps its data in a character trie. Values
are JSON-like: null, bool, int, string, list, dict. Dotted key-paths reach
into nested dicts. A small formula language (`COMPUTE <expr> WHERE x = QUERY
<path> AND …`) binds variables to stored numbers and evaluates the expression
with a shunting-yard conversion followed by a postfix stack machine. Everything
is stated as pure Dafny functions over immutable datatypes, with lemmas that
relate the operations to one another.

Modules, following the program's files:

- `TrieStore` (`trie_structure.py`; the put/get/delete in `test_trie.py:13-72`
  behave the same, except that test_trie.py:72 calls the cleanup directly where
  trie_structure.py:75 raises):
  - `Node` has a `map<char, Node>` of children, a value, a leaf flag and a
    tombstone flag.
  - `Get` answers `Found(v) | Deleted | Absent`. `AsPython` maps these back to
    the source's return values: the value, the string `"Deleted"`, and `None`.
  - `Delete` only sets the terminal node's flag. The cleanup it calls on every
    node of the path, `remove_if_unused`, does `del self`. That unbinds a local
    name and removes nothing, so the model keeps every node.
- `KeyPath`: `Trie.query` and its inner `search_dictionary`, in two forms. One
  is the corrected descent. The other is the descent as written; see Findings.
- `Formula`: `Trie.compute` in `trie_structure.py`. It covers:
  - the `WHERE` split;
  - the `COMPUTE (.*)` check;
  - `AND` splitting;
  - the `(\w+) = QUERY (.*)` binding match, with regex search semantics;
  - the numeric check on each bound value;
  - text substitution with `str(value)`;
  - the `\d+|[+-/*^()]|sin|cos|tan|log10` tokeniser;
  - the hand-off to the evaluator.

  The `variables` dict persists in the trie and keeps insertion order. It is a
  sequence of bindings.
- `Evaluator` (`MathExpressionEvaluator.py`):
  - the token predicates;
  - `evaluate_expression` as a step function over an (output, stack) pair,
    plus a loop method that consumes its list;
  - `perform_operation`;
  - `compute_expression` over exact reals.
- `Printer`: `pretty_print` of `test_trie.py`, with decoders that read its
  output back.
- `ServerTrie` (`testServer.py`): the server's variant trie, which has no leaf
  flag and answers `None` for absent and deleted keys alike. It also covers the
  server's `query`, its strictly left-to-right `compute` fold, and
  `parse_received_input_command`.
- `Text`: the Python string operations used above, each with its own contract:
  - `split`;
  - `strip`;
  - `replace`;
  - whitespace `split()`;
  - decimal `str(int)`.
- `Values`: the value union, and `str`/`repr` of values.

Behaviour worth noting:

- `put` never clears the tombstone flag (trie_structure.py:28-37), so a key
  put again after `delete` still reads as deleted.
- `delete` never prunes nodes.
- `query` returns not-found when the first segment holds anything but a dict,
  even if no segments remain (trie_structure.py:100-107).
- The server's `get` and `query` treat tombstones in different ways.
  - `get` reports a tombstoned node as `None`, the same answer it gives for a
    missing key.
  - `query` ignores the flag entirely (testServer.py:76-80).

Three places in `trie_structure.py` would raise before doing their work. The
model follows the evident intent at each:

- Line 11 calls the module `MathExpressionEvaluator` as a class.
- Line 75 uses `node.self`. The model runs the cleanup as test_trie.py:72
  does, which removes nothing either way.
- Line 110 reads an attribute that `Trie` never sets.

Python's `bool` is a subclass of `int`. So a bool counts as a number in
`compute` (trie_structure.py:131, 144), and `pretty_print` renders it as
`True`/`False` (test_trie.py:156-157).

## Model

| member | source | states |
|---|---|---|
| TrieStore.Put | trie_structure.py:28-37 | after `put` the key's whole character path exists |
| TrieStore.Get | trie_structure.py:40-56 | absent when a character has no child or the terminal node is not a leaf; `Deleted` exactly when the terminal node is a tombstoned leaf; `Found` with that node's value exactly when it is a live leaf |
| TrieStore.AsPython | trie_structure.py:50-56 | no contract of its own; it maps `Found(v)`, `Deleted` and `Absent` back to the value, the string `"Deleted"` and `None`. TrieStore.GetPut, GetDelete and GetPrefixAbsent state which of the three `get` returns |
| TrieStore.Delete | trie_structure.py:59-75 | a key whose character path is missing leaves the trie unchanged; otherwise the key's node ends up tombstoned |
| TrieStore.PutLabels | trie_structure.py:28-37 | after `put(k, v)`, k's node is a leaf holding v with its old tombstone flag. The strict prefixes of k that did not exist are fresh non-leaf, unflagged nodes. Every other node is unchanged |
| TrieStore.TombstoneLabels | trie_structure.py:70-75 | marking the key and running the cleanup over the path changes only the terminal node's tombstone flag |
| TrieStore.RemoveIfUnused | trie_structure.py:13-16 | no contract of its own; TrieStore.TombstoneLabels and TrieStore.DeleteKeepsShape state that the cleanup removes no node |
| TrieStore.DeleteLabels | trie_structure.py:59-75 | `delete` changes nothing but the terminal node's tombstone flag, and nothing at all when the path is missing |
| TrieStore.DeleteKeepsShape | trie_structure.py:13-16 | the cleanup removes no node: after `delete`, a character path exists exactly when it existed before (the copy in test_trie.py:8-11 and 70-72 likewise) |
| TrieStore.GetPut | trie_structure.py:28-56 | `get(k)` after `put(k, v)` is `Found(v)` unless k's node was tombstoned before, in which case it is `Deleted` (the copy in test_trie.py:17-47 likewise) |
| TrieStore.GetPutOther | trie_structure.py:28-37 | `put(k, v)` leaves `get(p)` unchanged for every key p other than k |
| TrieStore.GetPrefixAbsent | trie_structure.py:50-56 | a strict prefix of k whose path did not exist reads as absent after `put(k, v)`, because its new node is not a leaf (the copy in test_trie.py:43-49 likewise) |
| TrieStore.GetDelete | trie_structure.py:50-54 | after `delete(k)` on an existing path, `get(k)` is `Deleted` if the node is a leaf and absent otherwise, and never the old value (the copy in test_trie.py:56-68 likewise) |
| TrieStore.GetDeleteOther | trie_structure.py:59-75 | `delete(k)` leaves `get(p)` unchanged for every key p other than k |
| TrieStore.DeleteIdempotent | trie_structure.py:71 | a second `delete(k)` leaves the trie identical to the first one's result |
| TrieStore.PutAfterDelete | trie_structure.py:28-37 | `put(k, v)` after `delete(k)` still leaves `get(k)` at `Deleted`, because `put` never resets the flag |
| TrieStore.PutKeepsTombstoned | trie_structure.py:28-37 | `put` changes no node's tombstone flag |
| TrieStore.GetPutAll | trie_structure.py:188-189 | after putting a dict's entries in order, `get(k)` answers the last value put under k (or `Deleted` if k was tombstoned), and whatever it answered before when k was never put |
| Values.LookupField | trie_structure.py:89-90 | `key in dic` fails exactly when no field carries the key; otherwise `dic[key]` is the value of a field with that key |
| Values.IsNumber | trie_structure.py:131 | no contract of its own; `isinstance(v, numbers.Number)`, which holds for integers and booleans. Formula.BindFound states that a clause binds exactly when its query finds such a value |
| Values.PyStr | trie_structure.py:155 | no contract of its own; `str(v)`, which is the text itself for a string and `repr` otherwise. Formula.SubstituteOne and Printer.ListReadsBack state what it produces |
| Values.Repr | test_trie.py:154 | no contract of its own; `repr` of a value, used by `str` for everything but strings. Values.ReprKind states what its first character tells |
| Values.ReprKind | test_trie.py:154 | `repr` is never empty, and it starts with `[` exactly for a list, with `{` exactly for a dict and with a single quote exactly for a string |
| KeyPath.Query | trie_structure.py:77-107 | no contract of its own; KeyPath.QueryPut states its meaning: after `put` of a dict under a dot-free key, `query` of that key followed by dotted segments is the descent of the dict along those segments. KeyPath.QueryWholeDict covers the path that is only the key |
| KeyPath.Search | trie_structure.py:86-97 | no contract of its own; KeyPath.SearchAppend states that the descent composes over concatenated paths, and the KeyPath.QueryExample lemmas give its found and missing cases |
| KeyPath.SearchAppend | trie_structure.py:86-93 | descending along `a + b` is descending along a and then along b, so a path that misses at some level misses for every extension |
| KeyPath.SplitJoinDots | trie_structure.py:79 | splitting dot-free segments joined with dots gives the segments back |
| KeyPath.QueryPut | trie_structure.py:77-107 | for a dict put under a dot-free, never-deleted key k, `query` of `k.s1.….sn` is the dict's descent along s1…sn |
| KeyPath.QueryExample | trie_structure.py:77-107 | in a store holding `{"b": {"c": 5}}` under `a`, every dotted path below `a` descends into that value |
| KeyPath.QueryExampleFound | trie_structure.py:77-107 | in that store `a.b.c` reaches 5 |
| KeyPath.QueryExampleMissingField | trie_structure.py:86-92 | in that store `a.b.x` misses a field and is not found |
| KeyPath.QueryExampleMissingKey | trie_structure.py:100-107 | in that store `missing.b` misses the top-level key and is not found |
| KeyPath.SearchAsWritten | trie_structure.py:86-97 | no contract of its own; `search_dictionary` as written, with a recursion budget. KeyPath.AsWrittenAgreesWhenItReturns and KeyPath.AsWrittenRecursesOnOneSegment state its meaning |
| KeyPath.QueryAsWritten | trie_structure.py:77-107 | no contract of its own; `query` as written. KeyPath.QueryWholeDictCounterexample states where it differs from the corrected query |
| KeyPath.AsWrittenAgreesWhenItReturns | trie_structure.py:86-97 | whenever the descent as written returns, it returns the corrected descent's answer |
| KeyPath.AsWrittenRecursesOnOneSegment | trie_structure.py:94-95 | for a one-segment path whose value is a dict, the descent as written recurses until the recursion limit, whatever that limit is |
| KeyPath.QueryWholeDictCounterexample | trie_structure.py:94-95 | after `put("a", {"b": 1})`, `query("a")` as written raises a recursion error while the corrected query returns the dict |
| KeyPath.QueryWholeDict | trie_structure.py:104-107 | the corrected query of a dot-free, never-deleted key holding a dict returns that whole dict |
| Text.Split | trie_structure.py:79 | `str.split(sep)` gives at least one part, no part contains the separator, and joining the parts with it gives the input back |
| Text.SplitJoin | trie_structure.py:120 | splitting pieces joined with a separator gives the pieces back when none of them contains the separator's first character |
| Text.Strip | trie_structure.py:127-128 | `strip()` removes a run of leading and a run of trailing whitespace and nothing else, and its result neither starts nor ends with whitespace |
| Text.StripPadded | trie_structure.py:140-141 | stripping whitespace around an unpadded non-empty text gives that text |
| Text.ReplaceAbsent | trie_structure.py:155 | `replace` of a target that does not occur leaves the text unchanged |
| Text.ReplaceWithItself | trie_structure.py:155 | `replace` of a target with itself leaves the text unchanged |
| Text.Replace | trie_structure.py:155 | no contract of its own; Text.ReplaceAbsent, Text.ReplaceWithItself and Formula.SubstituteOne state its meaning |
| Text.NatToDecimal | trie_structure.py:155 | `str` of a natural number is a non-empty digit run without a leading zero whose decimal value is the number |
| Text.IntToDecimal | test_trie.py:156-157 | `str` of an int is integer text whose value is the int, with a leading `-` exactly for negatives |
| Text.Words | testServer.py:198 | whitespace `split()` yields non-empty words without whitespace |
| Text.WordsOfJoin | testServer.py:198 | `split()` of valid words joined by single spaces gives the words back |
| Text.WordsBlank | testServer.py:198 | `split()` gives no words exactly when the text is all whitespace |
| Evaluator.TokenKinds | trie_structure.py:23-25 | with the trie's tables, operators, function names and parentheses are disjoint classes, none of them numeric, and every left-associative token is an operator |
| Evaluator.IsOperator | MathExpressionEvaluator.py:7-10 | no contract of its own; membership in the operator table. Evaluator.TokenKinds states how the token classes relate |
| Evaluator.Precedence | MathExpressionEvaluator.py:12-15 | no contract of its own; the operator table's entry. Evaluator.HigherPrecedenceStacks and HigherPrecedencePops state its effect on the conversion |
| Evaluator.IsFunction | MathExpressionEvaluator.py:17-20 | no contract of its own; membership in the function table. Evaluator.TokenKinds states that function names are neither operators nor numbers |
| Evaluator.IsNumber | MathExpressionEvaluator.py:22-27 | no contract of its own; a non-empty run of digits. Evaluator.TokenKinds states that no operator, function name or parenthesis is numeric |
| Evaluator.IsLeftAssociative | MathExpressionEvaluator.py:29-32 | no contract of its own; membership in the left-associative list. Evaluator.PowerChainsRight and LeftAssociativeChainsLeft state its effect on the conversion |
| Evaluator.EvaluateExpression | MathExpressionEvaluator.py:64-123 | the loop consumes its argument list, which is empty afterwards, and returns the output queue of the step-by-step conversion |
| Evaluator.PopFor | MathExpressionEvaluator.py:89-100 | no contract of its own; the inner loop for an incoming operator. Evaluator.PopForShape states its meaning |
| Evaluator.PopForShape | MathExpressionEvaluator.py:86-100 | an incoming operator pops a suffix of the stack onto the output in reverse order. Every popped entry is an operator of higher precedence, or of equal precedence when the incoming operator is left-associative. The entry left on top, if any, does not qualify, so popping never passes `(` or a function name |
| Evaluator.PopToOpen | MathExpressionEvaluator.py:107-109 | no contract of its own; the loop popping up to `(`. Evaluator.PopToOpenShape states its meaning |
| Evaluator.PopToOpenShape | MathExpressionEvaluator.py:105-109 | on `)`, the stack is popped onto the output in reverse order up to, and not including, the nearest `(` |
| Evaluator.CloseParenMatched | MathExpressionEvaluator.py:105-116 | with a `(` on the stack, `)` moves the operators above it to the output and discards it; a function name then on top moves to the output too |
| Evaluator.CloseParenUnmatched | MathExpressionEvaluator.py:105-109 | with no `(` on the stack, `)` moves the whole stack to the output |
| Evaluator.CloseParen | MathExpressionEvaluator.py:105-116 | no contract of its own; the `)` branch. Evaluator.CloseParenMatched and Evaluator.CloseParenUnmatched state its two cases |
| Evaluator.StepKeeps | MathExpressionEvaluator.py:77-116 | one step keeps the stack to operators, function names and `(`, and the output to those and numbers. A number is appended to the output's numbers, and an operator or function is added to the tokens held |
| Evaluator.Step | MathExpressionEvaluator.py:77-116 | no contract of its own; Evaluator.StepKeeps states the invariant it keeps, and Evaluator.NumberCons, OpenCons, OperatorPushCons, OperatorPopCons and CloseAfterOperator state each branch |
| Evaluator.ToPostfix | MathExpressionEvaluator.py:64-123 | no contract of its own; Evaluator.ToPostfixOfInfix states that a parenthesised infix expression converts to its postfix form, and Evaluator.PostfixKeepsNumberOrder and PostfixKeepsOperators state what the conversion keeps |
| Evaluator.Yields | MathExpressionEvaluator.py:89-96 | no contract of its own; Evaluator.PopForShape states that exactly the entries it accepts are popped, and PowerChainsRight, LeftAssociativeChainsLeft, HigherPrecedenceStacks and HigherPrecedencePops give its cases |
| Evaluator.Run | MathExpressionEvaluator.py:77-117 | no contract of its own; the main loop over the tokens. Evaluator.RunKeeps and Evaluator.RunAppend state its meaning |
| Evaluator.RunKeeps | MathExpressionEvaluator.py:77-117 | over a whole token list, the numbers reach the output in input order, and the operators and functions held are exactly the input's |
| Evaluator.Drain | MathExpressionEvaluator.py:119-120 | no contract of its own; the final drain. Evaluator.DrainKeeps states its meaning |
| Evaluator.DrainKeeps | MathExpressionEvaluator.py:119-120 | draining the stack outputs only emittable tokens, keeping the numbers' order and every operator and function held |
| Evaluator.PostfixKeepsNumberOrder | MathExpressionEvaluator.py:80-81 | the numbers of the postfix output are the input's numbers in the same order |
| Evaluator.PostfixKeepsOperators | MathExpressionEvaluator.py:83-120 | the operators and function names of the output are exactly those of the input, counted with multiplicity |
| Evaluator.PostfixTokenKinds | MathExpressionEvaluator.py:105-120 | the output holds only numbers, operators, function names and `(`, and never `)` |
| Evaluator.NumberCons | MathExpressionEvaluator.py:80-81 | a number goes straight to the output |
| Evaluator.OpenCons | MathExpressionEvaluator.py:102-103 | `(` is pushed |
| Evaluator.OperatorPushCons | MathExpressionEvaluator.py:86-100 | an operator is pushed at once when the top of the stack does not qualify for popping |
| Evaluator.OperatorOnOpenCons | MathExpressionEvaluator.py:89-91 | an operator on top of `(` is pushed without popping |
| Evaluator.OperatorPopCons | MathExpressionEvaluator.py:89-100 | an operator that outranks the single stacked entry moves it to the output and takes its place |
| Evaluator.RunAppend | MathExpressionEvaluator.py:77-78 | the conversion of `a + b` is the conversion of b continued from the state after a |
| Evaluator.BinaryToPostfix | MathExpressionEvaluator.py:64-123 | `a op b` converts to `a b op` |
| Evaluator.PowerChainsRight | MathExpressionEvaluator.py:89-96 | `^` is not left-associative, so `a ^ b ^ c` converts to `a b c ^ ^` |
| Evaluator.LeftAssociativeChainsLeft | MathExpressionEvaluator.py:89-96 | for a left-associative operator, `a op b op c` converts to `a b op c op` |
| Evaluator.StackedPair | MathExpressionEvaluator.py:89-100 | when the second of two operators does not pop the first, both wait on the stack and are emitted last-in first-out: `a p b q c` converts to `a b c q p` |
| Evaluator.PoppedPair | MathExpressionEvaluator.py:89-100 | when the second of two operators pops the first, the first is emitted before the third operand: `a p b q c` converts to `a b p c q` |
| Evaluator.HigherPrecedenceStacks | MathExpressionEvaluator.py:89-100 | `*` stays on the stack above `+`, so `a + b * c` converts to `a b c * +`, whose value is `a + (b * c)` |
| Evaluator.HigherPrecedencePops | MathExpressionEvaluator.py:89-100 | an arriving `+` pops the stacked `*` first, so `a * b + c` converts to `a b * c +`, whose value is `(a * b) + c` |
| Evaluator.Power | MathExpressionEvaluator.py:44-45 | a natural exponent gives the repeated product. A negative integral exponent with a nonzero base gives the reciprocal: the result times the base raised to the magnitude is 1. A non-integral exponent is outside the model. Division by zero happens exactly for zero raised to a negative integer |
| Evaluator.PerformOperation | MathExpressionEvaluator.py:34-47 | `+`, `-` and `*` give the sum, the difference and the product. `/` succeeds exactly for a nonzero divisor, and its result times the divisor is the dividend. `^` is `Power`. Anything that is not an operator gives the invalid-operand result |
| Evaluator.EvalPostfix | MathExpressionEvaluator.py:158-159 | no contract of its own; Evaluator.EvalPostfixMatchesTree states that it gives the value of the expression tree whose postfix form it is given, and Evaluator.EvalIgnoresLeftovers that only the top of the final stack counts |
| Evaluator.EvalFrom | MathExpressionEvaluator.py:137-157 | no contract of its own; Evaluator.NumberPush, Evaluator.OperatorOnPair and Evaluator.EvalPostfixOf state its steps and its effect on a whole tree's postfix form |
| Evaluator.OperatorFirstUnderflows | MathExpressionEvaluator.py:146-147 | an operator with nothing below it underflows on the first pop |
| Evaluator.OperatorAfterOneUnderflows | MathExpressionEvaluator.py:146-147 | an operator with one number below it underflows on the second pop |
| Evaluator.SecondPoppedIsLeft | MathExpressionEvaluator.py:143-150 | `a b op` applies op with the second-popped value a as the left operand |
| Evaluator.EvaluatesBinaryInfix | MathExpressionEvaluator.py:64-159 | converting and evaluating the infix tokens `a op b` performs op on a and b |
| Evaluator.NumberPush | MathExpressionEvaluator.py:139-141 | a number token is pushed onto the operand stack as its value and evaluation goes on with the rest |
| Evaluator.SumOfProductValue | MathExpressionEvaluator.py:137-159 | the postfix list `a b c * +` evaluates to `a + (b * c)` |
| Evaluator.ProductThenSumValue | MathExpressionEvaluator.py:137-159 | the postfix list `a b * c +` evaluates to `(a * b) + c` |
| Evaluator.OperatorOnPair | MathExpressionEvaluator.py:143-150 | an operator pops the right operand, then the left, and pushes the result of the operation, or stops with the operation's fault |
| Evaluator.EvalPostfixOf | MathExpressionEvaluator.py:137-157 | evaluating an expression tree's postfix form pushes the tree's value, or stops with its error, whatever the stack below and the tokens after |
| Evaluator.EvalPostfixMatchesTree | MathExpressionEvaluator.py:125-159 | postfix evaluation of a tree's postfix form is the tree's value |
| Evaluator.EvalIgnoresLeftovers | MathExpressionEvaluator.py:158-159 | when two expressions' postfix forms are concatenated, the result is the second one's value, and the first one's value is left on the stack and ignored |
| Evaluator.CloseAfterOperator | MathExpressionEvaluator.py:105-112 | `)` after `( … op` moves op to the output and drops the `(` |
| Evaluator.RunInfixOf | MathExpressionEvaluator.py:77-117 | converting a fully parenthesised infix expression appends its postfix form to the output and leaves the stack as it was |
| Evaluator.ToPostfixOfInfix | MathExpressionEvaluator.py:64-123 | a fully parenthesised infix expression converts to its postfix form |
| Evaluator.EvaluatesParenthesisedInfix | MathExpressionEvaluator.py:64-159 | converting and evaluating a fully parenthesised infix expression gives the tree's value |
| Formula.SetVariable | trie_structure.py:132 | after `variables[name] = v`, name maps to v and every other name keeps its binding. A new name comes last in the dict's order, and an existing name keeps its place |
| Formula.SetVariableKeeps | trie_structure.py:132 | storing a number under a non-empty name keeps the dict well-formed and all-numeric |
| Formula.FindMarker | trie_structure.py:123 | the leftmost place where ` = QUERY ` follows a word character, or none at all |
| Formula.MatchBinding | trie_structure.py:123-128 | no match exactly when no word character is followed by ` = QUERY `; a match's name is a non-empty word run |
| Formula.MatchBindingOf | trie_structure.py:123-128 | whitespace, a word, ` = QUERY ` and a one-line path match with that word as the name and the stripped path as the key-path |
| Formula.NoEqualsNoBinding | trie_structure.py:123-125 | a clause without `=` does not match |
| Formula.Tokenize | trie_structure.py:157 | every token found is a digit run, a single character of the class, or one of the function words |
| Formula.TokenizeSkips | trie_structure.py:157 | characters no alternative can start with are skipped |
| Formula.TokenizeCons | trie_structure.py:157 | a token at the front is found as itself when it does not run into a following digit |
| Formula.TokenizeOf | trie_structure.py:157 | tokenising valid tokens written one after another, plus skippable text, gives the tokens back |
| Formula.SubstituteAbsent | trie_structure.py:154-155 | a text that mentions no variable is left as it is |
| Formula.SubstituteOne | trie_structure.py:154-155 | substituting one variable replaces each of its occurrences by `str` of its value |
| Formula.Substitute | trie_structure.py:153-155 | no contract of its own; Formula.SubstituteAbsent and Formula.SubstituteOne state its meaning, and Formula.SubstituteBinary its effect on a whole computation |
| Formula.BindFound | trie_structure.py:129-134 | a binding succeeds exactly when the queried value exists and is a number, and then stores it under the name; otherwise "Variable is not a number" with the dict unchanged |
| Formula.BindOne | trie_structure.py:136-147 | a clause that does not match gives the malformed-clause message. A successful binding stores the numeric value of the clause's key-path under its name. A rejection leaves the dict as it was |
| Formula.BindAll | trie_structure.py:119-134 | binding the `AND` clauses only adds or updates bindings, keeping the dict's order |
| Formula.BindAllAppend | trie_structure.py:120-134 | clauses bind left to right, and the first rejection stops the rest |
| Formula.Bind | trie_structure.py:119-147 | the `WHERE` part only adds or updates bindings |
| Formula.EvaluateWithoutTokens | trie_structure.py:157-159 | when substitution leaves no token, the reply is "Invalid operators" |
| Formula.Compute | trie_structure.py:109-163 | the variables only grow. A formula without exactly one `WHERE` fails at the unpacking. An exception raised before evaluation leaves the variables unchanged; a rejection message keeps the bindings of earlier `AND` clauses. A number is returned only when tokens were found |
| Formula.SplitWhere | trie_structure.py:112 | a formula with `WHERE` once splits into the parts around it |
| Formula.ComputeWithoutWhere | trie_structure.py:112 | a formula without `WHERE` fails at the unpacking |
| Formula.ComputeWithTwoWheres | trie_structure.py:112 | a formula with `WHERE` twice fails at the unpacking |
| Formula.ComputeNeedsCompute | trie_structure.py:114-116 | a computation part without `COMPUTE ` raises the invalid-formula error |
| Formula.ComputeRejectsClauseWithoutBinding | trie_structure.py:119-138 | a `WHERE` part without a binding replies with the `AND`-branch message when it contains `AND`, and with "Invalid value formula" otherwise |
| Formula.ComputeWithWhere | trie_structure.py:109-163 | a well-split formula binds its `WHERE` part and then either replies with the rejection message or evaluates its computation |
| Formula.BindSingle | trie_structure.py:136-147 | a single clause binds its name when its key-path holds a number, and replies "Variable is not a number" otherwise |
| Formula.ComputeSingleBinding | trie_structure.py:135-163 | a formula with one binding evaluates its computation with that variable set, or replies "Variable is not a number" |
| Formula.SubstituteBinary | trie_structure.py:154-155 | `COMPUTE x op d` with x bound to n becomes `COMPUTE n op d` |
| Formula.TokenizeBinary | trie_structure.py:157 | `COMPUTE n op d` tokenises to `[n, op, d]` |
| Formula.EvaluateBinary | trie_structure.py:154-163 | `COMPUTE x op d` with x bound to n evaluates to `perform_operation(n, d, op)` |
| Formula.Evaluate | trie_structure.py:153-163 | evaluation leaves the variables as they are. Formula.EvaluateWithoutTokens and Formula.EvaluateBinary give its replies |
| Formula.ComputeBindsVariable | trie_structure.py:109-147 | `COMPUTE x op d WHERE x = QUERY path` on a fresh store binds x to the number the path holds and goes on to evaluate |
| Formula.ComputeBinaryWithVariable | trie_structure.py:109-163 | the whole formula `COMPUTE x op d WHERE x = QUERY path` replies `perform_operation(n, d, op)` where n is the number at path |
| Printer.Quote | test_trie.py:162-163 | a quoted text is the text between the curly opening and closing quotes |
| Printer.HandleValueBrackets | test_trie.py:149-163 | every rendering is non-empty, and it starts with `[` exactly for dicts and lists |
| Printer.ReadScalarInverts | test_trie.py:156-163 | null, bools, ints and strings render to texts from which the scalar is read back |
| Printer.ReadEntryInverts | test_trie.py:165 | an entry `“k” -> v` with a scalar value reads back as the field |
| Printer.SplitBars | test_trie.py:165 | splitting entries joined by the separator on its bar character gives the entries with their surrounding spaces |
| Printer.PrettyPrintReadsBack | test_trie.py:147-165 | a dict of scalars with bar-free keys and strings is read back, field by field and in order, from its rendering |
| Printer.ListReadsBack | test_trie.py:153-154 | a list renders as an opening bracket, the quoted elements joined by a spaced bar, and a closing bracket, and each element's `str` is read back from it in order |
| Printer.PrettyPrintEmpty | test_trie.py:165 | an empty dict renders as the empty text |
| Printer.PrettyPrint | test_trie.py:147-165 | no contract of its own; Printer.PrettyPrintReadsBack states that a flat dict is read back from its rendering, and Printer.PrettyPrintEmpty that an empty dict renders as the empty text |
| Printer.HandleValue | test_trie.py:149-163 | no contract of its own; Printer.HandleValueBrackets, ReadScalarInverts and ListReadsBack state how each kind of value is rendered |
| Printer.EntryTexts | test_trie.py:165 | one entry text per field from index i on. Printer.EntryTextsAt gives the text of each |
| Printer.EntryTextsAt | test_trie.py:165 | the i-th entry text is `“key” -> ` followed by the rendering of the i-th field's value |
| ServerTrie.Put | testServer.py:20-31 | after `put` the key's character path exists |
| ServerTrie.Get | testServer.py:33-47 | `None` for a missing path and for a deleted node alike; otherwise the node's value |
| ServerTrie.Delete | testServer.py:49-60 | a key whose path is missing leaves the trie unchanged |
| ServerTrie.GetFresh | testServer.py:5-9 | a new trie answers `None` for every key |
| ServerTrie.GetPut | testServer.py:20-47 | `get(k)` after `put(k, v)` is v, unless k's node was deleted before, when it is `None` |
| ServerTrie.GetPutOther | testServer.py:20-31 | `put(k, v)` leaves `get(p)` unchanged for every other key p |
| ServerTrie.GetUnputPrefix | testServer.py:43-45 | a node that `put` creates on the way to a longer key holds `None` |
| ServerTrie.FreshPutPrefix | testServer.py:7-8 | in a new trie, every strict prefix of the one key put reads as `None` |
| ServerTrie.Mark | testServer.py:53-60 | no contract of its own; sets the flag of the key's node. ServerTrie.MarkKeeps and ServerTrie.GetDelete state its meaning |
| ServerTrie.MarkKeeps | testServer.py:59-60 | deleting sets only the terminal node's flag; paths, values and children stay |
| ServerTrie.GetDelete | testServer.py:44-47 | after `delete(k)`, `get(k)` is `None` |
| ServerTrie.GetDeleteOther | testServer.py:49-60 | `delete(k)` leaves `get(p)` unchanged for every other key p |
| ServerTrie.PutAfterDelete | testServer.py:20-31 | `put(k, v)` after `delete(k)` still reads as `None`, because `put` does not clear the flag |
| ServerTrie.WalkChars | testServer.py:70-74 | walking the one-character segments of a key follows the key's character path |
| ServerTrie.WalkLongSegment | testServer.py:70-73 | a segment that is not a single character is never a child key, so the walk fails |
| ServerTrie.QueryDotted | testServer.py:62-80 | `query` of a key's characters joined with dots answers that key's node: its value if not `None`, else its children |
| ServerTrie.QueryLongSegment | testServer.py:62-73 | a key-path with a segment longer or shorter than one character is not found |
| ServerTrie.QueryIgnoresDelete | testServer.py:76-80 | `delete` does not change what `query` reports: the same value, or the same child keys |
| ServerTrie.Walk | testServer.py:70-74 | no contract of its own; the segment loop of `query`. ServerTrie.WalkChars and ServerTrie.WalkLongSegment state its meaning |
| ServerTrie.AnswerOf | testServer.py:76-80 | no contract of its own; the node's value if not `None`, else its children. ServerTrie.QueryDotted states its meaning |
| ServerTrie.Query | testServer.py:62-80 | no contract of its own; ServerTrie.QueryDotted, QueryLongSegment and QueryIgnoresDelete state its meaning |
| ServerTrie.FoldFromSnoc | testServer.py:96-99 | the fold applies each operator and variable pair after those before it |
| ServerTrie.ComputeSnoc | testServer.py:93-99 | `compute` of a formula extended by `op y` applies op to the previous result and y's value |
| ServerTrie.Compute | testServer.py:82-101 | no contract of its own; ServerTrie.ComputeSnoc, ComputeDangling and ComputeIgnoresPrecedence state its meaning |
| ServerTrie.FoldFrom | testServer.py:95-99 | no contract of its own; ServerTrie.FoldFromSnoc states that it is a left-to-right fold |
| ServerTrie.Apply | testServer.py:84-99 | no contract of its own; one pass of the loop, whose effect ServerTrie.ComputeSnoc and ComputeIgnoresPrecedence state |
| ServerTrie.ComputeDangling | testServer.py:96-98 | a trailing operator without a variable raises an index error once the prefix computes |
| ServerTrie.ComputeIgnoresPrecedence | testServer.py:93-99 | `[a, +, b, *, c]` computes `(a + b) * c`, strictly left to right |
| ServerTrie.ParseCommand | testServer.py:196-204 | a parsed command has a non-empty name, and its arguments are valid words |
| ServerTrie.ParseCommandOfJoin | testServer.py:196-204 | a command and its arguments written with single spaces parse back to themselves |
| ServerTrie.ParseCommandBlank | testServer.py:198-201 | a request fails to parse exactly when it is blank (`tokens[0]` raises) |
| ServerTrie.ParseCommandPadded | testServer.py:198 | leading whitespace does not change the parse |

## Left out

- Networking, threads and processes. The client, the server loop, replica
  choice and liveness checks are I/O and concurrency, and so are
  `run_kv_server.py`, `run_kv_client.py`, `run_client.py`, `kvClient.py`, and
  `KVServer` and its `main` (testServer.py:104-193). `KVServer.py` only
  delegates to `Trie`.
- The random data generators `random_data_generation.py` and `dataCreation.py`.
  They are random generation and file I/O.
- The demo `main` functions. `print_key_value` (trie_structure.py:199-217)
  iterates a dict as pairs and fails; `pretty_print` of `test_trie.py` is
  modelled instead.
- The `query` of `test_trie.py` (lines 74-105). It mis-indexes its segments and
  cannot descend.
- The exception `delete` raises at trie_structure.py:75 (`node.self`). The
  model follows the non-raising loop of test_trie.py:71-72. The flag is already
  set when Python raises, and the cleanup removes nothing, so only the raised
  error itself is not modelled.
- `Trie.remove_if_unused` of `test_trie.py` (lines 51-54) is never called.
  `ServerTrie`'s `remove_if_unused` (testServer.py:11-14) is also never called,
  and it removes nothing.
- Values.Value: there is no float case. The data generators produce floats
  (random_data_generation.py:36-37, dataCreation.py:82-83), `pretty_print`
  renders them with `str` (test_trie.py:156-157), and `compute` accepts them
  as numbers (trie_structure.py:131, 144). IEEE double semantics and Python's
  shortest round-trip `repr` of a float are out of scope, so stored numbers
  and bound values are integers (and booleans, which `numbers.Number` also
  accepts).
- `sin`, `cos`, `tan` and `log`. The shunting-yard handles function names, but
  evaluating one yields an `Unmodelled` fault, because their results are
  floating point.
- Evaluator.Power: integral exponents only. A non-integral exponent gives an
  `Unmodelled` fault, because its result is floating point or complex.
  Arithmetic is exact over reals, not IEEE doubles.
- KeyPath.Query: a path that passes through a non-dict is not found. Python's
  `in` would do a substring test on a string or raise on an int
  (trie_structure.py:89-90).
- Formula.MatchBinding: `\w` is its ASCII part (letters, digits, `_`), and
  the tokeniser's `\d` and `isnumeric` are ASCII digits. The Unicode
  members of these classes are not modelled.
- Values.PyStr: `repr` of a string inside a list or dict is always in single
  quotes and unescaped. Python switches quotes and escapes control
  characters. Bound values in
  formulas are numbers, so substitution only uses `str` of ints and bools.
- Formula.ComputeBinaryWithVariable: proved for a trie whose variables dict is
  still empty, a natural-number binding and a one-operator computation. The
  general case is stated by Formula.ComputeWithWhere and
  Formula.ComputeSingleBinding.
- Printer.PrettyPrintReadsBack: covers dicts whose values are scalars and whose
  keys and strings contain no `|`. Nested renderings are not uniquely
  readable, because ` | ` also separates nested entries.
- Printer.ListReadsBack: reads back each element's `str`, not the element
  itself, and requires elements whose `str` contains no `|`.
- ServerTrie.Compute: variables are modelled as exact reals. Python operator
  semantics on other value types are not modelled.
- The main request dispatch of the server (testServer.py:170-191) is not
  modelled. It only routes parsed commands to `KVServer`.

## Findings

| source | as written | input that shows it | evidently intended | confidence | as-written member | corrected member |
|---|---|---|---|---|---|---|
| trie_structure.py:94-95 | after walking the segments, `search_dictionary` calls itself on the dict it reached with the same `keys` | `put("a", {"b": 1})` then `query("a")`: no segment is walked, so the call repeats on the same dict until the recursion limit | return the dict reached, which is what line 97 does once the recursive call returns | high, not executed | KeyPath.QueryWholeDictCounterexample | KeyPath.QueryWholeDict |

=== FILE: evaluator.dfy ===
/** `MathExpressionEvaluator.py`: shunting-yard conversion of a token list to
    postfix order, then evaluation of the postfix list with an operand stack.
    Tokens are strings, as in the source; the operator, function and
    associativity tables are the ones `Trie` passes in. Arithmetic is exact
    over `real`. */
module Evaluator {
  import opened Wrappers
  import opened Text

  /** How an evaluation fails. */
  datatype Fault =
    | StackUnderflow          // `pop` from an empty list (IndexError)
    | DivisionByZero          // ZeroDivisionError, from `/` or from `0 ** negative`
    | InvalidOperand          // `perform_operation`'s fall-through for an unknown operator
    | Unmodelled(what: string) // a result only floating point can give: sin/cos/tan/log, non-integral powers

  const Operators: map<string, nat> := map["+" := 1, "-" := 1, "*" := 2, "/" := 2, "^" := 3]
  const Functions: set<string> := {"sin", "cos", "tan", "log"}
  const LeftAssociative: seq<string> := ["+", "-", "*", "/"]

  /** `is_operator`. */
  predicate IsOperator(t: string) {
    t in Operators
  }

  /** `precedence`. */
  function Precedence(t: string): nat
    requires IsOperator(t)
  {
    Operators[t]
  }

  /** `is_function`. */
  predicate IsFunction(t: string) {
    t in Functions
  }

  /** `is_number`: `str.isnumeric`, true of a non-empty run of digits. */
  predicate IsNumber(t: string) {
    |t| > 0 && AllDigits(t)
  }

  /** `is_left_associative`: `^` is not in the list. */
  predicate IsLeftAssociative(t: string) {
    t in LeftAssociative
  }

  predicate IsOperatorOrFunction(t: string) {
    IsOperator(t) || IsFunction(t)
  }

  /** What the operator stack may hold. */
  predicate Stackable(t: string) {
    IsOperator(t) || IsFunction(t) || t == "("
  }

  /** What the output queue may hold. */
  predicate Emittable(t: string) {
    IsNumber(t) || Stackable(t)
  }

  /** The kinds of token do not overlap. */
  lemma TokenKinds(t: string)
    ensures Stackable(t) ==> !IsNumber(t)
    ensures IsLeftAssociative(t) ==> IsOperator(t)
    ensures IsOperator(t) ==> !IsFunction(t) && t != "(" && t != ")"
    ensures IsFunction(t) ==> t != "(" && t != ")"
    ensures t == ")" ==> !Emittable(t)
  {
    if IsNumber(t) {
      assert IsDigit(t[0]);
    }
    if t == ")" {
      assert !IsDigit(t[0]);
    }
  }

  predicate AllStackable(s: seq<string>) {
    forall i :: 0 <= i < |s| ==> Stackable(s[i])
  }

  predicate AllEmittable(s: seq<string>) {
    forall i :: 0 <= i < |s| ==> Emittable(s[i])
  }

  // ---------------------------------------------------------------------------
  // Sequence helpers
  // ---------------------------------------------------------------------------

  function Last<T>(s: seq<T>): T
    requires |s| > 0
  {
    s[|s| - 1]
  }

  function Init<T>(s: seq<T>): seq<T>
    requires |s| > 0
  {
    s[..|s| - 1]
  }

  /** The order in which popping a whole stack delivers its elements. */
  function Reverse<T>(s: seq<T>): seq<T>
    decreases |s|
  {
    if |s| == 0 then [] else [Last(s)] + Reverse(Init(s))
  }

  function Filter(p: string -> bool, s: seq<string>): seq<string>
    decreases |s|
  {
    if |s| == 0 then [] else (if p(s[0]) then [s[0]] else []) + Filter(p, s[1..])
  }

  lemma {:induction false} FilterAppend(p: string -> bool, a: seq<string>, b: seq<string>)
    ensures Filter(p, a + b) == Filter(p, a) + Filter(p, b)
    decreases |a|
  {
    if |a| == 0 {
      assert a + b == b;
    } else {
      assert (a + b)[0] == a[0] && (a + b)[1..] == a[1..] + b;
      FilterAppend(p, a[1..], b);
    }
  }

  // ---------------------------------------------------------------------------
  // Shunting-yard (`evaluate_expression`)
  // ---------------------------------------------------------------------------

  /** The output queue and the operator stack (top at the end). */
  datatype Shunt = Shunt(output: seq<string>, stack: seq<string>)

  /** One pop of the stack onto the output. */
  function MoveTop(st: Shunt): Shunt
    requires |st.stack| > 0
  {
    Shunt(st.output + [Last(st.stack)], Init(st.stack))
  }

  /** The condition of the inner loop for an incoming operator `op`: the top
      of the stack is an operator of strictly higher precedence, or of equal
      precedence when `op` is left-associative. */
  predicate Yields(top: string, op: string)
    requires IsOperator(op)
  {
    IsOperator(top) &&
    (Precedence(top) > Precedence(op) || (Precedence(top) == Precedence(op) && IsLeftAssociative(op)))
  }

  /** The inner loop for an incoming operator: pops while the top yields to `op`. */
  function PopFor(st: Shunt, op: string): Shunt
    requires IsOperator(op)
    decreases |st.stack|
  {
    if |st.stack| > 0 && Yields(Last(st.stack), op) then PopFor(MoveTop(st), op) else st
  }

  /** What `PopFor` leaves: it pops a suffix of the stack onto the output,
      top first, every popped element yields to `op`, and the new top does
      not. Since `(` and function names never yield, it never pops past them. */
  lemma {:induction false} PopForShape(st: Shunt, op: string)
    requires IsOperator(op)
    ensures var r := PopFor(st, op);
      && |r.stack| <= |st.stack| && r.stack == st.stack[..|r.stack|]
      && r.output == st.output + Reverse(st.stack[|r.stack|..])
      && (forall i :: |r.stack| <= i < |st.stack| ==> Yields(st.stack[i], op))
      && (|r.stack| > 0 ==> !Yields(Last(r.stack), op))
    decreases |st.stack|
  {
    if |st.stack| > 0 && Yields(Last(st.stack), op) {
      PopForShape(MoveTop(st), op);
      MovedSuffix(st, |PopFor(st, op).stack|);
    } else {
      assert st.stack[|st.stack|..] == [];
    }
  }

  /** Popping the top, then a suffix of what is left, pops a suffix of the whole. */
  lemma MovedSuffix(st: Shunt, k: nat)
    requires |st.stack| > 0 && k < |st.stack|
    ensures st.stack[..k] == Init(st.stack)[..k]
    ensures st.output + Reverse(st.stack[k..]) == MoveTop(st).output + Reverse(Init(st.stack)[k..])
  {
    var suffix := st.stack[k..];
    assert Last(suffix) == Last(st.stack);
    assert Init(suffix) == Init(st.stack)[k..];
  }

  /** The loop for `)`: pops until `(` is on top or the stack is empty. */
  function PopToOpen(st: Shunt): Shunt
    decreases |st.stack|
  {
    if |st.stack| > 0 && Last(st.stack) != "(" then PopToOpen(MoveTop(st)) else st
  }

  /** What `PopToOpen` leaves: it pops the suffix above the topmost `(` onto
      the output, top first, and leaves that `(` on top. */
  lemma {:induction false} PopToOpenShape(st: Shunt)
    ensures var r := PopToOpen(st);
      && |r.stack| <= |st.stack| && r.stack == st.stack[..|r.stack|]
      && r.output == st.output + Reverse(st.stack[|r.stack|..])
      && (forall i :: |r.stack| <= i < |st.stack| ==> st.stack[i] != "(")
      && (|r.stack| > 0 ==> Last(r.stack) == "(")
    decreases |st.stack|
  {
    if |st.stack| > 0 && Last(st.stack) != "(" {
      PopToOpenShape(MoveTop(st));
      MovedSuffix(st, |PopToOpen(st).stack|);
    } else {
      assert st.stack[|st.stack|..] == [];
    }
  }

  /** `)`: pop to the matching `(`, discard it, then move a function name
      found on top to the output. */
  function CloseParen(st: Shunt): Shunt {
    var a := PopToOpen(st);
    var b := if |a.stack| > 0 && Last(a.stack) == "(" then Shunt(a.output, Init(a.stack)) else a;
    if |b.stack| > 0 && IsFunction(Last(b.stack)) then Shunt(b.output + [Last(b.stack)], Init(b.stack)) else b
  }

  /** One iteration of the outer loop; a token of no known kind is dropped. */
  function Step(st: Shunt, t: string): Shunt {
    if IsNumber(t) then Shunt(st.output + [t], st.stack)
    else if IsFunction(t) then Shunt(st.output, st.stack + [t])
    else if IsOperator(t) then
      var popped := PopFor(st, t);
      Shunt(popped.output, popped.stack + [t])
    else if t == "(" then Shunt(st.output, st.stack + [t])
    else if t == ")" then CloseParen(st)
    else st
  }

  /** The outer loop over the remaining tokens. */
  function Run(st: Shunt, tokens: seq<string>): Shunt
    decreases |tokens|
  {
    if |tokens| == 0 then st else Run(Step(st, tokens[0]), tokens[1..])
  }

  /** The final loop: the rest of the stack, top first. */
  function Drain(st: Shunt): seq<string> {
    st.output + Reverse(st.stack)
  }

  /** `evaluate_expression` as a function of its token list. */
  function ToPostfix(tokens: seq<string>): seq<string> {
    Drain(Run(Shunt([], []), tokens))
  }

  /** `evaluate_expression`, loop for loop. It takes tokens off the front of
      its argument until none are left, as the source empties the list it is
      given, and returns the output queue. */
  method EvaluateExpression(characters: seq<string>) returns (outputQueue: seq<string>, remaining: seq<string>)
    ensures remaining == []
    ensures outputQueue == ToPostfix(characters)
  {
    remaining := characters;
    var output: seq<string> := [];
    var stack: seq<string> := [];
    while |remaining| > 0
      invariant Run(Shunt(output, stack), remaining) == Run(Shunt([], []), characters)
      decreases |remaining|
    {
      var character := remaining[0];
      ghost var before := Shunt(output, stack);
      ghost var rest := remaining[1..];
      remaining := remaining[1..];
      if IsNumber(character) {
        output := output + [character];
      } else if IsFunction(character) {
        stack := stack + [character];
      } else if IsOperator(character) {
        while |stack| > 0 && Yields(stack[|stack| - 1], character)
          invariant PopFor(Shunt(output, stack), character) == PopFor(before, character)
          decreases |stack|
        {
          output := output + [stack[|stack| - 1]];
          stack := stack[..|stack| - 1];
        }
        stack := stack + [character];
      } else if character == "(" {
        stack := stack + [character];
      } else if character == ")" {
        while |stack| > 0 && stack[|stack| - 1] != "("
          invariant PopToOpen(Shunt(output, stack)) == PopToOpen(before)
          decreases |stack|
        {
          output := output + [stack[|stack| - 1]];
          stack := stack[..|stack| - 1];
        }
        if |stack| > 0 && stack[|stack| - 1] == "(" {
          stack := stack[..|stack| - 1];
        }
        if |stack| > 0 && IsFunction(stack[|stack| - 1]) {
          output := output + [stack[|stack| - 1]];
          stack := stack[..|stack| - 1];
        }
      }
      assert Shunt(output, stack) == Step(before, character);
      assert Run(before, [character] + rest) == Run(Step(before, character), rest);
    }
    while |stack| > 0
      invariant output + Reverse(stack) == ToPostfix(characters)
      decreases |stack|
    {
      output := output + [stack[|stack| - 1]];
      stack := stack[..|stack| - 1];
    }
    outputQueue := output;
  }

  // ---------------------------------------------------------------------------
  // What the conversion keeps
  // ---------------------------------------------------------------------------

  /** The numbers the output has received so far, in order. */
  function Numbers(st: Shunt): seq<string> {
    Filter(IsNumber, st.output)
  }

  /** The operators and function names held by output and stack together. */
  function Operations(st: Shunt): multiset<string> {
    multiset(Filter(IsOperatorOrFunction, st.output)) + multiset(Filter(IsOperatorOrFunction, st.stack))
  }

  /** The invariants of the conversion: the stack holds only operators,
      function names and `(`, and the output only those and numbers. */
  predicate Sound(st: Shunt) {
    AllStackable(st.stack) && AllEmittable(st.output)
  }

  /** Moving the top of the stack to the output keeps the numbers and
      soundness. */
  lemma MoveTopKeeps(st: Shunt)
    requires |st.stack| > 0 && Sound(st)
    ensures Sound(MoveTop(st))
    ensures Numbers(MoveTop(st)) == Numbers(st)
  {
    var x := Last(st.stack);
    TokenKinds(x);
    FilterAppend(IsNumber, st.output, [x]);
  }

  lemma {:induction false} PopForKeeps(st: Shunt, op: string)
    requires IsOperator(op) && Sound(st)
    ensures Sound(PopFor(st, op))
    ensures Numbers(PopFor(st, op)) == Numbers(st)
    decreases |st.stack|
  {
    if |st.stack| > 0 && Yields(Last(st.stack), op) {
      MoveTopKeeps(st);
      PopForKeeps(MoveTop(st), op);
    }
  }

  lemma {:induction false} PopToOpenKeeps(st: Shunt)
    requires Sound(st)
    ensures Sound(PopToOpen(st))
    ensures Numbers(PopToOpen(st)) == Numbers(st)
    decreases |st.stack|
  {
    if |st.stack| > 0 && Last(st.stack) != "(" {
      MoveTopKeeps(st);
      PopToOpenKeeps(MoveTop(st));
    }
  }

  lemma CloseParenKeeps(st: Shunt)
    requires Sound(st)
    ensures Sound(CloseParen(st))
    ensures Numbers(CloseParen(st)) == Numbers(st)
  {
    var a := PopToOpen(st);
    PopToOpenKeeps(st);
    var b := if |a.stack| > 0 && Last(a.stack) == "(" then Shunt(a.output, Init(a.stack)) else a;
    if |b.stack| > 0 && IsFunction(Last(b.stack)) {
      MoveTopKeeps(b);
      assert CloseParen(st) == MoveTop(b);
    } else {
      assert CloseParen(st) == b;
    }
  }

  /** Moving the top of the stack to the output keeps the operations, whatever
      the top is. */
  lemma MoveTopOperations(st: Shunt)
    requires |st.stack| > 0
    ensures Operations(MoveTop(st)) == Operations(st)
  {
    var x := Last(st.stack);
    FilterAppend(IsOperatorOrFunction, st.output, [x]);
    assert st.stack == Init(st.stack) + [x];
    FilterAppend(IsOperatorOrFunction, Init(st.stack), [x]);
  }

  lemma {:induction false} PopForOperations(st: Shunt, op: string)
    requires IsOperator(op)
    ensures Operations(PopFor(st, op)) == Operations(st)
    decreases |st.stack|
  {
    if |st.stack| > 0 && Yields(Last(st.stack), op) {
      MoveTopOperations(st);
      PopForOperations(MoveTop(st), op);
    }
  }

  lemma {:induction false} PopToOpenOperations(st: Shunt)
    ensures Operations(PopToOpen(st)) == Operations(st)
    decreases |st.stack|
  {
    if |st.stack| > 0 && Last(st.stack) != "(" {
      MoveTopOperations(st);
      PopToOpenOperations(MoveTop(st));
    }
  }

  /** Discarding a `(` from the top keeps the operations. */
  lemma DropOpenOperations(st: Shunt)
    requires |st.stack| > 0 && Last(st.stack) == "("
    ensures Operations(Shunt(st.output, Init(st.stack))) == Operations(st)
  {
    TokenKinds("(");
    assert Filter(IsOperatorOrFunction, ["("]) == [];
    assert st.stack == Init(st.stack) + ["("];
    FilterAppend(IsOperatorOrFunction, Init(st.stack), ["("]);
  }

  lemma CloseParenOperations(st: Shunt)
    ensures Operations(CloseParen(st)) == Operations(st)
  {
    var a := PopToOpen(st);
    PopToOpenOperations(st);
    var b := a;
    if |a.stack| > 0 && Last(a.stack) == "(" {
      DropOpenOperations(a);
      b := Shunt(a.output, Init(a.stack));
    }
    if |b.stack| > 0 && IsFunction(Last(b.stack)) {
      MoveTopOperations(b);
      assert CloseParen(st) == MoveTop(b);
    } else {
      assert CloseParen(st) == b;
    }
  }

  /** A token of one kind is `[t]` or nothing under the filter of another. */
  lemma FilterOne(p: string -> bool, t: string)
    ensures Filter(p, [t]) == if p(t) then [t] else []
  {
    assert [t][1..] == [];
  }

  /** Pushing `t` adds it to the operations when it is one. */
  lemma PushOperations(st: Shunt, t: string)
    ensures Operations(Shunt(st.output, st.stack + [t])) == Operations(st) + multiset(Filter(IsOperatorOrFunction, [t]))
  {
    FilterAppend(IsOperatorOrFunction, st.stack, [t]);
  }

  lemma OperatorStepOperations(st: Shunt, t: string)
    requires IsOperator(t)
    ensures Operations(Step(st, t)) == Operations(st) + multiset(Filter(IsOperatorOrFunction, [t]))
  {
    TokenKinds(t);
    assert Step(st, t) == Shunt(PopFor(st, t).output, PopFor(st, t).stack + [t]);
    PopForOperations(st, t);
    PushOperations(PopFor(st, t), t);
  }

  lemma CloseStepOperations(st: Shunt)
    ensures Operations(Step(st, ")")) == Operations(st) + multiset(Filter(IsOperatorOrFunction, [")"]))
  {
    TokenKinds(")");
    FilterOne(IsOperatorOrFunction, ")");
    assert Step(st, ")") == CloseParen(st);
    CloseParenOperations(st);
  }

  /** One step adds the token to the operations when it is one. */
  lemma StepOperations(st: Shunt, t: string)
    ensures Operations(Step(st, t)) == Operations(st) + multiset(Filter(IsOperatorOrFunction, [t]))
  {
    TokenKinds(t);
    if IsNumber(t) {
      FilterOne(IsOperatorOrFunction, t);
      FilterAppend(IsOperatorOrFunction, st.output, [t]);
    } else if IsFunction(t) || t == "(" {
      PushOperations(st, t);
    } else if IsOperator(t) {
      OperatorStepOperations(st, t);
    } else if t == ")" {
      CloseStepOperations(st);
    } else {
      FilterOne(IsOperatorOrFunction, t);
    }
  }

  /** Pushing a stackable token keeps the numbers and soundness. */
  lemma PushKeeps(st: Shunt, t: string)
    requires Sound(st) && Stackable(t)
    ensures Sound(Shunt(st.output, st.stack + [t]))
    ensures Numbers(Shunt(st.output, st.stack + [t])) == Numbers(st)
  {
  }

  lemma NumberStepKeeps(st: Shunt, t: string)
    requires Sound(st) && IsNumber(t)
    ensures Sound(Step(st, t)) && Numbers(Step(st, t)) == Numbers(st) + Filter(IsNumber, [t])
  {
    assert Step(st, t) == Shunt(st.output + [t], st.stack);
    FilterOne(IsNumber, t);
    FilterAppend(IsNumber, st.output, [t]);
  }

  lemma PushStepKeeps(st: Shunt, t: string)
    requires Sound(st) && (IsFunction(t) || t == "(")
    ensures Sound(Step(st, t)) && Numbers(Step(st, t)) == Numbers(st) + Filter(IsNumber, [t])
  {
    TokenKinds(t);
    FilterOne(IsNumber, t);
    assert Step(st, t) == Shunt(st.output, st.stack + [t]);
    PushKeeps(st, t);
  }

  lemma OperatorStepKeeps(st: Shunt, t: string)
    requires Sound(st) && IsOperator(t)
    ensures Sound(Step(st, t)) && Numbers(Step(st, t)) == Numbers(st) + Filter(IsNumber, [t])
  {
    TokenKinds(t);
    FilterOne(IsNumber, t);
    assert Step(st, t) == Shunt(PopFor(st, t).output, PopFor(st, t).stack + [t]);
    PopForKeeps(st, t);
    PushKeeps(PopFor(st, t), t);
  }

  lemma CloseStepKeeps(st: Shunt)
    requires Sound(st)
    ensures Sound(Step(st, ")")) && Numbers(Step(st, ")")) == Numbers(st) + Filter(IsNumber, [")"])
  {
    TokenKinds(")");
    FilterOne(IsNumber, ")");
    assert Step(st, ")") == CloseParen(st);
    CloseParenKeeps(st);
  }

  /** A token of no known kind leaves the state as it was. */
  lemma OtherStepKeeps(st: Shunt, t: string)
    requires Sound(st) && !IsNumber(t) && !IsFunction(t) && !IsOperator(t) && t != "(" && t != ")"
    ensures Sound(Step(st, t)) && Numbers(Step(st, t)) == Numbers(st) + Filter(IsNumber, [t])
  {
    FilterOne(IsNumber, t);
    assert Step(st, t) == st;
  }

  /** One step keeps the invariants of the conversion, adding the token to
      the numbers or to the operations according to its kind. */
  lemma StepKeeps(st: Shunt, t: string)
    requires Sound(st)
    ensures Sound(Step(st, t))
    ensures Numbers(Step(st, t)) == Numbers(st) + Filter(IsNumber, [t])
    ensures Operations(Step(st, t)) == Operations(st) + multiset(Filter(IsOperatorOrFunction, [t]))
  {
    StepOperations(st, t);
    if IsNumber(t) {
      NumberStepKeeps(st, t);
    } else if IsFunction(t) || t == "(" {
      PushStepKeeps(st, t);
    } else if IsOperator(t) {
      OperatorStepKeeps(st, t);
    } else if t == ")" {
      CloseStepKeeps(st);
    } else {
      OtherStepKeeps(st, t);
    }
  }

  lemma {:induction false} RunSound(st: Shunt, ts: seq<string>)
    requires Sound(st)
    ensures Sound(Run(st, ts))
    decreases |ts|
  {
    if |ts| > 0 {
      StepKeeps(st, ts[0]);
      RunSound(Step(st, ts[0]), ts[1..]);
    }
  }

  lemma {:induction false} RunNumbers(st: Shunt, ts: seq<string>)
    requires Sound(st)
    ensures Numbers(Run(st, ts)) == Numbers(st) + Filter(IsNumber, ts)
    decreases |ts|
  {
    if |ts| > 0 {
      var rest := ts[1..];
      StepKeeps(st, ts[0]);
      RunNumbers(Step(st, ts[0]), rest);
      assert ts == [ts[0]] + rest;
      FilterAppend(IsNumber, [ts[0]], rest);
    }
  }

  lemma {:induction false} RunOperations(st: Shunt, ts: seq<string>)
    ensures Operations(Run(st, ts)) == Operations(st) + multiset(Filter(IsOperatorOrFunction, ts))
    decreases |ts|
  {
    if |ts| > 0 {
      var next, rest := Step(st, ts[0]), ts[1..];
      var head := multiset(Filter(IsOperatorOrFunction, [ts[0]]));
      calc {
        Operations(Run(st, ts));
        Operations(Run(next, rest));
        { RunOperations(next, rest); }
        Operations(next) + multiset(Filter(IsOperatorOrFunction, rest));
        { StepOperations(st, ts[0]); }
        Operations(st) + head + multiset(Filter(IsOperatorOrFunction, rest));
        { assert ts == [ts[0]] + rest;
          FilterAppend(IsOperatorOrFunction, [ts[0]], rest); }
        Operations(st) + multiset(Filter(IsOperatorOrFunction, ts));
      }
    }
  }

  /** The whole outer loop keeps the invariants of the conversion. */
  lemma RunKeeps(st: Shunt, ts: seq<string>)
    requires Sound(st)
    ensures Sound(Run(st, ts))
    ensures Numbers(Run(st, ts)) == Numbers(st) + Filter(IsNumber, ts)
    ensures Operations(Run(st, ts)) == Operations(st) + multiset(Filter(IsOperatorOrFunction, ts))
  {
    RunSound(st, ts);
    RunNumbers(st, ts);
    RunOperations(st, ts);
  }

  /** Draining the stack is moving its top to the output until it is empty. */
  lemma {:induction false} DrainKeeps(st: Shunt)
    requires Sound(st)
    ensures AllEmittable(Drain(st))
    ensures Filter(IsNumber, Drain(st)) == Numbers(st)
    ensures multiset(Filter(IsOperatorOrFunction, Drain(st))) == Operations(st)
    decreases |st.stack|
  {
    if |st.stack| == 0 {
      assert Drain(st) == st.output;
    } else {
      assert Drain(st) == Drain(MoveTop(st));
      MoveTopKeeps(st);
      MoveTopOperations(st);
      DrainKeeps(MoveTop(st));
    }
  }

  lemma ToPostfixKeeps(tokens: seq<string>)
    ensures AllEmittable(ToPostfix(tokens))
    ensures Filter(IsNumber, ToPostfix(tokens)) == Filter(IsNumber, tokens)
    ensures multiset(Filter(IsOperatorOrFunction, ToPostfix(tokens))) == multiset(Filter(IsOperatorOrFunction, tokens))
  {
    var start := Shunt([], []);
    assert Numbers(start) == [] && Operations(start) == multiset{};
    RunKeeps(start, tokens);
    DrainKeeps(Run(start, tokens));
  }

  /** Numbers go only to the output: the postfix list holds the input's
      numbers in their original order. */
  lemma PostfixKeepsNumberOrder(tokens: seq<string>)
    ensures Filter(IsNumber, ToPostfix(tokens)) == Filter(IsNumber, tokens)
  {
    ToPostfixKeeps(tokens);
  }

  /** Every operator and function name of the input reaches the output exactly once. */
  lemma PostfixKeepsOperators(tokens: seq<string>)
    ensures multiset(Filter(IsOperatorOrFunction, ToPostfix(tokens))) == multiset(Filter(IsOperatorOrFunction, tokens))
  {
    ToPostfixKeeps(tokens);
  }

  /** The output holds only numbers, operators, function names and unmatched
      `(`: never `)`, and never a token of no known kind. */
  lemma PostfixTokenKinds(tokens: seq<string>)
    ensures forall i :: 0 <= i < |ToPostfix(tokens)| ==> Emittable(ToPostfix(tokens)[i])
    ensures ")" !in ToPostfix(tokens)
  {
    ToPostfixKeeps(tokens);
    TokenKinds(")");
  }

  /** On `)` with a `(` at index `j` of the stack and none above it: the
      operators above it go to the output top first, the `(` is discarded,
      and a function name then on top follows them to the output. */
  lemma CloseParenMatched(st: Shunt, j: nat)
    requires j < |st.stack| && st.stack[j] == "("
    requires forall i :: j < i < |st.stack| ==> st.stack[i] != "("
    ensures CloseParen(st) ==
      var out := st.output + Reverse(st.stack[j + 1..]);
      var below := st.stack[..j];
      if |below| > 0 && IsFunction(Last(below)) then Shunt(out + [Last(below)], Init(below))
      else Shunt(out, below)
  {
    var a := PopToOpen(st);
    PopToOpenShape(st);
    assert j < |a.stack|;
    assert st.stack[|a.stack| - 1] == a.stack[|a.stack| - 1] == "(";
    assert Init(a.stack) == st.stack[..j];
  }

  /** On `)` with no `(` on the stack, the whole stack goes to the output. */
  lemma CloseParenUnmatched(st: Shunt)
    requires forall i :: 0 <= i < |st.stack| ==> st.stack[i] != "("
    ensures CloseParen(st) == Shunt(st.output + Reverse(st.stack), [])
  {
    var a := PopToOpen(st);
    PopToOpenShape(st);
    assert st.stack[0..] == st.stack;
  }

  /** Reading a number appends it to the output. */
  lemma NumberCons(st: Shunt, t: string, rest: seq<string>)
    requires IsNumber(t)
    ensures Run(st, [t] + rest) == Run(Shunt(st.output + [t], st.stack), rest)
  {
    assert ([t] + rest)[0] == t && ([t] + rest)[1..] == rest;
  }

  /** Reading `(` pushes it. */
  lemma OpenCons(st: Shunt, rest: seq<string>)
    ensures Run(st, ["("] + rest) == Run(Shunt(st.output, st.stack + ["("]), rest)
  {
    TokenKinds("(");
    assert (["("] + rest)[0] == "(" && (["("] + rest)[1..] == rest;
  }

  /** Reading an operator when the top does not yield to it pushes it. */
  lemma OperatorPushCons(st: Shunt, op: string, rest: seq<string>)
    requires IsOperator(op) && (|st.stack| == 0 || !Yields(Last(st.stack), op))
    ensures Run(st, [op] + rest) == Run(Shunt(st.output, st.stack + [op]), rest)
  {
    TokenKinds(op);
    assert PopFor(st, op) == st;
    assert ([op] + rest)[0] == op && ([op] + rest)[1..] == rest;
  }

  /** Reading an operator right after `(` pushes it on the `(`. */
  lemma OperatorOnOpenCons(output: seq<string>, below: seq<string>, op: string, rest: seq<string>)
    requires IsOperator(op)
    ensures Run(Shunt(output, below + ["("]), [op] + rest) == Run(Shunt(output, below + ["(", op]), rest)
  {
    var st := Shunt(output, below + ["("]);
    TokenKinds("(");
    assert Last(st.stack) == "(" && !Yields("(", op);
    OperatorPushCons(st, op, rest);
    assert st.stack + [op] == below + ["(", op];
  }

  /** Reading an operator when the only stacked element yields to it moves
      that element out and pushes the operator. */
  lemma OperatorPopCons(st: Shunt, x: string, op: string, rest: seq<string>)
    requires IsOperator(op) && st.stack == [x] && Yields(x, op)
    ensures Run(st, [op] + rest) == Run(Shunt(st.output + [x], [op]), rest)
  {
    TokenKinds(op);
    var moved := Shunt(st.output + [x], []);
    assert MoveTop(st) == moved by {
      assert Last(st.stack) == x && Init(st.stack) == [];
    }
    assert PopFor(moved, op) == moved;
    assert PopFor(st, op) == moved;
    assert Step(st, op) == Shunt(st.output + [x], [op]);
    assert ([op] + rest)[0] == op && ([op] + rest)[1..] == rest;
  }

  lemma {:induction false} RunAppend(st: Shunt, a: seq<string>, b: seq<string>)
    ensures Run(st, a + b) == Run(Run(st, a), b)
    decreases |a|
  {
    if |a| == 0 {
      assert a + b == b;
    } else {
      assert (a + b)[0] == a[0] && (a + b)[1..] == a[1..] + b;
      RunAppend(Step(st, a[0]), a[1..], b);
    }
  }

  /** A single operator between two numbers is emitted after them. */
  lemma BinaryToPostfix(a: string, op: string, b: string)
    requires IsNumber(a) && IsNumber(b) && IsOperator(op)
    ensures ToPostfix([a, op, b]) == [a, b, op]
  {
    TokenKinds(op);
    var s3 := Shunt([a, b], [op]);
    assert [] + [a] == [a] && [] + [op] == [op] && [a] + [b] == [a, b];
    assert [a, op, b] == [a] + ([op] + ([b] + []));
    NumberCons(Shunt([], []), a, [op, b]);
    OperatorPushCons(Shunt([a], []), op, [b]);
    NumberCons(Shunt([a], [op]), b, []);
    assert Run(s3, []) == s3;
    assert Reverse([op]) == [op];
  }

  /** When the second of two operators does not pop the first, both wait on
      the stack and leave it in reverse: `a p b q c` becomes `a b c q p`. */
  lemma {:induction false} StackedPair(a: string, p: string, b: string, q: string, c: string)
    requires IsNumber(a) && IsNumber(b) && IsNumber(c)
    requires IsOperator(p) && IsOperator(q) && !Yields(p, q)
    ensures ToPostfix([a, p, b, q, c]) == [a, b, c, q, p]
  {
    calc {
      Run(Shunt([], []), [a, p, b, q, c]);
      { assert [a, p, b, q, c] == [a] + [p, b, q, c] && [] + [a] == [a];
        NumberCons(Shunt([], []), a, [p, b, q, c]); }
      Run(Shunt([a], []), [p, b, q, c]);
      { assert [p, b, q, c] == [p] + [b, q, c] && [] + [p] == [p];
        OperatorPushCons(Shunt([a], []), p, [b, q, c]); }
      Run(Shunt([a], [p]), [b, q, c]);
      { assert [b, q, c] == [b] + [q, c] && [a] + [b] == [a, b];
        NumberCons(Shunt([a], [p]), b, [q, c]); }
      Run(Shunt([a, b], [p]), [q, c]);
      { assert [q, c] == [q] + [c] && [p] + [q] == [p, q];
        OperatorPushCons(Shunt([a, b], [p]), q, [c]); }
      Run(Shunt([a, b], [p, q]), [c]);
      { assert [c] == [c] + [] && [a, b] + [c] == [a, b, c];
        NumberCons(Shunt([a, b], [p, q]), c, []); }
      Run(Shunt([a, b, c], [p, q]), []);
    }
    assert Reverse([p]) == [p] by {
      assert Init([p]) == [] && Last([p]) == p;
    }
    assert Init([p, q]) == [p] && Last([p, q]) == q;
    assert Reverse([p, q]) == [q] + Reverse([p]);
  }

  /** When the second of two operators pops the first, the first is emitted
      before the third operand: `a p b q c` becomes `a b p c q`. */
  lemma {:induction false} PoppedPair(a: string, p: string, b: string, q: string, c: string)
    requires IsNumber(a) && IsNumber(b) && IsNumber(c)
    requires IsOperator(p) && IsOperator(q) && Yields(p, q)
    ensures ToPostfix([a, p, b, q, c]) == [a, b, p, c, q]
  {
    calc {
      Run(Shunt([], []), [a, p, b, q, c]);
      { assert [a, p, b, q, c] == [a] + [p, b, q, c] && [] + [a] == [a];
        NumberCons(Shunt([], []), a, [p, b, q, c]); }
      Run(Shunt([a], []), [p, b, q, c]);
      { assert [p, b, q, c] == [p] + [b, q, c] && [] + [p] == [p];
        OperatorPushCons(Shunt([a], []), p, [b, q, c]); }
      Run(Shunt([a], [p]), [b, q, c]);
      { assert [b, q, c] == [b] + [q, c] && [a] + [b] == [a, b];
        NumberCons(Shunt([a], [p]), b, [q, c]); }
      Run(Shunt([a, b], [p]), [q, c]);
      { assert [q, c] == [q] + [c] && [a, b] + [p] == [a, b, p];
        OperatorPopCons(Shunt([a, b], [p]), p, q, [c]); }
      Run(Shunt([a, b, p], [q]), [c]);
      { assert [c] == [c] + [] && [a, b, p] + [c] == [a, b, p, c];
        NumberCons(Shunt([a, b, p], [q]), c, []); }
      Run(Shunt([a, b, p, c], [q]), []);
    }
    assert Init([q]) == [] && Last([q]) == q;
    assert Reverse([q]) == [q];
  }

  /** `^` is not left-associative, so `a ^ b ^ c` chains to the right. */
  lemma PowerChainsRight(a: string, b: string, c: string)
    requires IsNumber(a) && IsNumber(b) && IsNumber(c)
    ensures ToPostfix([a, "^", b, "^", c]) == [a, b, c, "^", "^"]
  {
    assert !Yields("^", "^");
    StackedPair(a, "^", b, "^", c);
  }

  /** A left-associative operator pops its equal: `a op b op c` chains to the left. */
  lemma LeftAssociativeChainsLeft(a: string, op: string, b: string, c: string)
    requires IsNumber(a) && IsNumber(b) && IsNumber(c) && IsLeftAssociative(op)
    ensures ToPostfix([a, op, b, op, c]) == [a, b, op, c, op]
  {
    TokenKinds(op);
    assert Yields(op, op);
    PoppedPair(a, op, b, op, c);
  }

  /** An operator of higher precedence waits on the stack above a lower one:
      `a + b * c` emits `*` before `+`, and so evaluates to `a + (b * c)`. */
  lemma HigherPrecedenceStacks(a: string, b: string, c: string)
    requires IsNumber(a) && IsNumber(b) && IsNumber(c)
    ensures ToPostfix([a, "+", b, "*", c]) == [a, b, c, "*", "+"]
    ensures EvalPostfix(ToPostfix([a, "+", b, "*", c])) ==
      Ok(NumberValue(a) + NumberValue(b) * NumberValue(c))
  {
    assert !Yields("+", "*");
    StackedPair(a, "+", b, "*", c);
    SumOfProductValue(a, b, c);
  }

  /** A lower-precedence operator pops a higher one first: `a * b + c` emits
      `*` as soon as `+` arrives, and so evaluates to `(a * b) + c`. */
  lemma HigherPrecedencePops(a: string, b: string, c: string)
    requires IsNumber(a) && IsNumber(b) && IsNumber(c)
    ensures ToPostfix([a, "*", b, "+", c]) == [a, b, "*", c, "+"]
    ensures EvalPostfix(ToPostfix([a, "*", b, "+", c])) ==
      Ok(NumberValue(a) * NumberValue(b) + NumberValue(c))
  {
    assert Yields("*", "+");
    PoppedPair(a, "*", b, "+", c);
    ProductThenSumValue(a, b, c);
  }

  // ---------------------------------------------------------------------------
  // Postfix evaluation (`compute_expression`)
  // ---------------------------------------------------------------------------

  function NumberValue(t: string): real
    requires IsNumber(t)
  {
    DigitsValue(t) as real
  }

  function NatPower(a: real, n: nat): (r: real)
    ensures a != 0.0 ==> r != 0.0
    decreases n
  {
    if n == 0 then 1.0 else a * NatPower(a, n - 1)
  }

  /** `a ** b` for an integral exponent; any other exponent gives a result only
      floating point (or a complex number) can hold. */
  function Power(a: real, b: real): (r: Result<real, Fault>)
    ensures b == b.Floor as real && b >= 0.0 ==> r == Ok(NatPower(a, b.Floor))
    ensures b != b.Floor as real ==> r.Err?
    ensures r == Err(DivisionByZero) <==> a == 0.0 && b < 0.0 && b == b.Floor as real
    ensures b == b.Floor as real && b < 0.0 && a != 0.0 ==>
      r.Ok? && r.value * NatPower(a, -b.Floor) == 1.0
  {
    if b != b.Floor as real then Err(Unmodelled("non-integral power"))
    else if b >= 0.0 then Ok(NatPower(a, b.Floor))
    else if a == 0.0 then Err(DivisionByZero)
    else Ok(1.0 / NatPower(a, -b.Floor))
  }

  /** `perform_operation(operand1, operand2, operator)`. */
  function PerformOperation(a: real, b: real, op: string): (r: Result<real, Fault>)
    ensures op == "/" ==> (r.Ok? <==> b != 0.0)
    ensures op == "/" && b != 0.0 ==> r.value * b == a
    ensures op == "+" ==> r == Ok(a + b)
    ensures op == "-" ==> r == Ok(a - b)
    ensures op == "*" ==> r == Ok(a * b)
    ensures op == "^" ==> r == Power(a, b)
    ensures !IsOperator(op) ==> r == Err(InvalidOperand)
  {
    if op == "+" then Ok(a + b)
    else if op == "-" then Ok(a - b)
    else if op == "*" then Ok(a * b)
    else if op == "/" then (if b == 0.0 then Err(DivisionByZero) else Ok(a / b))
    else if op == "^" then Power(a, b)
    else Err(InvalidOperand)
  }

  /** The loop of `compute_expression` from a given operand stack. A binary
      operator pops the right operand first, then the left one; a function
      pops one operand; any other token is skipped. */
  function EvalFrom(stack: seq<real>, tokens: seq<string>): Result<seq<real>, Fault>
    decreases |tokens|
  {
    if |tokens| == 0 then Ok(stack)
    else
      var t := tokens[0];
      if IsNumber(t) then EvalFrom(stack + [NumberValue(t)], tokens[1..])
      else if IsOperator(t) then
        if |stack| < 2 then Err(StackUnderflow)
        else
          match PerformOperation(stack[|stack| - 2], stack[|stack| - 1], t)
          case Err(e) => Err(e)
          case Ok(v) => EvalFrom(stack[..|stack| - 2] + [v], tokens[1..])
      else if IsFunction(t) then
        if |stack| == 0 then Err(StackUnderflow) else Err(Unmodelled(t))
      else EvalFrom(stack, tokens[1..])
  }

  /** `compute_expression`: the top of the final stack; whatever lies below it
      is ignored, and an empty final stack is an underflow. */
  function EvalPostfix(tokens: seq<string>): Result<real, Fault> {
    match EvalFrom([], tokens)
    case Err(e) => Err(e)
    case Ok(stack) => if |stack| == 0 then Err(StackUnderflow) else Ok(Last(stack))
  }

  /** Two numbers at the front of the postfix list are pushed as their values. */
  lemma TwoNumbersPush(a: string, b: string, rest: seq<string>)
    requires IsNumber(a) && IsNumber(b)
    ensures EvalFrom([], [a, b] + rest) == EvalFrom([NumberValue(a), NumberValue(b)], rest)
  {
    calc {
      EvalFrom([], [a, b] + rest);
      { assert [a, b] + rest == [a] + ([b] + rest); NumberPush([], a, [b] + rest); }
      EvalFrom([] + [NumberValue(a)], [b] + rest);
      { assert [] + [NumberValue(a)] == [NumberValue(a)]; NumberPush([NumberValue(a)], b, rest); }
      EvalFrom([NumberValue(a)] + [NumberValue(b)], rest);
      { assert [NumberValue(a)] + [NumberValue(b)] == [NumberValue(a), NumberValue(b)]; }
      EvalFrom([NumberValue(a), NumberValue(b)], rest);
    }
  }

  /** On the stack `x y z`, the operators `* +` leave `x + (y * z)`. */
  lemma SumOfProductStack(x: real, y: real, z: real)
    ensures EvalFrom([x, y, z], ["*", "+"]) == Ok([x + y * z])
  {
    calc {
      EvalFrom([x, y, z], ["*", "+"]);
      { assert [x, y, z] == [x] + [y] + [z] && ["*", "+"] == ["*"] + ["+"];
        OperatorOnPair([x], y, z, "*", ["+"]); }
      EvalFrom([x] + [y * z], ["+"]);
      { assert [x] + [y * z] == [] + [x] + [y * z] && ["+"] == ["+"] + [];
        OperatorOnPair([], x, y * z, "+", []); }
      EvalFrom([] + [x + y * z], []);
      { assert [] + [x + y * z] == [x + y * z]; }
      Ok([x + y * z]);
    }
  }

  /** On the stack `x y`, the list `* c +` leaves `(x * y) + c`. */
  lemma ProductThenSumStack(x: real, y: real, c: string)
    requires IsNumber(c)
    ensures EvalFrom([x, y], ["*", c, "+"]) == Ok([x * y + NumberValue(c)])
  {
    var z := NumberValue(c);
    calc {
      EvalFrom([x, y], ["*", c, "+"]);
      { assert [x, y] == [] + [x] + [y] && ["*", c, "+"] == ["*"] + [c, "+"];
        OperatorOnPair([], x, y, "*", [c, "+"]); }
      EvalFrom([] + [x * y], [c, "+"]);
      { assert [c, "+"] == [c] + ["+"]; NumberPush([] + [x * y], c, ["+"]); }
      EvalFrom([] + [x * y] + [z], ["+"]);
      { assert ["+"] == ["+"] + []; OperatorOnPair([], x * y, z, "+", []); }
      EvalFrom([] + [x * y + z], []);
      { assert [] + [x * y + z] == [x * y + z]; }
      Ok([x * y + NumberValue(c)]);
    }
  }

  /** The postfix list `a b c * +` computes `a + (b * c)`. */
  lemma SumOfProductValue(a: string, b: string, c: string)
    requires IsNumber(a) && IsNumber(b) && IsNumber(c)
    ensures EvalPostfix([a, b, c, "*", "+"]) == Ok(NumberValue(a) + NumberValue(b) * NumberValue(c))
  {
    var va, vb, vc := NumberValue(a), NumberValue(b), NumberValue(c);
    calc {
      EvalFrom([], [a, b, c, "*", "+"]);
      { assert [a, b, c, "*", "+"] == [a, b] + [c, "*", "+"]; TwoNumbersPush(a, b, [c, "*", "+"]); }
      EvalFrom([va, vb], [c, "*", "+"]);
      { assert [c, "*", "+"] == [c] + ["*", "+"] && [va, vb] + [vc] == [va, vb, vc];
        NumberPush([va, vb], c, ["*", "+"]); }
      EvalFrom([va, vb, vc], ["*", "+"]);
      { SumOfProductStack(va, vb, vc); }
      Ok([va + vb * vc]);
    }
    assert Last([va + vb * vc]) == va + vb * vc;
  }

  /** The postfix list `a b * c +` computes `(a * b) + c`. */
  lemma ProductThenSumValue(a: string, b: string, c: string)
    requires IsNumber(a) && IsNumber(b) && IsNumber(c)
    ensures EvalPostfix([a, b, "*", c, "+"]) == Ok(NumberValue(a) * NumberValue(b) + NumberValue(c))
  {
    var va, vb, vc := NumberValue(a), NumberValue(b), NumberValue(c);
    calc {
      EvalFrom([], [a, b, "*", c, "+"]);
      { assert [a, b, "*", c, "+"] == [a, b] + ["*", c, "+"]; TwoNumbersPush(a, b, ["*", c, "+"]); }
      EvalFrom([va, vb], ["*", c, "+"]);
      { ProductThenSumStack(va, vb, c); }
      Ok([va * vb + vc]);
    }
    assert Last([va * vb + vc]) == va * vb + vc;
  }

  /** An operator at the front of the postfix list finds an empty stack:
      the first `pop` raises. */
  lemma OperatorFirstUnderflows(op: string, rest: seq<string>)
    requires IsOperator(op)
    ensures EvalPostfix([op] + rest) == Err(StackUnderflow)
  {
    TokenKinds(op);
    assert ([op] + rest)[0] == op;
  }

  /** An operator after a single number finds one operand: the second `pop`
      raises. */
  lemma OperatorAfterOneUnderflows(a: string, op: string, rest: seq<string>)
    requires IsNumber(a) && IsOperator(op)
    ensures EvalPostfix([a, op] + rest) == Err(StackUnderflow)
  {
    TokenKinds(op);
    var ts := [a, op] + rest;
    assert ts[0] == a && ts[1..] == [op] + rest && ([op] + rest)[0] == op;
    assert EvalFrom([], ts) == EvalFrom([NumberValue(a)], [op] + rest);
  }

  /** `a b op` applies `op` with the second-popped value `a` on the left. */
  lemma SecondPoppedIsLeft(a: string, b: string, op: string)
    requires IsNumber(a) && IsNumber(b) && IsOperator(op)
    ensures EvalPostfix([a, b, op]) == PerformOperation(NumberValue(a), NumberValue(b), op)
  {
    TokenKinds(a);
    TokenKinds(b);
    TokenKinds(op);
    var ts := [a, b, op];
    var x, y := NumberValue(a), NumberValue(b);
    assert ts[0] == a && [] + [x] == [x];
    assert EvalFrom([], ts) == EvalFrom([x], ts[1..]);
    assert EvalFrom([x], ts[1..]) == EvalFrom([x, y], ts[2..]);
    var s := [x, y];
    assert s[|s| - 2] == x && s[|s| - 1] == y && s[..|s| - 2] == [];
    match PerformOperation(x, y, op)
    case Err(f) =>
      assert EvalFrom([x, y], ts[2..]) == Err(f);
    case Ok(v) =>
      assert s[..|s| - 2] + [v] == [v];
      assert EvalFrom([x, y], ts[2..]) == EvalFrom([v], []);
  }

  /** `a op b` read from infix tokens computes `op` with `a` on the left. */
  lemma EvaluatesBinaryInfix(a: string, op: string, b: string)
    requires IsNumber(a) && IsNumber(b) && IsOperator(op)
    ensures EvalPostfix(ToPostfix([a, op, b])) == PerformOperation(NumberValue(a), NumberValue(b), op)
  {
    BinaryToPostfix(a, op, b);
    SecondPoppedIsLeft(a, b, op);
  }

  // ---------------------------------------------------------------------------
  // Reference semantics: expression trees
  // ---------------------------------------------------------------------------

  /** An arithmetic expression over natural-number literals. */
  datatype Expr = Num(n: nat) | Apply(op: string, left: Expr, right: Expr)

  predicate WellFormed(e: Expr) {
    match e
    case Num(_) => true
    case Apply(op, l, r) => IsOperator(op) && WellFormed(l) && WellFormed(r)
  }

  /** The value of an expression: left operand first, then right, then the operator. */
  function Denote(e: Expr): Result<real, Fault> {
    match e
    case Num(n) => Ok(n as real)
    case Apply(op, l, r) =>
      match Denote(l)
      case Err(f) => Err(f)
      case Ok(a) =>
        match Denote(r)
        case Err(f) => Err(f)
        case Ok(b) => PerformOperation(a, b, op)
  }

  /** Postfix order: left operand, right operand, operator. */
  function PostfixOf(e: Expr): seq<string> {
    match e
    case Num(n) => [NatToDecimal(n)]
    case Apply(op, l, r) => PostfixOf(l) + PostfixOf(r) + [op]
  }

  /** Infix order with every operation in parentheses. */
  function InfixOf(e: Expr): seq<string> {
    match e
    case Num(n) => [NatToDecimal(n)]
    case Apply(op, l, r) => ["("] + InfixOf(l) + [op] + InfixOf(r) + [")"]
  }

  /** A number is pushed onto the stack as its value. */
  lemma NumberPush(stack: seq<real>, t: string, rest: seq<string>)
    requires IsNumber(t)
    ensures EvalFrom(stack, [t] + rest) == EvalFrom(stack + [NumberValue(t)], rest)
  {
    assert ([t] + rest)[0] == t && ([t] + rest)[1..] == rest;
  }

  /** An operator finding `a` and `b` on top of the stack replaces them with
      the result of the operation, or fails with its fault. */
  lemma OperatorOnPair(stack: seq<real>, a: real, b: real, op: string, rest: seq<string>)
    requires IsOperator(op)
    ensures PerformOperation(a, b, op).Err? ==>
      EvalFrom(stack + [a] + [b], [op] + rest) == Err(PerformOperation(a, b, op).error)
    ensures PerformOperation(a, b, op).Ok? ==>
      EvalFrom(stack + [a] + [b], [op] + rest) == EvalFrom(stack + [PerformOperation(a, b, op).value], rest)
  {
    TokenKinds(op);
    var s := stack + [a] + [b];
    assert ([op] + rest)[0] == op && ([op] + rest)[1..] == rest;
    assert s[|s| - 2] == a && s[|s| - 1] == b && s[..|s| - 2] == stack;
  }

  /** Evaluating the postfix form of an expression pushes its value, or fails
      as the expression does; the stack below is untouched. */
  lemma {:induction false} EvalPostfixOf(e: Expr, stack: seq<real>, rest: seq<string>)
    requires WellFormed(e)
    ensures EvalFrom(stack, PostfixOf(e) + rest) ==
      match Denote(e)
      case Err(f) => Err(f)
      case Ok(v) => EvalFrom(stack + [v], rest)
    decreases e
  {
    match e
    case Num(n) =>
      var t := NatToDecimal(n);
      assert ([t] + rest)[0] == t && ([t] + rest)[1..] == rest;
    case Apply(op, l, r) =>
      assert PostfixOf(e) + rest == PostfixOf(l) + (PostfixOf(r) + ([op] + rest));
      EvalPostfixOf(l, stack, PostfixOf(r) + ([op] + rest));
      if Denote(l).Ok? {
        var a := Denote(l).value;
        EvalPostfixOf(r, stack + [a], [op] + rest);
        if Denote(r).Ok? {
          OperatorOnPair(stack, Denote(l).value, Denote(r).value, op, rest);
        }
      }
  }

  /** Postfix evaluation computes the value of the expression the list encodes. */
  lemma EvalPostfixMatchesTree(e: Expr)
    requires WellFormed(e)
    ensures EvalPostfix(PostfixOf(e)) == Denote(e)
  {
    EvalPostfixOf(e, [], []);
    assert PostfixOf(e) + [] == PostfixOf(e);
  }

  /** Entries left below the top of the final stack are ignored: evaluating
      two encoded expressions one after the other yields the second's value. */
  lemma EvalIgnoresLeftovers(first: Expr, second: Expr)
    requires WellFormed(first) && WellFormed(second) && Denote(first).Ok?
    ensures EvalPostfix(PostfixOf(first) + PostfixOf(second)) == Denote(second)
  {
    var v := Denote(first).value;
    EvalPostfixOf(first, [], PostfixOf(second));
    assert [] + [v] == [v];
    assert PostfixOf(second) + [] == PostfixOf(second);
    EvalPostfixOf(second, [v], []);
    if Denote(second).Ok? {
      var w := Denote(second).value;
      assert [v] + [w] == [v, w];
      assert EvalFrom([v, w], []) == Ok([v, w]);
    }
  }

  /** `)` read with `(` and an operator on top moves the operator out and
      discards the `(`, unless a function name lies below it. */
  lemma CloseAfterOperator(st: Shunt, below: seq<string>, op: string)
    requires IsOperator(op) && st.stack == below + ["(", op]
    requires |below| == 0 || !IsFunction(Last(below))
    ensures Run(st, [")"]) == Shunt(st.output + [op], below)
  {
    TokenKinds(op);
    TokenKinds(")");
    CloseParenMatched(st, |below|);
    assert st.stack[|below| + 1..] == [op];
    assert st.stack[..|below|] == below;
    assert Reverse([op]) == [op];
    assert [")"][1..] == [];
  }

  /** The first half of an operation `( l op r )`, where reading the left
      operand's tokens `left` on top of `(` emits `emitted`: afterwards the
      operator sits on the `(`. */
  lemma RunInfixLeftHalf(st: Shunt, op: string, left: seq<string>, emitted: seq<string>, rest: seq<string>)
    requires IsOperator(op)
    requires Run(Shunt(st.output, st.stack + ["("]), left) == Shunt(st.output + emitted, st.stack + ["("])
    ensures Run(st, ["("] + (left + ([op] + rest))) == Run(Shunt(st.output + emitted, st.stack + ["(", op]), rest)
  {
    var s1 := Shunt(st.output, st.stack + ["("]);
    OpenCons(st, left + ([op] + rest));
    RunAppend(s1, left, [op] + rest);
    OperatorOnOpenCons(st.output + emitted, st.stack, op, rest);
  }

  /** The second half of an operation `( l op r )`, where reading the right
      operand's tokens `right` emits `emitted`: the closing parenthesis then
      moves the operator out and drops the `(`. */
  lemma RunInfixRightHalf(st: Shunt, below: seq<string>, op: string, right: seq<string>, emitted: seq<string>)
    requires IsOperator(op) && st.stack == below + ["(", op]
    requires |below| == 0 || !IsFunction(Last(below))
    requires Run(st, right) == Shunt(st.output + emitted, st.stack)
    ensures Run(st, right + [")"]) == Shunt(st.output + emitted + [op], below)
  {
    RunAppend(st, right, [")"]);
    CloseAfterOperator(Shunt(st.output + emitted, st.stack), below, op);
  }

  /** The step of `RunInfixOf` for one operation, given the claim for both operands. */
  lemma RunInfixApply(st: Shunt, op: string, l: Expr, r: Expr)
    requires IsOperator(op)
    requires |st.stack| == 0 || !IsFunction(Last(st.stack))
    requires Run(Shunt(st.output, st.stack + ["("]), InfixOf(l)) == Shunt(st.output + PostfixOf(l), st.stack + ["("])
    requires Run(Shunt(st.output + PostfixOf(l), st.stack + ["(", op]), InfixOf(r))
          == Shunt(st.output + PostfixOf(l) + PostfixOf(r), st.stack + ["(", op])
    ensures Run(st, InfixOf(Apply(op, l, r))) == Shunt(st.output + PostfixOf(Apply(op, l, r)), st.stack)
  {
    var L, R, PL, PR := InfixOf(l), InfixOf(r), PostfixOf(l), PostfixOf(r);
    var s3 := Shunt(st.output + PL, st.stack + ["(", op]);
    ApplyForms(st.output, op, l, r);
    RunInfixLeftHalf(st, op, L, PL, R + [")"]);
    RunInfixRightHalf(s3, st.stack, op, R, PR);
  }

  /** The token lists of an operation, regrouped as `RunInfixApply` reads them. */
  lemma ApplyForms(output: seq<string>, op: string, l: Expr, r: Expr)
    ensures InfixOf(Apply(op, l, r)) == ["("] + (InfixOf(l) + ([op] + (InfixOf(r) + [")"])))
    ensures output + PostfixOf(l) + PostfixOf(r) + [op] == output + PostfixOf(Apply(op, l, r))
  {
  }

  /** The conversion turns a fully parenthesised expression into its postfix
      order, whatever lies on the stack below, unless a function name sits
      directly below (a closing parenthesis would then move it out too). */
  lemma {:induction false} RunInfixOf(e: Expr, st: Shunt)
    requires WellFormed(e)
    requires |st.stack| == 0 || !IsFunction(Last(st.stack))
    ensures Run(st, InfixOf(e)) == Shunt(st.output + PostfixOf(e), st.stack)
    decreases e
  {
    match e
    case Num(n) =>
      var t := NatToDecimal(n);
      TokenKinds(t);
      assert [t][1..] == [];
    case Apply(op, l, r) =>
      TokenKinds("(");
      TokenKinds(op);
      RunInfixOf(l, Shunt(st.output, st.stack + ["("]));
      RunInfixOf(r, Shunt(st.output + PostfixOf(l), st.stack + ["(", op]));
      RunInfixApply(st, op, l, r);
  }

  /** The conversion of a fully parenthesised expression is its postfix form. */
  lemma ToPostfixOfInfix(e: Expr)
    requires WellFormed(e)
    ensures ToPostfix(InfixOf(e)) == PostfixOf(e)
  {
    RunInfixOf(e, Shunt([], []));
  }

  /** Conversion then evaluation computes the value of a fully parenthesised expression. */
  lemma EvaluatesParenthesisedInfix(e: Expr)
    requires WellFormed(e)
    ensures EvalPostfix(ToPostfix(InfixOf(e))) == Denote(e)
  {
    ToPostfixOfInfix(e);
    EvalPostfixMatchesTree(e);
  }
}

=== FILE: formula.dfy ===
/** `Trie.compute` of `trie_structure.py`: a formula
    `COMPUTE <expression> WHERE <name> = QUERY <keypath> [AND ...]` binds each
    name to the number a key-path query returns, substitutes the values into
    the expression text, tokenises it with a regular expression, and hands
    the tokens to the shunting-yard evaluator. Bindings live in the trie's
    `variables` dict and persist from one call to the next. */
module Formula {
  import opened Wrappers
  import opened Text
  import opened Values
  import opened TrieStore
  import opened KeyPath
  import Evaluator

  // ---------------------------------------------------------------------------
  // The `variables` dict
  // ---------------------------------------------------------------------------

  /** One entry of `Trie.variables`. */
  datatype Binding = Binding(name: string, value: Value)

  /** `variables.get(name)`. */
  function Lookup(vars: seq<Binding>, name: string): (r: Option<Value>)
    ensures r.None? <==> forall i :: 0 <= i < |vars| ==> vars[i].name != name
    ensures r.Some? ==> Binding(name, r.value) in vars
    decreases |vars|
  {
    if |vars| == 0 then None
    else if vars[0].name == name then Some(vars[0].value)
    else
      assert forall i :: 1 <= i < |vars| ==> vars[i] == vars[1..][i - 1];
      Lookup(vars[1..], name)
  }

  /** The keys of the dict, in insertion order. */
  function Names(vars: seq<Binding>): seq<string>
    decreases |vars|
  {
    if |vars| == 0 then [] else [vars[0].name] + Names(vars[1..])
  }

  predicate NoDuplicates(s: seq<string>) {
    forall i, j :: 0 <= i < j < |s| ==> s[i] != s[j]
  }

  lemma {:induction false} NoDuplicatesCons(x: string, s: seq<string>)
    ensures NoDuplicates([x] + s) <==> x !in s && NoDuplicates(s)
  {
    var t := [x] + s;
    assert forall i :: 0 <= i < |s| ==> t[i + 1] == s[i];
    if NoDuplicates(t) {
      forall k | 0 <= k < |s|
        ensures s[k] != x
      {
        assert t[0] != t[k + 1];
      }
    }
  }

  /** What every reachable `variables` dict satisfies: its keys are distinct,
      and each is a non-empty run of word characters captured by `(\w+)`. */
  predicate ValidVariables(vars: seq<Binding>) {
    (forall b :: b in vars ==> |b.name| > 0) && NoDuplicates(Names(vars))
  }

  /** Every value stored in the dict passed the `numbers.Number` test. */
  predicate Numeric(vars: seq<Binding>) {
    forall b :: b in vars ==> Values.IsNumber(b.value)
  }

  /** `variables[name] = v`: an existing key keeps its place and takes the new
      value, a new key goes last, and no other key changes its value. */
  function SetVariable(vars: seq<Binding>, name: string, v: Value): (r: seq<Binding>)
    ensures Lookup(r, name) == Some(v)
    ensures forall other :: other != name ==> Lookup(r, other) == Lookup(vars, other)
    ensures Names(r) == if name in Names(vars) then Names(vars) else Names(vars) + [name]
    decreases |vars|
  {
    if |vars| == 0 then [Binding(name, v)]
    else if vars[0].name == name then
      var r := [Binding(name, v)] + vars[1..];
      assert r[0] == Binding(name, v) && r[1..] == vars[1..];
      assert Names(r) == Names(vars) && name in Names(vars);
      r
    else
      var tail := SetVariable(vars[1..], name, v);
      var r := [vars[0]] + tail;
      assert r[0] == vars[0] && r[1..] == tail;
      assert Lookup(r, name) == Lookup(tail, name);
      assert Names(r) == [vars[0].name] + Names(tail);
      assert name in Names(vars) <==> name in Names(vars[1..]);
      r
  }

  /** Assigning into an empty dict gives a dict of that one entry. */
  lemma SetVariableEmpty(name: string, v: Value)
    ensures SetVariable([], name, v) == [Binding(name, v)]
  {
  }

  /** Every entry after the assignment is the new one or was there before. */
  lemma {:induction false} SetVariableEntries(vars: seq<Binding>, name: string, v: Value)
    ensures forall b :: b in SetVariable(vars, name, v) ==> b == Binding(name, v) || b in vars
    decreases |vars|
  {
    var r := SetVariable(vars, name, v);
    if |vars| > 0 {
      if vars[0].name == name {
        assert r == [Binding(name, v)] + vars[1..];
      } else {
        SetVariableEntries(vars[1..], name, v);
        assert r == [vars[0]] + SetVariable(vars[1..], name, v);
      }
    }
  }

  /** Assigning a non-empty name keeps the dict valid, and a number keeps it numeric. */
  lemma {:induction false} SetVariableKeeps(vars: seq<Binding>, name: string, v: Value)
    ensures ValidVariables(vars) && |name| > 0 ==> ValidVariables(SetVariable(vars, name, v))
    ensures Numeric(vars) && Values.IsNumber(v) ==> Numeric(SetVariable(vars, name, v))
  {
    SetVariableEntries(vars, name, v);
    var r := SetVariable(vars, name, v);
    if ValidVariables(vars) && |name| > 0 && name !in Names(vars) {
      DistinctSnoc(Names(vars), name);
    }
  }

  lemma {:induction false} DistinctSnoc(s: seq<string>, x: string)
    requires NoDuplicates(s) && x !in s
    ensures NoDuplicates(s + [x])
  {
    var t := s + [x];
    assert forall i :: 0 <= i < |s| ==> t[i] == s[i];
  }

  /** The model of a `Trie`: its root and its `variables` dict. */
  datatype Store = Store(root: Node, variables: seq<Binding>)

  // ---------------------------------------------------------------------------
  // The binding pattern `(\w+) = QUERY (.*)`
  // ---------------------------------------------------------------------------

  const Marker := " = QUERY "

  /** Where a match of the binding pattern can end its name: ` = QUERY `
      begins at `q`, right after a word character. */
  predicate MarkerAt(text: string, q: nat) {
    0 < q && q + |Marker| <= |text| && IsWordChar(text[q - 1]) && text[q..q + |Marker|] == Marker
  }

  /** The first marker position at or after `from`. */
  function FindMarker(text: string, from: nat): (r: Option<nat>)
    ensures r.Some? ==> from <= r.value && MarkerAt(text, r.value)
    ensures r.Some? ==> forall q :: from <= q < r.value ==> !MarkerAt(text, q)
    ensures r.None? ==> forall q :: from <= q ==> !MarkerAt(text, q)
    decreases |text| - from
  {
    if from + |Marker| > |text| then None
    else if MarkerAt(text, from) then Some(from)
    else FindMarker(text, from + 1)
  }

  /** Length of the run of word characters at the end of `s`. */
  function TrailingWordLength(s: string): (n: nat)
    ensures n <= |s| && forall i :: |s| - n <= i < |s| ==> IsWordChar(s[i])
    ensures n < |s| ==> !IsWordChar(s[|s| - n - 1])
    decreases |s|
  {
    if |s| == 0 || !IsWordChar(s[|s| - 1]) then 0
    else 1 + TrailingWordLength(s[..|s| - 1])
  }

  /** What `.*` takes: everything up to the first line break. */
  function Line(s: string): (r: string)
    ensures |r| <= |s| && r == s[..|r|] && Lacks(r, '\n')
    ensures |r| < |s| ==> s[|r|] == '\n'
    decreases |s|
  {
    if |s| == 0 || s[0] == '\n' then "" else [s[0]] + Line(s[1..])
  }

  datatype BindingText = BindingText(name: string, path: string)

  /** `re.search(r"(\w+) = QUERY (.*)", text)` followed by `.strip()` of both
      groups. Searching leftmost-first, the match starts at the earliest word
      run that is followed by the marker; the name is that whole run (whose
      strip is itself), the key-path the rest of its line, stripped. */
  function MatchBinding(text: string): (r: Option<BindingText>)
    ensures r.None? <==> forall q :: !MarkerAt(text, q)
    ensures r.Some? ==> |r.value.name| > 0 && forall i :: 0 <= i < |r.value.name| ==> IsWordChar(r.value.name[i])
  {
    match FindMarker(text, 0)
    case None => None
    case Some(q) =>
      var n := TrailingWordLength(text[..q]);
      Some(BindingText(text[q - n..q], Strip(Line(text[q + |Marker|..]))))
  }

  predicate WordRun(name: string) {
    |name| > 0 && forall i :: 0 <= i < |name| ==> IsWordChar(name[i])
  }

  /** The name of a binding written after blanks is the whole word run. */
  lemma {:induction false} TrailingWordLengthOf(pad: string, name: string)
    requires AllSpace(pad) && WordRun(name)
    ensures TrailingWordLength(pad + name) == |name|
  {
    var s := pad + name;
    assert forall i :: |pad| <= i < |s| ==> s[i] == name[i - |pad|];
    if |pad| > 0 {
      assert !IsWordChar(s[|pad| - 1]) by {
        assert s[|pad| - 1] == pad[|pad| - 1];
        assert IsSpace(pad[|pad| - 1]);
      }
    }
  }

  /** `.*` takes the whole of a text without line breaks. */
  lemma {:induction false} LineWhole(s: string)
    requires Lacks(s, '\n')
    ensures Line(s) == s
  {
    var r := Line(s);
  }

  /** In a binding written after blanks, the first marker is the one after the name. */
  lemma {:induction false} FirstMarkerOf(pad: string, name: string, path: string)
    requires AllSpace(pad) && WordRun(name)
    ensures FindMarker(pad + name + Marker + path, 0) == Some(|pad| + |name|)
  {
    var text := pad + name + Marker + path;
    var q := |pad| + |name|;
    assert text[q - 1] == name[|name| - 1];
    assert text[q..q + |Marker|] == Marker;
    assert MarkerAt(text, q);
    forall p: nat | p < q
      ensures !MarkerAt(text, p)
    {
      if 0 < p && p + |Marker| <= |text| {
        if p <= |pad| {
          assert text[p - 1] == pad[p - 1];
          assert IsSpace(pad[p - 1]);
        } else {
          assert text[p..p + |Marker|][0] == name[p - |pad|];
        }
      }
    }
    var r := FindMarker(text, 0);
  }

  /** A binding written as leading blanks, a name, the marker and a one-line
      key-path is read back as that name and the stripped key-path. */
  lemma {:induction false} MatchBindingOf(pad: string, name: string, path: string)
    requires AllSpace(pad) && WordRun(name) && Lacks(path, '\n')
    ensures MatchBinding(pad + name + Marker + path) == Some(BindingText(name, Strip(path)))
  {
    var text := pad + name + Marker + path;
    var q := |pad| + |name|;
    FirstMarkerOf(pad, name, path);
    assert text[..q] == pad + name;
    TrailingWordLengthOf(pad, name);
    assert text[q - |name|..q] == name;
    assert text[q + |Marker|..] == path;
    LineWhole(path);
  }

  /** The marker holds `=`, so it cannot begin where `=` is not. */
  lemma NoMarkerWithoutEquals(text: string, q: nat)
    requires q + 1 < |text| && text[q + 1] != '='
    ensures !MarkerAt(text, q)
  {
    if q + |Marker| <= |text| {
      assert Marker[1] == '=';
      assert text[q..q + |Marker|][1] == text[q + 1];
    }
  }

  /** A text without `=` holds no binding. */
  lemma {:induction false} NoEqualsNoBinding(text: string)
    requires Lacks(text, '=')
    ensures MatchBinding(text) == None
  {
    forall q: nat
      ensures !MarkerAt(text, q)
    {
      if q + 1 < |text| {
        NoMarkerWithoutEquals(text, q);
      }
    }
  }

  // ---------------------------------------------------------------------------
  // The tokeniser `\d+|[+-/*^()]|sin|cos|tan|log10`
  // ---------------------------------------------------------------------------

  /** The character class of the pattern: the range `+`..`/` (which takes in
      `,`, `-` and `.`), and `*`, `^`, `(`, `)`. */
  predicate IsSymbol(c: char) {
    ('+' <= c <= '/') || c == '*' || c == '^' || c == '(' || c == ')'
  }

  /** The word alternatives. Their first letters differ, so their order does not matter. */
  const TokenWords: seq<string> := ["sin", "cos", "tan", "log10"]

  /** Length of the run of digits at the front of `s`: what greedy `\d+` takes. */
  function DigitRunLength(s: string): (n: nat)
    ensures n <= |s| && AllDigits(s[..n])
    ensures n < |s| ==> !IsDigit(s[n])
    decreases |s|
  {
    if |s| == 0 || !IsDigit(s[0]) then 0
    else
      var n := 1 + DigitRunLength(s[1..]);
      assert s[..n] == [s[0]] + s[1..][..n - 1];
      n
  }

  /** The word alternative `s` starts with, if any. */
  function WordAt(s: string): (r: Option<string>)
    ensures r.Some? ==> r.value in TokenWords && StartsWith(s, r.value)
    ensures r.None? ==> forall i :: 0 <= i < |TokenWords| ==> !StartsWith(s, TokenWords[i])
  {
    if StartsWith(s, "sin") then Some("sin")
    else if StartsWith(s, "cos") then Some("cos")
    else if StartsWith(s, "tan") then Some("tan")
    else if StartsWith(s, "log10") then Some("log10")
    else None
  }

  /** What a match of the pattern can be. */
  predicate IsToken(t: string) {
    Evaluator.IsNumber(t) || (|t| == 1 && IsSymbol(t[0])) || t in TokenWords
  }

  /** `re.findall` with the token pattern: at each position the first
      alternative that matches is taken and scanning resumes after it; a
      position where none matches is skipped. */
  function Tokenize(s: string): (ts: seq<string>)
    ensures forall i :: 0 <= i < |ts| ==> IsToken(ts[i])
    decreases |s|
  {
    if |s| == 0 then []
    else if IsDigit(s[0]) then
      var n := DigitRunLength(s);
      [s[..n]] + Tokenize(s[n..])
    else if IsSymbol(s[0]) then [s[..1]] + Tokenize(s[1..])
    else
      match WordAt(s)
      case Some(w) => [w] + Tokenize(s[|w|..])
      case None => Tokenize(s[1..])
  }

  /** A character no alternative can start with. */
  predicate Skippable(c: char) {
    !IsDigit(c) && !IsSymbol(c) && c != 's' && c != 'c' && c != 't' && c != 'l'
  }

  predicate AllSkippable(s: string) {
    forall i :: 0 <= i < |s| ==> Skippable(s[i])
  }

  /** Characters no token starts with are skipped. */
  lemma {:induction false} TokenizeSkips(pad: string, s: string)
    requires AllSkippable(pad)
    ensures Tokenize(pad + s) == Tokenize(s)
    decreases |pad|
  {
    if |pad| == 0 {
      assert pad + s == s;
    } else {
      var t := pad + s;
      assert t[0] == pad[0];
      assert t[1..] == pad[1..] + s;
      assert WordAt(t) == None by {
        if |t| >= 3 { assert t[..3][0] == t[0]; }
        if |t| >= 5 { assert t[..5][0] == t[0]; }
      }
      TokenizeSkips(pad[1..], s);
    }
  }

  /** Tokens that read back as themselves when written next to each other:
      no number directly followed by another number. */
  predicate ValidTokens(ts: seq<string>) {
    && (forall i :: 0 <= i < |ts| ==> IsToken(ts[i]))
    && (forall i :: 0 < i < |ts| ==> !(Evaluator.IsNumber(ts[i - 1]) && Evaluator.IsNumber(ts[i])))
  }

  /** A token that is not a number does not start with a digit. */
  lemma {:induction false} TokenStart(t: string)
    requires IsToken(t)
    ensures |t| > 0
    ensures !Evaluator.IsNumber(t) ==> !IsDigit(t[0])
  {
  }

  lemma {:induction false} WordAtOf(w: string, rest: string)
    requires w in TokenWords
    ensures WordAt(w + rest) == Some(w)
  {
    var s := w + rest;
    assert s[..|w|] == w;
    if |s| >= 3 { assert s[..3][0] == w[0]; }
    if |s| >= 5 { assert s[..5][0] == w[0]; }
  }

  /** Greedy `\d+` takes a whole run of digits and stops at the first non-digit. */
  lemma {:induction false} DigitRunOf(t: string, rest: string)
    requires AllDigits(t)
    requires |rest| > 0 ==> !IsDigit(rest[0])
    ensures DigitRunLength(t + rest) == |t|
    decreases |t|
  {
    if |t| == 0 {
      assert t + rest == rest;
    } else {
      assert (t + rest)[0] == t[0];
      assert (t + rest)[1..] == t[1..] + rest;
      DigitRunOf(t[1..], rest);
    }
  }

  /** One token at the front, followed by a text that does not extend it, is read first. */
  lemma {:induction false} TokenizeCons(t: string, rest: string)
    requires IsToken(t)
    requires Evaluator.IsNumber(t) && |rest| > 0 ==> !IsDigit(rest[0])
    ensures Tokenize(t + rest) == [t] + Tokenize(rest)
  {
    var s := t + rest;
    assert s[..|t|] == t && s[|t|..] == rest;
    if Evaluator.IsNumber(t) {
      DigitRunOf(t, rest);
    } else if |t| == 1 && IsSymbol(t[0]) {
      assert s[0] == t[0];
    } else {
      assert s[0] == t[0];
      WordAtOf(t, rest);
    }
  }

  /** Tokens written next to each other, with characters no token starts
      with after them, tokenise back to themselves. */
  lemma {:induction false} TokenizeOf(ts: seq<string>, pad: string)
    requires ValidTokens(ts) && AllSkippable(pad)
    ensures Tokenize(Join(ts, "") + pad) == ts
    decreases |ts|
  {
    if |ts| == 0 {
      TokenizeSkips(pad, "");
      assert pad + "" == pad && "" + pad == pad;
    } else {
      var rest := if |ts| == 1 then pad else Join(ts[1..], "") + pad;
      if |ts| == 1 {
        assert Join(ts, "") + pad == ts[0] + rest;
        if |pad| > 0 { assert Skippable(pad[0]); }
        TokenizeCons(ts[0], rest);
        TokenizeSkips(pad, "");
        assert pad + "" == pad;
      } else {
        assert Join(ts, "") + pad == ts[0] + rest by {
          assert Join(ts, "") == ts[0] + "" + Join(ts[1..], "");
        }
        assert ValidTokens(ts[1..]) by {
          forall i | 0 < i < |ts[1..]|
            ensures !(Evaluator.IsNumber(ts[1..][i - 1]) && Evaluator.IsNumber(ts[1..][i]))
          {
            assert ts[1..][i - 1] == ts[i] && ts[1..][i] == ts[i + 1];
          }
        }
        TokenStart(ts[1]);
        JoinStartsWithHead(ts[1..], "");
        assert rest[0] == ts[1][0];
        TokenizeCons(ts[0], rest);
        TokenizeOf(ts[1..], pad);
      }
    }
  }

  // ---------------------------------------------------------------------------
  // Substitution
  // ---------------------------------------------------------------------------

  /** The substitution loop: in dict order, every occurrence of each name in
      the computation text is replaced by `str` of its value. */
  function Substitute(text: string, vars: seq<Binding>): string
    decreases |vars|
  {
    if |vars| == 0 then text
    else Substitute(Replace(text, vars[0].name, PyStr(vars[0].value)), vars[1..])
  }

  /** A text that mentions no variable is left as it is. */
  lemma {:induction false} SubstituteAbsent(text: string, vars: seq<Binding>)
    requires forall b :: b in vars ==> |b.name| > 0 && !Contains(text, b.name)
    ensures Substitute(text, vars) == text
    decreases |vars|
  {
    if |vars| > 0 {
      assert vars[0] in vars;
      ReplaceAbsent(text, vars[0].name, PyStr(vars[0].value));
      assert forall b :: b in vars[1..] ==> b in vars;
      SubstituteAbsent(text, vars[1..]);
    }
  }

  /** With one variable, every occurrence of its name gets the text of its value. */
  lemma {:induction false} SubstituteOne(pieces: seq<string>, name: string, v: Value)
    requires |pieces| > 0 && |name| > 0
    requires forall i :: 0 <= i < |pieces| ==> Lacks(pieces[i], name[0])
    ensures Substitute(Join(pieces, name), [Binding(name, v)]) == Join(pieces, PyStr(v))
  {
    SplitJoin(pieces, name);
  }

  // ---------------------------------------------------------------------------
  // Binding the WHERE clause
  // ---------------------------------------------------------------------------

  const NotComputeFormula := "Invalid computation formula. Must be in the format 'COMPUTE f(x)'"
  const NotValueFormula := "Invalid value formula"
  const NotNumber := "Variable is not a number"
  const NoOperators := "Invalid operators"

  /** Binding either runs to completion, or stops with a message; the
      bindings made before it stopped stay in the dict. */
  datatype BindResult = Bound(variables: seq<Binding>) | Rejected(variables: seq<Binding>, message: string)

  /** The dict after binding extends the dict before it: old keys keep their
      order, a new key comes last, and what held of every entry still does. */
  predicate Extends(before: seq<Binding>, after: seq<Binding>) {
    && Names(before) <= Names(after)
    && (ValidVariables(before) ==> ValidVariables(after))
    && (Numeric(before) ==> Numeric(after))
  }

  lemma {:induction false} ExtendsTransitive(a: seq<Binding>, b: seq<Binding>, c: seq<Binding>)
    requires Extends(a, b) && Extends(b, c)
    ensures Extends(a, c)
  {
  }

  /** What a clause does with the value its key-path queried: binds the name
      to it when it is a number, else rejects the clause. */
  function BindFound(vars: seq<Binding>, name: string, found: Option<Value>): (r: BindResult)
    requires |name| > 0
    ensures Extends(vars, r.variables)
    ensures r.Rejected? ==> r == Rejected(vars, NotNumber)
    ensures r.Bound? <==> found.Some? && Values.IsNumber(found.value)
    ensures r.Bound? ==> r.variables == SetVariable(vars, name, found.value)
  {
    match found
    case Some(v) =>
      if Values.IsNumber(v) then
        SetVariableKeeps(vars, name, v);
        Bound(SetVariable(vars, name, v))
      else Rejected(vars, NotNumber)
    case None => Rejected(vars, NotNumber)
  }

  /** One `name = QUERY keypath` clause: the name is bound to the queried
      value when that is a number; otherwise the clause is rejected with
      `malformed` when it does not match, or with the not-a-number message. */
  function BindOne(root: Node, vars: seq<Binding>, text: string, malformed: string): (r: BindResult)
    ensures Extends(vars, r.variables)
    ensures r.Rejected? ==> r.variables == vars
    ensures MatchBinding(text).None? ==> r == Rejected(vars, malformed)
    ensures r.Bound? ==> (
      && MatchBinding(text).Some?
      && var b := MatchBinding(text).value;
      && Query(root, b.path).Some? && Values.IsNumber(Query(root, b.path).value)
      && r.variables == SetVariable(vars, b.name, Query(root, b.path).value))
  {
    match MatchBinding(text)
    case None => Rejected(vars, malformed)
    case Some(b) => BindFound(vars, b.name, Query(root, b.path))
  }

  /** The clauses of an `AND` list, in order, up to the first one rejected. */
  function BindAll(root: Node, vars: seq<Binding>, texts: seq<string>): (r: BindResult)
    ensures Extends(vars, r.variables)
    decreases |texts|
  {
    if |texts| == 0 then Bound(vars)
    else
      match BindOne(root, vars, texts[0], NotComputeFormula)
      case Rejected(after, message) => Rejected(after, message)
      case Bound(after) =>
        var r := BindAll(root, after, texts[1..]);
        ExtendsTransitive(vars, after, r.variables);
        r
  }

  /** Binding a list of clauses is binding its first part, then the rest
      from where the first part left off. */
  lemma {:induction false} BindAllAppend(root: Node, vars: seq<Binding>, a: seq<string>, b: seq<string>)
    ensures BindAll(root, vars, a + b) ==
      match BindAll(root, vars, a)
      case Bound(after) => BindAll(root, after, b)
      case rejected => rejected
    decreases |a|
  {
    if |a| == 0 {
      assert a + b == b;
    } else {
      assert (a + b)[0] == a[0] && (a + b)[1..] == a[1..] + b;
      match BindOne(root, vars, a[0], NotComputeFormula)
      case Rejected(_, _) =>
      case Bound(after) => BindAllAppend(root, after, a[1..], b);
    }
  }

  // ---------------------------------------------------------------------------
  // `compute`
  // ---------------------------------------------------------------------------

  /** The exceptions `compute` lets escape. */
  datatype ComputeError =
    | NotOneWhere                       // unpacking `split("WHERE")` into two names (ValueError)
    | InvalidComputation                // no `COMPUTE ` before `WHERE` (ValueError)
    | Evaluation(fault: Evaluator.Fault) // raised while evaluating the expression

  /** What `compute` returns: the number, a message string, or an exception. */
  datatype Reply = Number(value: real) | Message(text: string) | Raised(error: ComputeError)

  /** The reply and the `variables` dict the trie is left with. */
  datatype Outcome = Outcome(reply: Reply, variables: seq<Binding>)

  /** The part of `compute` after binding: substitute, tokenise, convert to
      postfix, evaluate. */
  function Evaluate(computation: string, vars: seq<Binding>): (o: Outcome)
    ensures o.variables == vars
  {
    var tokens := Tokenize(Substitute(computation, vars));
    if |tokens| == 0 then Outcome(Message(NoOperators), vars)
    else Answer(Evaluator.EvalPostfix(Evaluator.ToPostfix(tokens)), vars)
  }

  /** The reply for an evaluation's result: the number, or the fault raised. */
  function Answer(result: Result<real, Evaluator.Fault>, vars: seq<Binding>): Outcome {
    match result
    case Ok(x) => Outcome(Number(x), vars)
    case Err(f) => Outcome(Raised(Evaluation(f)), vars)
  }

  /** The WHERE clause: a list of clauses separated by `AND` when it
      contains `AND` anywhere, a single clause otherwise. */
  function Bind(root: Node, vars: seq<Binding>, clause: string): (r: BindResult)
    ensures Extends(vars, r.variables)
  {
    if Contains(clause, "AND") then BindAll(root, vars, Split(clause, "AND"))
    else BindOne(root, vars, clause, NotValueFormula)
  }

  /** `Trie.compute(formula)`. */
  function Compute(s: Store, formula: string): (o: Outcome)
    ensures Extends(s.variables, o.variables)
    ensures |Split(formula, "WHERE")| != 2 ==> o == Outcome(Raised(NotOneWhere), s.variables)
    ensures o.reply.Raised? && !o.reply.error.Evaluation? ==> o.variables == s.variables
    ensures o.reply.Number? ==> |Tokenize(Substitute(Split(formula, "WHERE")[0], o.variables))| > 0
  {
    var parts := Split(formula, "WHERE");
    if |parts| != 2 then Outcome(Raised(NotOneWhere), s.variables)
    else if !Contains(parts[0], "COMPUTE ") then Outcome(Raised(InvalidComputation), s.variables)
    else
      match Bind(s.root, s.variables, parts[1])
      case Rejected(vars, message) => Outcome(Message(message), vars)
      case Bound(vars) => Evaluate(parts[0], vars)
  }

  // ---------------------------------------------------------------------------
  // Properties of `compute`
  // ---------------------------------------------------------------------------

  /** A formula with `WHERE` exactly once splits around it. */
  lemma {:induction false} SplitWhere(c: string, k: string)
    requires Lacks(c, 'W') && Lacks(k, 'W')
    ensures Split(c + "WHERE" + k, "WHERE") == [c, k]
  {
    assert Join([c, k], "WHERE") == c + "WHERE" + k;
    SplitJoin([c, k], "WHERE");
  }

  /** When substitution leaves nothing the tokeniser takes, the reply is
      "Invalid operators" and the expression is never evaluated. */
  lemma {:induction false} EvaluateWithoutTokens(c: string, vars: seq<Binding>)
    requires AllSkippable(Substitute(c, vars))
    ensures Evaluate(c, vars) == Outcome(Message(NoOperators), vars)
  {
    var text := Substitute(c, vars);
    assert text + "" == text;
    TokenizeSkips(text, "");
  }

  /** Without `WHERE` the unpacking fails, before anything else is looked at. */
  lemma {:induction false} ComputeWithoutWhere(s: Store, formula: string)
    requires !Contains(formula, "WHERE")
    ensures Compute(s, formula) == Outcome(Raised(NotOneWhere), s.variables)
  {
    SplitNoSeparator(formula, "WHERE");
  }

  /** With `WHERE` twice the unpacking fails as well. */
  lemma {:induction false} ComputeWithTwoWheres(s: Store, a: string, b: string, c: string)
    requires Lacks(a, 'W') && Lacks(b, 'W') && Lacks(c, 'W')
    ensures Compute(s, a + "WHERE" + b + "WHERE" + c) == Outcome(Raised(NotOneWhere), s.variables)
  {
    var f := a + "WHERE" + b + "WHERE" + c;
    assert [a, b, c][1..] == [b, c] && [b, c][1..] == [c];
    assert Join([b, c], "WHERE") == b + "WHERE" + c;
    assert f == Join([a, b, c], "WHERE");
    SplitJoin([a, b, c], "WHERE");
    assert |Split(f, "WHERE")| == 3;
  }

  /** Text before `WHERE` without `COMPUTE ` raises, leaving the dict alone. */
  lemma {:induction false} ComputeNeedsCompute(s: Store, c: string, k: string)
    requires Lacks(c, 'W') && Lacks(k, 'W') && !Contains(c, "COMPUTE ")
    ensures Compute(s, c + "WHERE" + k) == Outcome(Raised(InvalidComputation), s.variables)
  {
    SplitWhere(c, k);
  }

  /** A WHERE clause without `=` binds nothing and is answered with the
      message of its branch: the `AND` branch's message when it contains
      `AND`, the single-clause message otherwise. */
  lemma {:induction false} ComputeRejectsClauseWithoutBinding(s: Store, c: string, k: string)
    requires Lacks(c, 'W') && Lacks(k, 'W') && Contains(c, "COMPUTE ")
    requires Lacks(k, '=')
    ensures Compute(s, c + "WHERE" + k) ==
      Outcome(Message(if Contains(k, "AND") then NotComputeFormula else NotValueFormula), s.variables)
  {
    SplitWhere(c, k);
    if Contains(k, "AND") {
      var parts := Split(k, "AND");
      JoinStartsWithHead(parts, "AND");
      assert Lacks(parts[0], '=') by {
        assert parts[0] == k[..|parts[0]|];
      }
      NoEqualsNoBinding(parts[0]);
    } else {
      NoEqualsNoBinding(k);
    }
  }

  /** A formula with one `WHERE` and with `COMPUTE ` before it binds its
      WHERE clause; when every clause binds, the text before `WHERE` is
      evaluated with the dict as it then stands. */
  lemma {:induction false} ComputeWithWhere(s: Store, c: string, k: string)
    requires Lacks(c, 'W') && Lacks(k, 'W') && Contains(c, "COMPUTE ")
    ensures Compute(s, c + "WHERE" + k) ==
      var r := Bind(s.root, s.variables, k);
      if r.Rejected? then Outcome(Message(r.message), r.variables) else Evaluate(c, r.variables)
  {
    SplitWhere(c, k);
  }

  /** A WHERE clause of the form `name = QUERY keypath` after blanks, with no
      `AND` in it, binds the name to the queried value when that is a number,
      and is rejected with the not-a-number message otherwise. */
  lemma {:induction false} BindSingle(root: Node, vars: seq<Binding>, pad: string, name: string, path: string)
    requires AllSpace(pad) && WordRun(name) && Lacks(name, 'A')
    requires Lacks(path, '\n') && Lacks(path, 'A')
    ensures var v := Query(root, Strip(path));
      Bind(root, vars, pad + name + Marker + path) ==
        if v.Some? && Values.IsNumber(v.value) then Bound(SetVariable(vars, name, v.value))
        else Rejected(vars, NotNumber)
  {
    var k := pad + name + Marker + path;
    SpaceLacks(pad, 'A');
    assert Lacks(Marker, 'A');
    LacksConcat(pad, name, 'A');
    LacksConcat(pad + name, Marker, 'A');
    LacksConcat(pad + name + Marker, path, 'A');
    NoLeadNoContains(k, "AND");
    MatchBindingOf(pad, name, path);
  }

  /** A formula whose WHERE clause is one `name = QUERY keypath` binds the
      name to the queried value when it is a number and evaluates the
      computation with it; otherwise it is answered with the not-a-number
      message and the dict is left alone. */
  lemma {:induction false} ComputeSingleBinding(s: Store, c: string, pad: string, name: string, path: string)
    requires Lacks(c, 'W') && Contains(c, "COMPUTE ")
    requires AllSpace(pad) && WordRun(name) && Lacks(name, 'W') && Lacks(name, 'A')
    requires Lacks(path, '\n') && Lacks(path, 'W') && Lacks(path, 'A')
    ensures var v := Query(s.root, Strip(path));
      Compute(s, c + "WHERE" + pad + name + Marker + path) ==
        if v.Some? && Values.IsNumber(v.value) then Evaluate(c, SetVariable(s.variables, name, v.value))
        else Outcome(Message(NotNumber), s.variables)
  {
    var k := pad + name + Marker + path;
    assert c + "WHERE" + pad + name + Marker + path == c + "WHERE" + k;
    SpaceLacks(pad, 'W');
    assert Lacks(Marker, 'W');
    LacksConcat(pad, name, 'W');
    LacksConcat(pad + name, Marker, 'W');
    LacksConcat(pad + name + Marker, path, 'W');
    ComputeWithWhere(s, c, k);
    BindSingle(s.root, s.variables, pad, name, path);
  }

  // ---------------------------------------------------------------------------
  // From formula to number
  // ---------------------------------------------------------------------------

  /** The operators are the one-character symbols `+ - * / ^`. */
  lemma {:induction false} OperatorToken(op: string)
    requires Evaluator.IsOperator(op)
    ensures |op| == 1 && IsSymbol(op[0]) && !IsDigit(op[0]) && op[0] != 'W'
    ensures IsToken(op) && !Evaluator.IsNumber(op)
  {
    assert op == "+" || op == "-" || op == "*" || op == "/" || op == "^";
  }

  /** The computation text `COMPUTE x op d `, as it stands before `WHERE`. */
  function BinaryText(x: string, op: string, d: string): string {
    "COMPUTE " + x + op + d + " "
  }

  lemma {:induction false} BinaryTextShape(name: string, op: string, d: string)
    requires Lacks(name, 'W') && Evaluator.IsOperator(op) && Evaluator.IsNumber(d)
    ensures Lacks(BinaryText(name, op, d), 'W') && Contains(BinaryText(name, op, d), "COMPUTE ")
  {
    OperatorToken(op);
    assert Lacks("COMPUTE ", 'W') && Lacks(" ", 'W');
    LacksConcat("COMPUTE ", name, 'W');
    LacksConcat("COMPUTE " + name, op, 'W');
    LacksConcat("COMPUTE " + name + op, d, 'W');
    LacksConcat("COMPUTE " + name + op + d, " ", 'W');
    var t := BinaryText(name, op, d);
    assert t[..8] == "COMPUTE ";
  }

  /** The text of `COMPUTE x op d` once `x` is replaced by the decimal
      digits of `n`. */
  lemma {:induction false} SubstituteBinary(name: string, n: nat, op: string, d: string)
    requires |name| > 0 && Lacks("COMPUTE ", name[0]) && Lacks(op + d + " ", name[0])
    ensures Substitute(BinaryText(name, op, d), [Binding(name, Int(n))]) == BinaryText(NatToDecimal(n), op, d)
  {
    var pieces := ["COMPUTE ", op + d + " "];
    assert Join(pieces, name) == BinaryText(name, op, d);
    SubstituteOne(pieces, name, Int(n));
    assert PyStr(Int(n)) == NatToDecimal(n);
    assert Join(pieces, NatToDecimal(n)) == BinaryText(NatToDecimal(n), op, d);
  }

  /** A number, an operator and a number are valid tokens in that order. */
  lemma {:induction false} BinaryTokensValid(num: string, op: string, d: string)
    requires Evaluator.IsNumber(num) && Evaluator.IsOperator(op) && Evaluator.IsNumber(d)
    ensures ValidTokens([num, op, d])
  {
    var ts := [num, op, d];
    OperatorToken(op);
    forall i | 0 <= i < |ts| ensures IsToken(ts[i]) {
      assert ts[i] == num || ts[i] == op || ts[i] == d;
    }
    forall i | 0 < i < |ts| ensures !(Evaluator.IsNumber(ts[i - 1]) && Evaluator.IsNumber(ts[i])) {
      assert ts[i - 1] == op || ts[i] == op;
    }
  }

  lemma {:induction false} JoinThree(a: string, b: string, c: string)
    ensures Join([a, b, c], "") == a + b + c
  {
    var ts := [a, b, c];
    assert ts[1..] == [b, c] && [b, c][1..] == [c];
    assert Join([b, c], "") == b + "" + c == b + c;
    assert Join(ts, "") == a + "" + (b + c);
  }

  /** The keyword holds nothing the tokeniser takes. */
  lemma {:induction false} KeywordSkippable()
    ensures AllSkippable("COMPUTE ")
  {
  }

  /** `COMPUTE n op d` tokenises to `n`, `op`, `d`. */
  lemma {:induction false} TokenizeBinary(num: string, op: string, d: string)
    requires Evaluator.IsNumber(num) && Evaluator.IsOperator(op) && Evaluator.IsNumber(d)
    ensures Tokenize(BinaryText(num, op, d)) == [num, op, d]
  {
    var ts := [num, op, d];
    var body := Join(ts, "") + " ";
    assert BinaryText(num, op, d) == "COMPUTE " + body by {
      JoinThree(num, op, d);
    }
    KeywordSkippable();
    TokenizeSkips("COMPUTE ", body);
    BinaryTokensValid(num, op, d);
    TokenizeOf(ts, " ");
  }

  /** `COMPUTE x op d` with `x` bound to a natural number `n` and nothing
      else bound: the text becomes `COMPUTE n op d`, its tokens are `n`, `op`
      and `d`, and the answer is `n op d`. */
  lemma {:induction false} EvaluateBinary(name: string, n: nat, op: string, d: string)
    requires WordRun(name) && Evaluator.IsOperator(op) && Evaluator.IsNumber(d)
    requires Lacks("COMPUTE ", name[0]) && Lacks(op + d + " ", name[0])
    ensures Evaluate(BinaryText(name, op, d), [Binding(name, Int(n))]) ==
      Answer(Evaluator.PerformOperation(n as real, Evaluator.NumberValue(d), op), [Binding(name, Int(n))])
  {
    var num := NatToDecimal(n);
    SubstituteBinary(name, n, op, d);
    TokenizeBinary(num, op, d);
    Evaluator.EvaluatesBinaryInfix(num, op, d);
  }

  /** On a trie with no variables yet, `COMPUTE x op d WHERE x = QUERY keypath`,
      where the key-path holds the natural number `n`, evaluates `COMPUTE x op d`
      with `x` bound to `n` alone. */
  lemma {:induction false} ComputeBindsVariable(s: Store, name: string, op: string, d: string, path: string, n: nat)
    requires s.variables == []
    requires WordRun(name) && Lacks(name, 'W') && Lacks(name, 'A')
    requires Evaluator.IsOperator(op) && Evaluator.IsNumber(d)
    requires Lacks(path, '\n') && Lacks(path, 'W') && Lacks(path, 'A')
    requires Query(s.root, Strip(path)) == Some(Int(n))
    ensures Compute(s, BinaryText(name, op, d) + "WHERE" + " " + name + Marker + path) ==
      Evaluate(BinaryText(name, op, d), [Binding(name, Int(n))])
  {
    BinaryTextShape(name, op, d);
    assert AllSpace(" ");
    ComputeSingleBinding(s, BinaryText(name, op, d), " ", name, path);
    SetVariableEmpty(name, Int(n));
  }

  /** On a trie with no variables yet, the formula
      `COMPUTE x op d WHERE x = QUERY keypath`, where the key-path holds the
      natural number `n`, answers `n op d` (or the fault that operation
      raises) and leaves `x` bound to `n`. For example, with the store
      holding `{"a": {"b": {"c": 5}}}`, `COMPUTE x/2 WHERE x = QUERY a.b.c`
      has this shape. */
  lemma {:induction false} ComputeBinaryWithVariable(s: Store, name: string, op: string, d: string, path: string, n: nat)
    requires s.variables == []
    requires WordRun(name) && Lacks(name, 'W') && Lacks(name, 'A')
    requires Lacks("COMPUTE ", name[0]) && Lacks(op + d + " ", name[0])
    requires Evaluator.IsOperator(op) && Evaluator.IsNumber(d)
    requires Lacks(path, '\n') && Lacks(path, 'W') && Lacks(path, 'A')
    requires Query(s.root, Strip(path)) == Some(Int(n))
    ensures Compute(s, BinaryText(name, op, d) + "WHERE" + " " + name + Marker + path) ==
      Answer(Evaluator.PerformOperation(n as real, Evaluator.NumberValue(d), op), [Binding(name, Int(n))])
  {
    ComputeBindsVariable(s, name, op, d, path, n);
    EvaluateBinary(name, n, op, d);
  }
}

=== FILE: key_path.dfy ===
/** `Trie.query` of `trie_structure.py`: a dotted key-path is split on `.`,
    its first segment is looked up with `get`, and the remaining segments
    descend through the nested dicts of the value found there. */
module KeyPath {
  import opened Wrappers
  import opened Text
  import opened Values
  import opened TrieStore

  /** The walk of `search_dictionary`: one dict level per segment. A missing
      field, or a value that is not a dict while segments remain, is not found. */
  function Search(v: Value, keys: seq<string>): Option<Value>
    decreases |keys|
  {
    if |keys| == 0 then Some(v)
    else
      match v
      case Dict(fields) =>
        (match LookupField(fields, keys[0])
         case None => None
         case Some(child) => Search(child, keys[1..]))
      case _ => None
  }

  /** `keys[1:]`. */
  function Tail(keys: seq<string>): seq<string> {
    if |keys| == 0 then [] else keys[1..]
  }

  /** `Trie.query`: not found unless `get` of the first segment yields a dict;
      otherwise whatever the remaining segments reach, possibly a whole dict. */
  function Query(t: Node, keypath: string): Option<Value> {
    var keys := Split(keypath, ".");
    match Get(t, keys[0])
    case Found(v) => if v.Dict? then Search(v, keys[1..]) else None
    case _ => None
  }

  // ---------------------------------------------------------------------------
  // Properties of the descent
  // ---------------------------------------------------------------------------

  /** Descending along `a + b` is descending along `a`, then along `b`; in
      particular a path that misses at some level misses for every extension. */
  lemma {:induction false} SearchAppend(v: Value, a: seq<string>, b: seq<string>)
    ensures Search(v, a + b) == match Search(v, a) case None => None case Some(w) => Search(w, b)
    decreases |a|
  {
    if |a| == 0 {
      assert a + b == b;
    } else {
      assert (a + b)[0] == a[0] && (a + b)[1..] == a[1..] + b;
      if v.Dict? && LookupField(v.fields, a[0]).Some? {
        SearchAppend(LookupField(v.fields, a[0]).value, a[1..], b);
      }
    }
  }

  /** Splitting segments joined with dots gives the segments back. */
  lemma {:induction false} SplitJoinDots(segments: seq<string>)
    requires |segments| > 0
    requires forall i :: 0 <= i < |segments| ==> !Contains(segments[i], ".")
    ensures Split(Join(segments, "."), ".") == segments
    decreases |segments|
  {
    if |segments| == 1 {
      SplitNoSeparator(segments[0], ".");
    } else {
      SplitHead(segments[0], ".", Join(segments[1..], "."));
      SplitJoinDots(segments[1..]);
    }
  }

  /** A dict put under a dot-free key answers every dotted path below that key
      with its own descent, provided the key was never deleted. */
  lemma QueryPut(t: Node, k: string, fields: seq<Field>, segments: seq<string>)
    requires !Contains(k, ".") && !Tombstoned(t, k)
    requires forall i :: 0 <= i < |segments| ==> !Contains(segments[i], ".")
    ensures Query(Put(t, k, Dict(fields)), Join([k] + segments, ".")) == Search(Dict(fields), segments)
  {
    SplitJoinDots([k] + segments);
    assert ([k] + segments)[1..] == segments;
    GetPut(t, k, Dict(fields));
  }

  /** The value of the key-path example: `{"b": {"c": 5}}`. */
  function ExampleValue(): Value {
    Dict([Field("b", Dict([Field("c", Int(5))]))])
  }

  /** The store of the key-path example: `a` holding `ExampleValue()`. */
  function ExampleStore(): Node {
    Put(EmptyNode, "a", ExampleValue())
  }

  /** A dotted path below `a` in the example store descends into its value. */
  lemma QueryExample(segments: seq<string>)
    requires forall i :: 0 <= i < |segments| ==> !Contains(segments[i], ".")
    ensures Query(ExampleStore(), Join(["a"] + segments, ".")) == Search(ExampleValue(), segments)
  {
    NoCharNoContains("a", '.');
    QueryPut(EmptyNode, "a", ExampleValue().fields, segments);
  }

  /** In the example store, `a.b.c` reaches 5. */
  lemma QueryExampleFound()
    ensures Query(ExampleStore(), "a.b.c") == Some(Int(5))
  {
    NoCharNoContains("b", '.');
    NoCharNoContains("c", '.');
    QueryExample(["b", "c"]);
    assert ["a"] + ["b", "c"] == ["a", "b", "c"];
    assert ["a", "b", "c"][1..] == ["b", "c"] && ["b", "c"][1..] == ["c"];
    assert Join(["b", "c"], ".") == "b.c";
    assert Join(["a", "b", "c"], ".") == "a.b.c";
    var inner := Dict([Field("c", Int(5))]);
    assert Search(inner, ["c"]) == Search(Int(5), []);
  }

  /** In the example store, `a.b.x` misses a field. */
  lemma QueryExampleMissingField()
    ensures Query(ExampleStore(), "a.b.x") == None
  {
    NoCharNoContains("b", '.');
    NoCharNoContains("x", '.');
    QueryExample(["b", "x"]);
    assert ["a"] + ["b", "x"] == ["a", "b", "x"];
    assert ["a", "b", "x"][1..] == ["b", "x"] && ["b", "x"][1..] == ["x"];
    assert Join(["b", "x"], ".") == "b.x";
    assert Join(["a", "b", "x"], ".") == "a.b.x";
    var inner := Dict([Field("c", Int(5))]);
    assert LookupField(inner.fields, "x") == None;
  }

  /** In the example store, `missing.b` misses the top-level key. */
  lemma QueryExampleMissingKey()
    ensures Query(ExampleStore(), "missing.b") == None
  {
    NoCharNoContains("missing", '.');
    NoCharNoContains("b", '.');
    SplitJoinDots(["missing", "b"]);
    assert Join(["missing", "b"], ".") == "missing.b";
    GetPutOther(EmptyNode, "a", ExampleValue(), "missing");
  }

  // ---------------------------------------------------------------------------
  // The descent as written
  // ---------------------------------------------------------------------------

  /** How a call to the source's `search_dictionary` ends: with a result, or
      by exceeding the interpreter's recursion limit. */
  datatype Run = Returned(result: Option<Value>) | RecursionError

  /** `search_dictionary` as written: after its loop, when the value reached is
      a dict it calls itself again on that dict with the same `keys`, and
      discards what the call returns. `budget` is how many nested calls the
      interpreter still allows. */
  function SearchAsWritten(dic: Value, keys: seq<string>, budget: nat): Run
    decreases budget
  {
    match Search(dic, Tail(keys))
    case None => Returned(None)
    case Some(reached) =>
      if !reached.Dict? then Returned(Some(reached))
      else if budget == 0 then RecursionError
      else
        match SearchAsWritten(reached, keys, budget - 1)
        case RecursionError => RecursionError
        case Returned(_) => Returned(Some(reached))
  }

  /** When the written descent returns at all, it returns the intended answer. */
  lemma {:induction false} AsWrittenAgreesWhenItReturns(dic: Value, keys: seq<string>, budget: nat)
    ensures SearchAsWritten(dic, keys, budget).Returned? ==>
      SearchAsWritten(dic, keys, budget).result == Search(dic, Tail(keys))
  {
  }

  /** A one-segment key-path whose value is a dict never returns: the loop
      walks no segment, the dict reached is the dict given, and the same call
      repeats until the recursion limit is hit, whatever that limit is. */
  lemma {:induction false} AsWrittenRecursesOnOneSegment(dic: Value, key: string, budget: nat)
    requires dic.Dict?
    ensures SearchAsWritten(dic, [key], budget) == RecursionError
    decreases budget
  {
    assert Tail([key]) == [];
    if budget > 0 {
      AsWrittenRecursesOnOneSegment(dic, key, budget - 1);
    }
  }

  /** `Trie.query` with the descent as written. */
  function QueryAsWritten(t: Node, keypath: string, budget: nat): Run {
    var keys := Split(keypath, ".");
    match Get(t, keys[0])
    case Found(v) => if v.Dict? then SearchAsWritten(v, keys, budget) else Returned(None)
    case _ => Returned(None)
  }

  /** The input that shows it: `put("a", {"b": 1})` then `query("a")` recurses
      until the limit, where the intended query returns the dict itself. */
  lemma QueryWholeDictCounterexample(budget: nat)
    ensures QueryAsWritten(Put(EmptyNode, "a", Dict([Field("b", Int(1))])), "a", budget) == RecursionError
    ensures Query(Put(EmptyNode, "a", Dict([Field("b", Int(1))])), "a") == Some(Dict([Field("b", Int(1))]))
  {
    var d := Dict([Field("b", Int(1))]);
    NoCharNoContains("a", '.');
    SplitNoSeparator("a", ".");
    GetPut(EmptyNode, "a", d);
    AsWrittenRecursesOnOneSegment(d, "a", budget);
  }

  /** The corrected query returns the whole dict stored under a dot-free key. */
  lemma QueryWholeDict(t: Node, k: string, fields: seq<Field>)
    requires !Contains(k, ".") && !Tombstoned(t, k)
    ensures Query(Put(t, k, Dict(fields)), k) == Some(Dict(fields))
  {
    QueryPut(t, k, fields, []);
    assert Join([k], ".") == k;
  }
}

=== FILE: printer.dfy ===
/** `pretty_print` of `test_trie.py`: a dict rendered on one line as
    `“key” -> value` entries separated by ` | `, nested dicts and lists in
    `[ … ]`, numbers and booleans as `str` renders them, `None` as `null`
    and anything else between typographic quotes. The decoders below read
    such a line back, and the lemmas show that they recover what was printed. */
module Printer {
  import opened Wrappers
  import opened Text
  import opened Values

  const OpenQuote: char := '\U{201C}'
  const CloseQuote: char := '\U{201D}'

  /** What separates the entries of a dict and the items of a list. */
  const Bar := " | "

  /** What separates a key from its value. */
  const Arrow := " -> "

  /** `f'“{s}”'`. */
  function Quote(s: string): (r: string)
    ensures |r| == |s| + 2 && r[0] == OpenQuote && r[|r| - 1] == CloseQuote && r[1..|r| - 1] == s
  {
    [OpenQuote] + s + [CloseQuote]
  }

  /** `F'“{k}” -> {handle_value(v)}'`, given the rendered value. */
  function Entry(key: string, text: string): string {
    Quote(key) + Arrow + text
  }

  /** `pretty_print(obj)` for a dict `obj`: its entries, in insertion order,
      joined by ` | `. */
  function PrettyPrint(obj: Value): string
    requires obj.Dict?
    decreases obj, 1
  {
    Join(EntryTexts(obj, 0), Bar)
  }

  /** The list comprehension of `pretty_print`, from the field at index `i` on. */
  function EntryTexts(owner: Value, i: nat): (es: seq<string>)
    requires owner.Dict?
    ensures |es| == if i <= |owner.fields| then |owner.fields| - i else 0
    decreases owner, 0, |owner.fields| - i
  {
    if i >= |owner.fields| then []
    else
      var f := owner.fields[i];
      [Entry(f.key, HandleValue(f.val))] + EntryTexts(owner, i + 1)
  }

  /** The items of a list, each `str(element)` between typographic quotes. */
  function QuotedItems(items: seq<Value>): seq<string> {
    seq(|items|, i requires 0 <= i < |items| => Quote(PyStr(items[i])))
  }

  /** `handle_value(v)`. A boolean is an `int` to `isinstance`, so it is
      rendered by `str` like a number. */
  function HandleValue(v: Value): string
    decreases v, 2
  {
    match v
    case Dict(_) => "[ " + PrettyPrint(v) + " ]"
    case List(items) => "[ " + Join(QuotedItems(items), Bar) + " ]"
    case Int(i) => IntToDecimal(i)
    case Bool(b) => if b then "True" else "False"
    case Null => "null"
    case Str(s) => Quote(s)
  }

  // ---------------------------------------------------------------------------
  // Reading a rendered line back
  // ---------------------------------------------------------------------------

  /** A value that renders without brackets. */
  predicate IsScalar(v: Value) {
    v.Null? || v.Bool? || v.Int? || v.Str?
  }

  /** The value a bracket-free rendering stands for; `None` for text that no
      value renders as. Quoted text is a string whatever it holds. */
  function ReadScalar(t: string): (r: Option<Value>)
    ensures r.Some? ==> IsScalar(r.value)
  {
    if |t| >= 2 && t[0] == OpenQuote && t[|t| - 1] == CloseQuote then Some(Str(t[1..|t| - 1]))
    else if t == "null" then Some(Null)
    else if t == "True" then Some(Bool(true))
    else if t == "False" then Some(Bool(false))
    else if IsIntegerText(t) then Some(Int(IntegerValue(t)))
    else None
  }

  /** The index of the first `c` in `s`, or `|s|` when there is none. */
  function FirstIndex(s: string, c: char): (n: nat)
    ensures n <= |s| && Lacks(s[..n], c)
    ensures n < |s| ==> s[n] == c
    decreases |s|
  {
    if |s| == 0 || s[0] == c then 0
    else
      var n := 1 + FirstIndex(s[1..], c);
      assert s[..n] == [s[0]] + s[1..][..n - 1];
      n
  }

  /** One entry read back: the quoted key up to its first closing quote, the
      arrow, and a bracket-free value. */
  function ReadEntry(e: string): Option<Field> {
    if |e| == 0 || e[0] != OpenQuote then None
    else
      var j := 1 + FirstIndex(e[1..], CloseQuote);
      if j + |Arrow| < |e| && e[j + 1..j + 1 + |Arrow|] == Arrow then
        match ReadScalar(e[j + 1 + |Arrow|..])
        case None => None
        case Some(v) => Some(Field(e[1..j], v))
      else None
  }

  /** All the options present: their values, in order. */
  function AllSome<T>(os: seq<Option<T>>): (r: Option<seq<T>>)
    ensures r.Some? ==> |r.value| == |os|
    decreases |os|
  {
    if |os| == 0 then Some([])
    else
      match os[0]
      case None => None
      case Some(x) =>
        match AllSome(os[1..])
        case None => None
        case Some(rest) => Some([x] + rest)
  }

  /** A line of `pretty_print` read back into the fields of a flat dict: the
      pieces between bars, each stripped and read as an entry. */
  function ReadFlat(text: string): Option<seq<Field>> {
    if text == "" then Some([]) else ReadEntries(Split(text, "|"))
  }

  /** Each piece stripped and read as an entry. */
  function ReadEntries(ps: seq<string>): Option<seq<Field>> {
    AllSome(seq(|ps|, i requires 0 <= i < |ps| => ReadEntry(Strip(ps[i]))))
  }

  /** A quoted text without its quotes. */
  function Unquote(p: string): Option<string> {
    if |p| >= 2 && p[0] == OpenQuote && p[|p| - 1] == CloseQuote then Some(p[1..|p| - 1]) else None
  }

  /** A rendered list read back into the `str` of each item. */
  function ReadList(text: string): Option<seq<string>> {
    if |text| >= 4 && text[..2] == "[ " && text[|text| - 2..] == " ]" then
      var inner := text[2..|text| - 2];
      if inner == "" then Some([]) else ReadItems(Split(inner, "|"))
    else None
  }

  /** Each piece stripped and unquoted. */
  function ReadItems(ps: seq<string>): Option<seq<string>> {
    AllSome(seq(|ps|, i requires 0 <= i < |ps| => Unquote(Strip(ps[i]))))
  }

  /** `str(element)` for each item. */
  function ItemStrings(items: seq<Value>): seq<string> {
    seq(|items|, i requires 0 <= i < |items| => PyStr(items[i]))
  }

  /** The dicts `ReadFlat` recovers: scalar values, keys free of closing
      quotes and bars, and strings free of bars. */
  predicate Flat(fields: seq<Field>) {
    forall i :: 0 <= i < |fields| ==>
      IsScalar(fields[i].val) && Lacks(fields[i].key, CloseQuote) && Lacks(fields[i].key, '|')
      && (fields[i].val.Str? ==> Lacks(fields[i].val.s, '|'))
  }

  // ---------------------------------------------------------------------------
  // Properties
  // ---------------------------------------------------------------------------

  /** Only dicts and lists render in brackets. */
  lemma HandleValueBrackets(v: Value)
    ensures |HandleValue(v)| > 0
    ensures HandleValue(v)[0] == '[' <==> v.Dict? || v.List?
  {
    if v.Int? {
      IntegerTextStart(IntToDecimal(v.i));
    }
  }

  /** Decimal text starts with a minus sign or a digit. */
  lemma IntegerTextStart(t: string)
    requires IsIntegerText(t)
    ensures t[0] == '-' || IsDigit(t[0])
  {
    if t[0] != '-' {
      assert IsDigit(t[0]);
    }
  }

  /** Decimal text ends with a digit. */
  lemma IntegerTextEnd(t: string)
    requires IsIntegerText(t)
    ensures IsDigit(t[|t| - 1])
  {
    if t[0] == '-' {
      assert t[|t| - 1] == t[1..][|t| - 2];
    }
  }

  /** Decimal text holds only a minus sign and digits. */
  lemma IntegerTextLacks(t: string, c: char)
    requires IsIntegerText(t) && c != '-' && !IsDigit(c)
    ensures Lacks(t, c)
  {
    if t[0] == '-' {
      assert forall i :: 1 <= i < |t| ==> t[i] == t[1..][i - 1];
    }
  }

  /** Every bracket-free value reads back from its rendering. */
  lemma {:induction false} ReadScalarInverts(v: Value)
    requires IsScalar(v)
    ensures ReadScalar(HandleValue(v)) == Some(v)
  {
    if v.Int? {
      var t := IntToDecimal(v.i);
      IntegerTextStart(t);
      assert t[0] != OpenQuote && t[0] != 'n' && t[0] != 'T' && t[0] != 'F';
      assert "null"[0] == 'n' && "True"[0] == 'T' && "False"[0] == 'F';
    } else if v.Str? {
      var t := Quote(v.s);
      assert |t| >= 2 && t[0] == OpenQuote && t[|t| - 1] == CloseQuote;
    }
  }

  /** The first closing quote after a key free of closing quotes ends the key. */
  lemma {:induction false} FirstIndexOf(a: string, c: char, b: string)
    requires Lacks(a, c)
    ensures FirstIndex(a + [c] + b, c) == |a|
    decreases |a|
  {
    var s := a + [c] + b;
    if |a| == 0 {
      assert s[0] == c;
    } else {
      assert s[0] == a[0];
      assert s[1..] == a[1..] + [c] + b;
      FirstIndexOf(a[1..], c, b);
    }
  }

  /** An entry reads back as its field when the key has no closing quote and
      the value renders without brackets. */
  lemma {:induction false} ReadEntryInverts(key: string, v: Value)
    requires Lacks(key, CloseQuote) && IsScalar(v)
    ensures ReadEntry(Entry(key, HandleValue(v))) == Some(Field(key, v))
  {
    var text := HandleValue(v);
    var e := Entry(key, text);
    var j := |key| + 1;
    assert e[1..] == key + [CloseQuote] + (Arrow + text);
    FirstIndexOf(key, CloseQuote, Arrow + text);
    HandleValueBrackets(v);
    assert e[1..j] == key;
    assert e[j + 1..j + 1 + |Arrow|] == Arrow;
    assert e[j + 1 + |Arrow|..] == text;
    ReadScalarInverts(v);
  }

  /** A text unpadded by whitespace and free of bars. */
  predicate Solid(e: string) {
    |e| > 0 && !IsSpace(e[0]) && !IsSpace(e[|e| - 1]) && Lacks(e, '|')
  }

  /** The pieces that splitting `pad + Join(es, Bar)` on the bar yields: each
      text with the spaces of the bars around it. */
  function BarPieces(pad: string, es: seq<string>): (ps: seq<string>)
    requires |es| > 0
    ensures |ps| == |es|
    decreases |es|
  {
    if |es| == 1 then [pad + es[0]] else [pad + es[0] + " "] + BarPieces(" ", es[1..])
  }

  /** Splitting texts joined by ` | ` on the bar gives each text back with the
      bar's spaces around it, when no text holds a bar. */
  lemma {:induction false} SplitBars(pad: string, es: seq<string>)
    requires AllSpace(pad) && |es| > 0
    requires forall i :: 0 <= i < |es| ==> Lacks(es[i], '|')
    ensures Split(pad + Join(es, Bar), "|") == BarPieces(pad, es)
    decreases |es|
  {
    SpaceLacks(pad, '|');
    LacksConcat(pad, es[0], '|');
    if |es| == 1 {
      NoCharNoContains(pad + es[0], '|');
      SplitNoSeparator(pad + es[0], "|");
    } else {
      var tail := Join(es[1..], Bar);
      var head := pad + es[0] + " ";
      assert pad + Join(es, Bar) == head + "|" + (" " + tail);
      LacksConcat(pad + es[0], " ", '|');
      NoCharNoContains(head, '|');
      SplitHead(head, "|", " " + tail);
      assert forall i :: 0 <= i < |es| - 1 ==> es[1..][i] == es[i + 1];
      SplitBars(" ", es[1..]);
    }
  }

  /** Each bar piece is its text, with a space before it unless it is first
      and a space after it unless it is last. */
  lemma {:induction false} BarPieceAt(pad: string, es: seq<string>, i: nat)
    requires |es| > 0 && i < |es|
    ensures BarPieces(pad, es)[i] == (if i == 0 then pad else " ") + es[i] + (if i + 1 == |es| then "" else " ")
    decreases i
  {
    if i > 0 {
      BarPieceAt(" ", es[1..], i - 1);
    } else if |es| == 1 {
      assert pad + es[0] + "" == pad + es[0];
    }
  }

  /** Stripping a bar piece gives its text, when the text is not padded. */
  lemma StripBarPiece(pad: string, es: seq<string>, i: nat)
    requires AllSpace(pad) && |es| > 0 && i < |es|
    requires |es[i]| > 0 && !IsSpace(es[i][0]) && !IsSpace(es[i][|es[i]| - 1])
    ensures Strip(BarPieces(pad, es)[i]) == es[i]
  {
    var before := if i == 0 then pad else " ";
    var after := if i + 1 == |es| then "" else " ";
    assert AllSpace(before) && AllSpace(after);
    BarPieceAt(pad, es, i);
    StripPadded(before, es[i], after);
  }

  /** The options are all present when each one is. */
  lemma {:induction false} AllSomeOf<T>(os: seq<Option<T>>, xs: seq<T>)
    requires |os| == |xs|
    requires forall i :: 0 <= i < |os| ==> os[i] == Some(xs[i])
    ensures AllSome(os) == Some(xs)
    decreases |os|
  {
    if |os| > 0 {
      assert forall i :: 0 <= i < |os| - 1 ==> os[1..][i] == os[i + 1] && xs[1..][i] == xs[i + 1];
      AllSomeOf(os[1..], xs[1..]);
      assert [xs[0]] + xs[1..] == xs;
    }
  }

  /** A rendered entry of a flat dict is unpadded and free of bars. */
  lemma EntrySolid(key: string, v: Value)
    requires IsScalar(v) && Lacks(key, '|') && (v.Str? ==> Lacks(v.s, '|'))
    ensures Solid(Entry(key, HandleValue(v)))
  {
    var text := HandleValue(v);
    var e := Entry(key, text);
    HandleValueBrackets(v);
    assert Lacks(Quote(key), '|') by {
      assert forall i :: 1 <= i < |key| + 1 ==> Quote(key)[i] == key[i - 1];
    }
    assert Lacks(Arrow, '|');
    assert Lacks(text, '|') by {
      if v.Int? {
        IntegerTextLacks(text, '|');
      } else if v.Str? {
        assert forall i :: 1 <= i < |v.s| + 1 ==> text[i] == v.s[i - 1];
      }
    }
    LacksConcat(Quote(key), Arrow, '|');
    LacksConcat(Quote(key) + Arrow, text, '|');
    assert e[|e| - 1] == text[|text| - 1];
    if v.Int? {
      IntegerTextEnd(text);
    }
  }

  /** The entry of a flat dict's field is solid and reads back as the field. */
  lemma FlatEntry(fields: seq<Field>, i: nat)
    requires Flat(fields) && i < |fields|
    ensures Solid(EntryTexts(Dict(fields), 0)[i]) && ReadEntry(EntryTexts(Dict(fields), 0)[i]) == Some(fields[i])
  {
    EntryTextsAt(Dict(fields), 0);
    var f := fields[i];
    assert EntryTexts(Dict(fields), 0)[i] == Entry(f.key, HandleValue(f.val));
    EntrySolid(f.key, f.val);
    ReadEntryInverts(f.key, f.val);
  }

  /** Each entry of a flat dict is solid and reads back as its field. */
  lemma FlatEntries(fields: seq<Field>)
    requires Flat(fields)
    ensures forall i :: 0 <= i < |fields| ==>
      Solid(EntryTexts(Dict(fields), 0)[i]) && ReadEntry(EntryTexts(Dict(fields), 0)[i]) == Some(fields[i])
  {
    forall i | 0 <= i < |fields|
      ensures Solid(EntryTexts(Dict(fields), 0)[i]) && ReadEntry(EntryTexts(Dict(fields), 0)[i]) == Some(fields[i])
    {
      FlatEntry(fields, i);
    }
  }

  /** The bar pieces of a flat dict's entries read back as its fields. */
  lemma ReadEntriesOfPieces(fields: seq<Field>)
    requires Flat(fields) && |fields| > 0
    ensures ReadEntries(BarPieces("", EntryTexts(Dict(fields), 0))) == Some(fields)
  {
    var es := EntryTexts(Dict(fields), 0);
    var ps := BarPieces("", es);
    FlatEntries(fields);
    forall i | 0 <= i < |ps|
      ensures ReadEntry(Strip(ps[i])) == Some(fields[i])
    {
      StripBarPiece("", es, i);
    }
    AllSomeOf(seq(|ps|, i requires 0 <= i < |ps| => ReadEntry(Strip(ps[i]))), fields);
  }

  /** The round trip of the printer: a flat dict's line reads back as the
      dict's fields, in order. */
  lemma {:induction false} PrettyPrintReadsBack(fields: seq<Field>)
    requires Flat(fields)
    ensures ReadFlat(PrettyPrint(Dict(fields))) == Some(fields)
  {
    var es := EntryTexts(Dict(fields), 0);
    if |fields| > 0 {
      FlatEntries(fields);
      var text := Join(es, Bar);
      JoinStartsWithHead(es, Bar);
      assert "" + text == text;
      SplitBars("", es);
      ReadEntriesOfPieces(fields);
    }
  }

  /** The entry texts of a dict are its fields rendered one by one. */
  lemma {:induction false} EntryTextsAt(owner: Value, i: nat)
    requires owner.Dict? && i <= |owner.fields|
    ensures forall j :: 0 <= j < |owner.fields| - i ==>
      EntryTexts(owner, i)[j] == Entry(owner.fields[i + j].key, HandleValue(owner.fields[i + j].val))
    decreases |owner.fields| - i
  {
    if i < |owner.fields| {
      EntryTextsAt(owner, i + 1);
    }
  }

  /** A quoted text free of bars is solid. */
  lemma QuoteSolid(s: string)
    requires Lacks(s, '|')
    ensures Solid(Quote(s))
  {
    var q := Quote(s);
    assert forall k :: 1 <= k < |s| + 1 ==> q[k] == s[k - 1];
  }

  /** One bar piece of quoted texts free of bars reads back as its text. */
  lemma ReadItemPiece(qs: seq<string>, ss: seq<string>, i: nat)
    requires |qs| == |ss| > i
    requires forall i :: 0 <= i < |qs| ==> qs[i] == Quote(ss[i]) && Lacks(ss[i], '|')
    ensures Unquote(Strip(BarPieces("", qs)[i])) == Some(ss[i])
  {
    QuoteSolid(ss[i]);
    StripBarPiece("", qs, i);
  }

  /** Pieces that each unquote to a text read back as those texts. */
  lemma ReadItemsOf(ps: seq<string>, ss: seq<string>)
    requires |ps| == |ss|
    requires forall i :: 0 <= i < |ps| ==> Unquote(Strip(ps[i])) == Some(ss[i])
    ensures ReadItems(ps) == Some(ss)
  {
    AllSomeOf(seq(|ps|, i requires 0 <= i < |ps| => Unquote(Strip(ps[i]))), ss);
  }

  /** The bar pieces of quoted texts free of bars unquote to the texts. */
  lemma ItemPieces(qs: seq<string>, ss: seq<string>)
    requires |qs| == |ss| > 0
    requires forall i :: 0 <= i < |qs| ==> qs[i] == Quote(ss[i]) && Lacks(ss[i], '|')
    ensures forall i :: 0 <= i < |qs| ==> Unquote(Strip(BarPieces("", qs)[i])) == Some(ss[i])
  {
    forall i | 0 <= i < |qs|
      ensures Unquote(Strip(BarPieces("", qs)[i])) == Some(ss[i])
    {
      ReadItemPiece(qs, ss, i);
    }
  }

  /** Quoted texts free of bars, joined by ` | `, read back as the texts. */
  lemma ReadQuoted(qs: seq<string>, ss: seq<string>)
    requires |qs| == |ss| > 0
    requires forall i :: 0 <= i < |qs| ==> qs[i] == Quote(ss[i]) && Lacks(ss[i], '|')
    ensures ReadItems(Split(Join(qs, Bar), "|")) == Some(ss)
  {
    var inner := Join(qs, Bar);
    forall i | 0 <= i < |qs|
      ensures Lacks(qs[i], '|')
    {
      QuoteSolid(ss[i]);
    }
    assert "" + inner == inner;
    SplitBars("", qs);
    ItemPieces(qs, ss);
    ReadItemsOf(BarPieces("", qs), ss);
  }

  /** The round trip of a rendered list: it reads back as the `str` of each
      item, in order, provided none of them holds a bar. */
  lemma {:induction false} ListReadsBack(items: seq<Value>)
    requires forall i :: 0 <= i < |items| ==> Lacks(PyStr(items[i]), '|')
    ensures ReadList(HandleValue(List(items))) == Some(ItemStrings(items))
  {
    var qs := QuotedItems(items);
    var inner := Join(qs, Bar);
    var text := HandleValue(List(items));
    assert text == "[ " + inner + " ]";
    assert text[..2] == "[ " && text[|text| - 2..] == " ]";
    assert text[2..|text| - 2] == inner;
    if |items| > 0 {
      JoinStartsWithHead(qs, Bar);
      ReadQuoted(qs, ItemStrings(items));
    }
  }

  /** A dict with no fields renders as nothing at all. */
  lemma PrettyPrintEmpty()
    ensures PrettyPrint(Dict([])) == ""
  {
  }
}

=== FILE: server_trie.dfy ===
/** The trie of `testServer.py`, which differs from the main one: a node has
    no leaf flag, so `get` answers the value of any node on a path (`None`
    when no put reached it); `query` walks one child per dot-separated
    segment; and `compute` folds a token list strictly left to right.
    Python's `None` is `Null`. */
module ServerTrie {
  import opened Wrappers
  import opened Text
  import opened Values
  import Evaluator

  /** A `TrieNode`: children by character, the value (`None` until a put
      reaches it) and `is_deleted`. */
  datatype SNode = SNode(children: map<char, SNode>, value: Value, deleted: bool)

  /** `TrieNode()`; also the root of a new `Trie()`. */
  const Fresh := SNode(map[], Null, false)

  /** The node a key's characters lead to, if each one has a child. */
  function Find(n: SNode, key: string): Option<SNode>
    decreases |key|
  {
    if |key| == 0 then Some(n)
    else if key[0] in n.children then Find(n.children[key[0]], key[1..])
    else None
  }

  predicate HasPath(n: SNode, key: string) {
    Find(n, key).Some?
  }

  /** The key's node exists and is marked deleted. */
  predicate Tombstoned(n: SNode, key: string) {
    HasPath(n, key) && Find(n, key).value.deleted
  }

  // ---------------------------------------------------------------------------
  // put, get, delete
  // ---------------------------------------------------------------------------

  /** `Trie.put`: creates the missing nodes of the key's path and stores `v`
      at its end. The deletion mark is left as it was. */
  function Put(n: SNode, key: string, v: Value): (r: SNode)
    ensures HasPath(r, key)
    decreases |key|
  {
    if |key| == 0 then n.(value := v)
    else
      var child := if key[0] in n.children then n.children[key[0]] else Fresh;
      n.(children := n.children[key[0] := Put(child, key[1..], v)])
  }

  /** `Trie.get`: `None` when a character has no child or the node is marked
      deleted; otherwise the node's value, which is `None` when no put ended
      there. */
  function Get(n: SNode, key: string): (r: Value)
    ensures !HasPath(n, key) ==> r == Null
    ensures Tombstoned(n, key) ==> r == Null
    ensures HasPath(n, key) && !Tombstoned(n, key) ==> r == Find(n, key).value.value
    decreases |key|
  {
    if |key| == 0 then (if !n.deleted then n.value else Null)
    else if key[0] !in n.children then Null
    else Get(n.children[key[0]], key[1..])
  }

  /** Sets the deletion mark of the key's node. */
  function Mark(n: SNode, key: string): SNode
    requires HasPath(n, key)
    decreases |key|
  {
    if |key| == 0 then n.(deleted := true)
    else n.(children := n.children[key[0] := Mark(n.children[key[0]], key[1..])])
  }

  /** `Trie.delete`: nothing happens when a character of the key has no
      child; otherwise the key's node is marked deleted and stays in place. */
  function Delete(n: SNode, key: string): (r: SNode)
    ensures !HasPath(n, key) ==> r == n
  {
    if HasPath(n, key) then Mark(n, key) else n
  }

  // ---------------------------------------------------------------------------
  // Properties of put, get and delete
  // ---------------------------------------------------------------------------

  /** A fresh node answers `None` for every key. */
  lemma {:induction false} GetFresh(key: string)
    ensures Get(Fresh, key) == Null
  {
  }

  /** `get` after `put` on the same key answers the value put, unless the
      key's node was already marked deleted, in which case it still answers
      `None`: a put never revives a deleted key. */
  lemma {:induction false} GetPut(t: SNode, k: string, v: Value)
    ensures Get(Put(t, k, v), k) == if Tombstoned(t, k) then Null else v
    decreases |k|
  {
    if |k| > 0 {
      var child := if k[0] in t.children then t.children[k[0]] else Fresh;
      GetPut(child, k[1..], v);
    }
  }

  /** A put leaves every other key's answer alone. */
  lemma {:induction false} GetPutOther(t: SNode, k: string, v: Value, p: string)
    requires p != k
    ensures Get(Put(t, k, v), p) == Get(t, p)
    decreases |k|
  {
    if |k| > 0 && |p| > 0 && p[0] == k[0] {
      var child := if k[0] in t.children then t.children[k[0]] else Fresh;
      assert p[1..] != k[1..] by {
        assert p == [p[0]] + p[1..] && k == [k[0]] + k[1..];
      }
      GetPutOther(child, k[1..], v, p[1..]);
      if k[0] !in t.children {
        GetFresh(p[1..]);
      }
    }
  }

  /** A key that lies on the path of a longer put, but was never put itself,
      answers `None`: the nodes a put creates hold no value. */
  lemma {:induction false} GetUnputPrefix(t: SNode, k: string, rest: string, v: Value)
    requires !HasPath(t, k) && |rest| > 0
    ensures Get(Put(t, k + rest, v), k) == Null
    decreases |k|
  {
    if |k| == 0 {
      assert false;
    } else {
      var key := k + rest;
      assert key[0] == k[0] && key[1..] == k[1..] + rest;
      if k[0] in t.children {
        GetUnputPrefix(t.children[k[0]], k[1..], rest, v);
      } else {
        FreshPutPrefix(k[1..], rest, v);
      }
    }
  }

  /** Below a fresh node, every strict prefix of the put key answers `None`. */
  lemma {:induction false} FreshPutPrefix(k: string, rest: string, v: Value)
    requires |rest| > 0
    ensures Get(Put(Fresh, k + rest, v), k) == Null
    decreases |k|
  {
    var key := k + rest;
    if |k| > 0 {
      assert key[0] == k[0] && key[1..] == k[1..] + rest;
      FreshPutPrefix(k[1..], rest, v);
    } else {
      assert key == rest;
    }
  }

  /** Marking a node changes no path and no value. */
  lemma {:induction false} MarkKeeps(t: SNode, k: string, p: string)
    requires HasPath(t, k)
    ensures HasPath(Mark(t, k), p) == HasPath(t, p)
    ensures HasPath(t, p) ==> Find(Mark(t, k), p).value.value == Find(t, p).value.value
    ensures HasPath(t, p) ==> Find(Mark(t, k), p).value.children.Keys == Find(t, p).value.children.Keys
    ensures HasPath(t, p) ==> Find(Mark(t, k), p).value.deleted == (p == k || Find(t, p).value.deleted)
    decreases |k|
  {
    if |k| > 0 && |p| > 0 && p[0] == k[0] {
      MarkKeeps(t.children[k[0]], k[1..], p[1..]);
      assert p == k <==> p[1..] == k[1..] by {
        assert p == [p[0]] + p[1..] && k == [k[0]] + k[1..];
      }
    }
  }

  /** After `delete`, `get` of the key answers `None`, as for a key that was
      never there: a deleted key cannot be told from an absent one. */
  lemma GetDelete(t: SNode, k: string)
    ensures Get(Delete(t, k), k) == Null
  {
    if HasPath(t, k) {
      MarkKeeps(t, k, k);
    }
  }

  /** A delete leaves every other key's answer alone. */
  lemma GetDeleteOther(t: SNode, k: string, p: string)
    requires p != k
    ensures Get(Delete(t, k), p) == Get(t, p)
  {
    if HasPath(t, k) {
      MarkKeeps(t, k, p);
    }
  }

  /** A put after a delete of an existing key is not seen by `get`. */
  lemma PutAfterDelete(t: SNode, k: string, v: Value)
    requires HasPath(t, k)
    ensures Get(Put(Delete(t, k), k, v), k) == Null
  {
    MarkKeeps(t, k, k);
    GetPut(Delete(t, k), k, v);
  }

  // ---------------------------------------------------------------------------
  // query
  // ---------------------------------------------------------------------------

  /** What `query` returns: `None`, a stored value, or the children map of a
      node whose value is `None`. */
  datatype Answer = NotFound | Stored(value: Value) | Children(children: map<char, SNode>)

  /** The loop of `query`: each segment must be a child key, and child keys
      are single characters. */
  function Walk(n: SNode, keys: seq<string>): Option<SNode>
    decreases |keys|
  {
    if |keys| == 0 then Some(n)
    else if |keys[0]| == 1 && keys[0][0] in n.children then Walk(n.children[keys[0][0]], keys[1..])
    else None
  }

  /** What a node found by `query` answers. */
  function AnswerOf(m: Option<SNode>): Answer {
    match m
    case None => NotFound
    case Some(n) => if n.value != Null then Stored(n.value) else Children(n.children)
  }

  /** `Trie.query`: the key-path split on dots, walked from the root. The
      deletion mark is not consulted. */
  function Query(t: SNode, keypath: string): Answer {
    AnswerOf(Walk(t, Split(keypath, ".")))
  }

  /** The characters of a key, each as a one-character segment. */
  function Chars(k: string): seq<string> {
    seq(|k|, i requires 0 <= i < |k| => [k[i]])
  }

  /** Walking a key's characters one segment at a time reaches the key's node. */
  lemma {:induction false} WalkChars(n: SNode, k: string)
    ensures Walk(n, Chars(k)) == Find(n, k)
    decreases |k|
  {
    if |k| > 0 {
      assert Chars(k)[1..] == Chars(k[1..]);
      if k[0] in n.children {
        WalkChars(n.children[k[0]], k[1..]);
      }
    }
  }

  /** A walk stops at a segment that is not a single character. */
  lemma {:induction false} WalkLongSegment(n: SNode, keys: seq<string>, i: nat)
    requires i < |keys| && |keys[i]| != 1
    ensures Walk(n, keys) == None
    decreases i
  {
    if i > 0 && |keys[0]| == 1 && keys[0][0] in n.children {
      WalkLongSegment(n.children[keys[0][0]], keys[1..], i - 1);
    }
  }

  /** A key written with a dot between its characters queries the key's node:
      its value when it holds one, else its children. */
  lemma QueryDotted(t: SNode, k: string)
    requires |k| > 0 && Lacks(k, '.')
    ensures Query(t, Join(Chars(k), ".")) == AnswerOf(Find(t, k))
  {
    var cs := Chars(k);
    forall i | 0 <= i < |cs|
      ensures Lacks(cs[i], '.')
    {
      assert cs[i] == [k[i]];
    }
    SplitJoin(cs, ".");
    WalkChars(t, k);
  }

  /** A key-path with a segment longer or shorter than one character is not
      found, whatever the trie holds. */
  lemma QueryLongSegment(t: SNode, keypath: string, i: nat)
    requires i < |Split(keypath, ".")| && |Split(keypath, ".")[i]| != 1
    ensures Query(t, keypath) == NotFound
  {
    WalkLongSegment(t, Split(keypath, "."), i);
  }

  /** What a query answer shows of the trie: nothing, a value, or the
      characters of the children. */
  datatype Seen = NothingSeen | ValueSeen(value: Value) | KeysSeen(keys: set<char>)

  function SeenOf(a: Answer): Seen {
    match a
    case NotFound => NothingSeen
    case Stored(v) => ValueSeen(v)
    case Children(m) => KeysSeen(m.Keys)
  }

  /** Marking a node changes no walk's outcome, value or child keys. */
  lemma {:induction false} WalkMark(t: SNode, k: string, keys: seq<string>, p: string)
    requires HasPath(t, k) && HasPath(t, p)
    ensures HasPath(Mark(t, k), p)
    ensures SeenOf(AnswerOf(Walk(Find(Mark(t, k), p).value, keys))) == SeenOf(AnswerOf(Walk(Find(t, p).value, keys)))
    decreases |keys|
  {
    MarkKeeps(t, k, p);
    if |keys| > 0 {
      var c := keys[0];
      if |c| == 1 {
        var q := p + c;
        assert c == [c[0]];
        FindExtend(t, p, c[0]);
        FindExtend(Mark(t, k), p, c[0]);
        if c[0] in Find(t, p).value.children {
          WalkMark(t, k, keys[1..], q);
        }
      }
    }
  }

  /** One more character: the child of the node reached so far. */
  lemma {:induction false} FindExtend(t: SNode, p: string, c: char)
    requires HasPath(t, p)
    ensures Find(t, p + [c]) ==
      if c in Find(t, p).value.children then Some(Find(t, p).value.children[c]) else None
    decreases |p|
  {
    if |p| == 0 {
      assert p + [c] == [c];
    } else {
      assert (p + [c])[0] == p[0] && (p + [c])[1..] == p[1..] + [c];
      FindExtend(t.children[p[0]], p[1..], c);
    }
  }

  /** `query` ignores deletion: deleting a key changes nothing a query shows. */
  lemma QueryIgnoresDelete(t: SNode, k: string, keypath: string)
    ensures SeenOf(Query(Delete(t, k), keypath)) == SeenOf(Query(t, keypath))
  {
    if HasPath(t, k) {
      WalkMark(t, k, Split(keypath, "."), "");
    }
  }

  // ---------------------------------------------------------------------------
  // compute
  // ---------------------------------------------------------------------------

  /** How `Trie.compute` fails: `formula[...]` past the end, a `variables`
      or `operators` lookup of a missing key, or the arithmetic itself. */
  datatype ComputeError = IndexError | KeyError(key: string) | Arithmetic(fault: Evaluator.Fault)

  /** One pass of the loop: the variable is looked up before the operator,
      and the operator is applied to the running result and the variable. */
  function Apply(acc: real, op: string, name: string, variables: map<string, real>): Result<real, ComputeError> {
    if name !in variables then Err(KeyError(name))
    else if !Evaluator.IsOperator(op) then Err(KeyError(op))
    else
      match Evaluator.PerformOperation(acc, variables[name], op)
      case Err(f) => Err(Arithmetic(f))
      case Ok(x) => Ok(x)
  }

  /** The loop over `range(i, len(formula), 2)` from the running result `acc`. */
  function FoldFrom(acc: real, formula: seq<string>, i: nat, variables: map<string, real>): Result<real, ComputeError>
    decreases |formula| - i
  {
    if i >= |formula| then Ok(acc)
    else if i + 1 >= |formula| then Err(IndexError)
    else
      match Apply(acc, formula[i], formula[i + 1], variables)
      case Err(e) => Err(e)
      case Ok(x) => FoldFrom(x, formula, i + 2, variables)
  }

  /** `Trie.compute(formula, variables)`: start from the first token's
      variable, then fold each operator and variable pair in order. */
  function Compute(formula: seq<string>, variables: map<string, real>): Result<real, ComputeError> {
    if |formula| == 0 then Err(IndexError)
    else if formula[0] !in variables then Err(KeyError(formula[0]))
    else FoldFrom(variables[formula[0]], formula, 1, variables)
  }

  /** The fold from index `i` over `f` extended by a pair is the fold over `f`,
      then that pair. */
  lemma {:induction false} FoldFromSnoc(acc: real, f: seq<string>, i: nat, op: string, y: string, variables: map<string, real>)
    requires i <= |f| && (|f| - i) % 2 == 0
    ensures FoldFrom(acc, f + [op, y], i, variables) ==
      match FoldFrom(acc, f, i, variables)
      case Err(e) => Err(e)
      case Ok(x) => Apply(x, op, y, variables)
    decreases |f| - i
  {
    var g := f + [op, y];
    if i == |f| {
      assert g[i] == op && g[i + 1] == y;
      assert FoldFrom(acc, g, i + 2, variables) == FoldFrom(acc, g, |g|, variables);
      match Apply(acc, op, y, variables)
      case Err(e) =>
      case Ok(x) =>
        assert FoldFrom(x, g, i + 2, variables) == Ok(x);
    } else {
      assert g[i] == f[i] && g[i + 1] == f[i + 1];
      match Apply(acc, f[i], f[i + 1], variables)
      case Err(e) =>
      case Ok(x) =>
        FoldFromSnoc(x, f, i + 2, op, y, variables);
    }
  }

  /** The fold is strictly left to right: appending an operator and a
      variable to a formula applies them to the formula's result. */
  lemma ComputeSnoc(f: seq<string>, op: string, y: string, variables: map<string, real>)
    requires |f| % 2 == 1
    ensures Compute(f + [op, y], variables) ==
      match Compute(f, variables)
      case Err(e) => Err(e)
      case Ok(x) => Apply(x, op, y, variables)
  {
    assert (f + [op, y])[0] == f[0];
    if f[0] in variables {
      FoldFromSnoc(variables[f[0]], f, 1, op, y, variables);
    }
  }

  /** An operator with no variable after it raises `IndexError`, once the
      formula before it has evaluated. */
  lemma {:induction false} FoldFromDangling(acc: real, f: seq<string>, i: nat, op: string, variables: map<string, real>)
    requires i <= |f| && (|f| - i) % 2 == 0
    ensures FoldFrom(acc, f + [op], i, variables) ==
      match FoldFrom(acc, f, i, variables)
      case Err(e) => Err(e)
      case Ok(_) => Err(IndexError)
    decreases |f| - i
  {
    var g := f + [op];
    if i < |f| {
      assert g[i] == f[i] && g[i + 1] == f[i + 1];
      match Apply(acc, f[i], f[i + 1], variables)
      case Err(e) =>
      case Ok(x) =>
        FoldFromDangling(x, f, i + 2, op, variables);
    }
  }

  /** A formula of even length fails with `IndexError` unless its evaluable
      prefix fails first. */
  lemma ComputeDangling(f: seq<string>, op: string, variables: map<string, real>)
    requires |f| % 2 == 1
    ensures Compute(f + [op], variables) ==
      match Compute(f, variables)
      case Err(e) => Err(e)
      case Ok(_) => Err(IndexError)
  {
    assert (f + [op])[0] == f[0];
    if f[0] in variables {
      FoldFromDangling(variables[f[0]], f, 1, op, variables);
    }
  }

  /** No precedence: `a + b * c` is `(a + b) * c`. */
  lemma ComputeIgnoresPrecedence(a: string, b: string, c: string, variables: map<string, real>)
    requires a in variables && b in variables && c in variables
    ensures Compute([a, "+", b, "*", c], variables) == Ok((variables[a] + variables[b]) * variables[c])
  {
    assert [a, "+", b, "*", c] == [a, "+", b] + ["*", c];
    assert [a, "+", b] == [a] + ["+", b];
    assert Compute([a], variables) == Ok(variables[a]);
    ComputeSnoc([a], "+", b, variables);
    assert Evaluator.IsOperator("+") && Evaluator.IsOperator("*");
    assert Apply(variables[a], "+", b, variables) == Ok(variables[a] + variables[b]) by {
      assert Evaluator.PerformOperation(variables[a], variables[b], "+") == Ok(variables[a] + variables[b]);
    }
    ComputeSnoc([a, "+", b], "*", c, variables);
    assert Apply(variables[a] + variables[b], "*", c, variables) == Ok((variables[a] + variables[b]) * variables[c]) by {
      assert Evaluator.PerformOperation(variables[a] + variables[b], variables[c], "*") == Ok((variables[a] + variables[b]) * variables[c]);
    }
  }

  // ---------------------------------------------------------------------------
  // parse_received_input_command
  // ---------------------------------------------------------------------------

  /** A request: the command word and its arguments. */
  datatype Command = Command(name: string, args: seq<string>)

  /** `parse_received_input_command`: the whitespace-separated words of the
      request, the first one the command; a blank request has no first word
      and raises `IndexError`, which is `None` here. */
  function ParseCommand(input: string): (r: Option<Command>)
    ensures r.Some? ==> |r.value.name| > 0 && ValidWords(r.value.args)
  {
    var tokens := Words(input);
    if |tokens| == 0 then None else Some(Command(tokens[0], tokens[1..]))
  }

  /** Words joined by single spaces parse back as the command and its
      arguments. */
  lemma ParseCommandOfJoin(name: string, args: seq<string>)
    requires ValidWords([name] + args)
    ensures ParseCommand(Join([name] + args, " ")) == Some(Command(name, args))
  {
    WordsOfJoin([name] + args);
    assert ([name] + args)[1..] == args;
  }

  /** Only a blank request fails to parse. */
  lemma ParseCommandBlank(input: string)
    ensures ParseCommand(input).None? <==> AllSpace(input)
  {
    WordsBlank(input);
  }

  /** Leading whitespace does not change the parse. */
  lemma ParseCommandPadded(pad: string, input: string)
    requires AllSpace(pad)
    ensures ParseCommand(pad + input) == ParseCommand(input)
  {
    WordsSkipsSpace(pad, input);
  }
}

=== FILE: text.dfy ===
/** The handful of Python string operations the store relies on, written out
    over `seq<char>`: decimal rendering (`str(int)`), `split(sep)`, `join`,
    `replace`, `strip()`, and whitespace `split()`. Each comes with the
    property that characterises it independently of how it is computed. */
module Text {

  /** Python's `str.isspace`: the characters `split()` and `strip()` treat as whitespace. */
  predicate IsSpace(c: char) {
    || ('\U{9}' <= c <= '\U{D}')
    || ('\U{1C}' <= c <= '\U{20}')
    || c == '\U{85}' || c == '\U{A0}' || c == '\U{1680}'
    || ('\U{2000}' <= c <= '\U{200A}')
    || c == '\U{2028}' || c == '\U{2029}' || c == '\U{202F}' || c == '\U{205F}' || c == '\U{3000}'
  }

  /** A decimal digit (the ASCII part of Python's `\d` and `isnumeric`). */
  predicate IsDigit(c: char) {
    '0' <= c <= '9'
  }

  /** A character of the regular-expression class `\w` (its ASCII part). */
  predicate IsWordChar(c: char) {
    ('a' <= c <= 'z') || ('A' <= c <= 'Z') || IsDigit(c) || c == '_'
  }

  predicate AllDigits(s: string) {
    forall i :: 0 <= i < |s| ==> IsDigit(s[i])
  }

  predicate NoSpace(s: string) {
    forall i :: 0 <= i < |s| ==> !IsSpace(s[i])
  }

  predicate AllSpace(s: string) {
    forall i :: 0 <= i < |s| ==> IsSpace(s[i])
  }

  /** The character `c` does not occur in `s`. */
  predicate Lacks(s: string, c: char) {
    forall i :: 0 <= i < |s| ==> s[i] != c
  }

  /** Whitespace lacks every character that is not whitespace. */
  lemma SpaceLacks(s: string, c: char)
    requires AllSpace(s) && !IsSpace(c)
    ensures Lacks(s, c)
  {
  }

  lemma LacksConcat(a: string, b: string, c: char)
    requires Lacks(a, c) && Lacks(b, c)
    ensures Lacks(a + b, c)
  {
    assert forall i :: |a| <= i < |a + b| ==> (a + b)[i] == b[i - |a|];
  }

  // ---------------------------------------------------------------------------
  // Decimal numerals
  // ---------------------------------------------------------------------------

  function DigitValue(c: char): nat
    requires IsDigit(c)
  {
    c as int - '0' as int
  }

  function DigitChar(d: nat): (c: char)
    requires d < 10
    ensures IsDigit(c) && DigitValue(c) == d
  {
    ('0' as int + d) as char
  }

  /** The number a run of decimal digits denotes (Python's `float(s)` / `int(s)` on such a run). */
  function DigitsValue(s: string): nat
    requires AllDigits(s)
    decreases |s|
  {
    if |s| == 0 then 0 else DigitsValue(s[..|s| - 1]) * 10 + DigitValue(s[|s| - 1])
  }

  /** `str(n)` for a natural number: canonical decimal digits that read back as `n`. */
  function NatToDecimal(n: nat): (s: string)
    ensures |s| > 0 && AllDigits(s)
    ensures DigitsValue(s) == n
    ensures |s| > 1 ==> s[0] != '0'
    decreases n
  {
    if n < 10 then [DigitChar(n)]
    else
      var prefix := NatToDecimal(n / 10);
      var s := prefix + [DigitChar(n % 10)];
      assert s[..|s| - 1] == prefix;
      s
  }

  /** Text Python's `int()` accepts in the form `str(int)` produces: optional minus, then digits. */
  predicate IsIntegerText(s: string) {
    if |s| > 0 && s[0] == '-' then |s| > 1 && AllDigits(s[1..]) else |s| > 0 && AllDigits(s)
  }

  function IntegerValue(s: string): int
    requires IsIntegerText(s)
  {
    if s[0] == '-' then -(DigitsValue(s[1..]) as int) else DigitsValue(s)
  }

  /** `str(i)` for a Python `int`: reads back as `i`. */
  function IntToDecimal(i: int): (s: string)
    ensures IsIntegerText(s) && IntegerValue(s) == i
    ensures (s[0] == '-') <==> i < 0
  {
    if i < 0 then
      var digits := NatToDecimal(-i);
      assert ("-" + digits)[1..] == digits;
      "-" + digits
    else NatToDecimal(i)
  }

  // ---------------------------------------------------------------------------
  // Substrings
  // ---------------------------------------------------------------------------

  predicate StartsWith(s: string, prefix: string) {
    |prefix| <= |s| && s[..|prefix|] == prefix
  }

  /** Python's `sub in s`. */
  predicate Contains(s: string, sub: string)
    decreases |s|
  {
    StartsWith(s, sub) || (|s| > 0 && Contains(s[1..], sub))
  }

  lemma {:induction false} ContainsAt(s: string, sub: string, i: nat)
    requires i + |sub| <= |s| && s[i..i + |sub|] == sub
    ensures Contains(s, sub)
    decreases i
  {
    if i > 0 {
      assert s[1..][i - 1..i - 1 + |sub|] == sub;
      ContainsAt(s[1..], sub, i - 1);
    }
  }

  /** `sep.join(parts)`. */
  function Join(parts: seq<string>, sep: string): string
    decreases |parts|
  {
    if |parts| == 0 then ""
    else if |parts| == 1 then parts[0]
    else parts[0] + sep + Join(parts[1..], sep)
  }

  lemma JoinExtendsHead(x: string, parts: seq<string>, sep: string)
    requires |parts| > 0
    ensures Join([x + parts[0]] + parts[1..], sep) == x + Join(parts, sep)
  {
    var q := [x + parts[0]] + parts[1..];
    assert q[1..] == parts[1..];
  }

  lemma JoinStartsWithHead(parts: seq<string>, sep: string)
    requires |parts| > 0
    ensures StartsWith(Join(parts, sep), parts[0])
  {
    if |parts| > 1 {
      assert Join(parts, sep) == parts[0] + (sep + Join(parts[1..], sep));
    }
  }

  /** Python's `s.split(sep)` for a non-empty separator: the text between the
      occurrences of `sep`, found left to right without overlap. Joining the
      pieces with `sep` gives `s` back, and no piece contains `sep`. */
  function Split(s: string, sep: string): (parts: seq<string>)
    requires |sep| > 0
    ensures |parts| >= 1
    ensures Join(parts, sep) == s
    ensures forall i :: 0 <= i < |parts| ==> !Contains(parts[i], sep)
    decreases |s|
  {
    if |s| < |sep| then
      assert !Contains(s, sep) by { ShortNoContains(s, sep); }
      [s]
    else if s[..|sep|] == sep then
      var rest := Split(s[|sep|..], sep);
      assert s == "" + sep + Join(rest, sep);
      assert !Contains("", sep);
      [""] + rest
    else
      var rest := Split(s[1..], sep);
      var head := [s[0]] + rest[0];
      JoinExtendsHead([s[0]], rest, sep);
      assert Join([head] + rest[1..], sep) == s;
      assert !Contains(head, sep) by {
        assert head[1..] == rest[0];
        if StartsWith(head, sep) {
          JoinStartsWithHead([head] + rest[1..], sep);
        }
      }
      [head] + rest[1..]
  }

  lemma {:induction false} ShortNoContains(s: string, sub: string)
    requires |s| < |sub|
    ensures !Contains(s, sub)
    decreases |s|
  {
    if |s| > 0 {
      ShortNoContains(s[1..], sub);
    }
  }

  /** A text without the character `c` does not contain the one-character text `[c]`. */
  lemma {:induction false} NoCharNoContains(s: string, c: char)
    requires Lacks(s, c)
    ensures !Contains(s, [c])
    decreases |s|
  {
    if |s| > 0 {
      assert s[..1][0] == s[0];
      NoCharNoContains(s[1..], c);
    }
  }

  /** A text none of whose characters starts `sep` does not contain `sep`. */
  lemma {:induction false} NoLeadNoContains(s: string, sep: string)
    requires |sep| > 0
    requires Lacks(s, sep[0])
    ensures !Contains(s, sep)
    decreases |s|
  {
    if |s| > 0 {
      if |sep| <= |s| {
        assert s[..|sep|][0] == s[0];
      }
      NoLeadNoContains(s[1..], sep);
    }
  }

  /** No occurrence of `sep` starts inside `a` when no character of `a`
      starts `sep`, even one running on into `sep` itself. */
  lemma {:induction false} NoLeadNoStraddle(a: string, sep: string)
    requires |sep| > 0
    requires Lacks(a, sep[0])
    ensures !Contains(a + sep[..|sep| - 1], sep)
    decreases |a|
  {
    var s := a + sep[..|sep| - 1];
    if |a| == 0 {
      ShortNoContains(s, sep);
    } else {
      assert s[1..] == a[1..] + sep[..|sep| - 1];
      assert s[..|sep|][0] == a[0];
      NoLeadNoStraddle(a[1..], sep);
    }
  }

  /** When no occurrence of `sep` starts inside `a`, `a` splits off as the first piece. */
  lemma {:induction false} SplitAt(a: string, sep: string, b: string)
    requires |sep| > 0 && !Contains(a + sep[..|sep| - 1], sep)
    ensures Split(a + sep + b, sep) == [a] + Split(b, sep)
    decreases |a|
  {
    var s := a + sep + b;
    if |a| == 0 {
      assert s == sep + b;
      assert s[..|sep|] == sep;
      assert s[|sep|..] == b;
    } else {
      var t := a + sep[..|sep| - 1];
      assert s[..|sep|] == t[..|sep|];
      assert !StartsWith(t, sep);
      assert s[1..] == a[1..] + sep + b;
      assert t[1..] == a[1..] + sep[..|sep| - 1];
      SplitAt(a[1..], sep, b);
      assert [s[0]] + a[1..] == a;
    }
  }

  /** A head free of a one-character separator splits off as the first piece. */
  lemma SplitHead(a: string, sep: string, b: string)
    requires |sep| == 1 && !Contains(a, sep)
    ensures Split(a + sep + b, sep) == [a] + Split(b, sep)
  {
    assert a + sep[..0] == a;
    SplitAt(a, sep, b);
  }

  /** Splitting pieces joined with `sep` gives the pieces back, provided no
      piece holds the first character of `sep`. */
  lemma {:induction false} SplitJoin(pieces: seq<string>, sep: string)
    requires |pieces| > 0 && |sep| > 0
    requires forall i :: 0 <= i < |pieces| ==> Lacks(pieces[i], sep[0])
    ensures Split(Join(pieces, sep), sep) == pieces
    decreases |pieces|
  {
    if |pieces| == 1 {
      NoLeadNoContains(pieces[0], sep);
      SplitNoSeparator(pieces[0], sep);
    } else {
      NoLeadNoStraddle(pieces[0], sep);
      SplitAt(pieces[0], sep, Join(pieces[1..], sep));
      SplitJoin(pieces[1..], sep);
    }
  }

  /** A separator-free text splits into itself alone. */
  lemma {:induction false} SplitNoSeparator(s: string, sep: string)
    requires |sep| > 0 && !Contains(s, sep)
    ensures Split(s, sep) == [s]
    decreases |s|
  {
    if |s| >= |sep| {
      assert s[..|sep|] != sep;
      assert !Contains(s[1..], sep);
      SplitNoSeparator(s[1..], sep);
    }
  }

  /** Python's `s.replace(target, replacement)`: every occurrence of a
      non-empty `target`, found left to right without overlap, is replaced;
      an empty `target` occurs before every character and at the end. */
  function Replace(s: string, target: string, replacement: string): string {
    if |target| == 0 then InterleaveReplacement(s, replacement)
    else Join(Split(s, target), replacement)
  }

  /** `s.replace("", replacement)`: the replacement around every character. */
  function InterleaveReplacement(s: string, replacement: string): (r: string)
    ensures |r| == |s| + (|s| + 1) * |replacement|
    decreases |s|
  {
    if |s| == 0 then replacement
    else replacement + [s[0]] + InterleaveReplacement(s[1..], replacement)
  }

  lemma ReplaceAbsent(s: string, target: string, replacement: string)
    requires |target| > 0 && !Contains(s, target)
    ensures Replace(s, target, replacement) == s
  {
    SplitNoSeparator(s, target);
  }

  lemma ReplaceWithItself(s: string, target: string)
    requires |target| > 0
    ensures Replace(s, target, target) == s
  {
  }

  // ---------------------------------------------------------------------------
  // Whitespace
  // ---------------------------------------------------------------------------

  /** Python's `s.lstrip()`: drops the leading whitespace, nothing else. */
  function LStrip(s: string): (r: string)
    ensures |r| <= |s| && r == s[|s| - |r|..]
    ensures AllSpace(s[..|s| - |r|])
    ensures |r| > 0 ==> !IsSpace(r[0])
    decreases |s|
  {
    if |s| > 0 && IsSpace(s[0]) then
      var r := LStrip(s[1..]);
      var k := |s| - |r|;
      assert s[1..][k - 1..] == s[k..];
      assert forall i :: 0 < i < k ==> s[..k][i] == s[1..][..k - 1][i - 1];
      r
    else s
  }

  /** Python's `s.rstrip()`: drops the trailing whitespace, nothing else. */
  function RStrip(s: string): (r: string)
    ensures |r| <= |s| && r == s[..|r|]
    ensures AllSpace(s[|r|..])
    ensures |r| > 0 ==> !IsSpace(r[|r| - 1])
    decreases |s|
  {
    if |s| > 0 && IsSpace(s[|s| - 1]) then
      var r := RStrip(s[..|s| - 1]);
      assert s[|r|..] == s[..|s| - 1][|r|..] + [s[|s| - 1]];
      r
    else s
  }

  /** `s` is `r` at offset `i` with only whitespace before and after it. */
  predicate PaddedAt(s: string, r: string, i: nat) {
    i + |r| <= |s| && r == s[i..i + |r|] && AllSpace(s[..i]) && AllSpace(s[i + |r|..])
  }

  /** Whitespace dropped from the front of `s`, leaving `l`, and then from
      the back of `l`, leaving `r`, leaves `s` padded around `r`. */
  lemma PaddedAfterStrips(s: string, l: string, r: string)
    requires |l| <= |s| && l == s[|s| - |l|..] && AllSpace(s[..|s| - |l|])
    requires |r| <= |l| && r == l[..|r|] && AllSpace(l[|r|..])
    ensures PaddedAt(s, r, |s| - |l|)
  {
    var i := |s| - |l|;
    assert r == s[i..i + |r|];
    assert s[i + |r|..] == l[|r|..];
  }

  /** Python's `s.strip()`: `s` is the result with whitespace only before and after it. */
  function Strip(s: string): (r: string)
    ensures exists i :: PaddedAt(s, r, i)
    ensures |r| > 0 ==> !IsSpace(r[0]) && !IsSpace(r[|r| - 1])
  {
    PaddedAfterStrips(s, LStrip(s), RStrip(LStrip(s)));
    RStrip(LStrip(s))
  }

  /** A text that neither starts nor ends with whitespace is its own strip. */
  lemma StripUnpadded(s: string)
    requires |s| == 0 || (!IsSpace(s[0]) && !IsSpace(s[|s| - 1]))
    ensures Strip(s) == s
  {
    var r := Strip(s);
    var i: nat :| PaddedAt(s, r, i);
    assert s[0..|s|] == s;
  }

  /** Leading whitespace in front of a non-space character is what `lstrip()` removes. */
  lemma {:induction false} LStripPadded(a: string, u: string)
    requires AllSpace(a) && |u| > 0 && !IsSpace(u[0])
    ensures LStrip(a + u) == u
    decreases |a|
  {
    if |a| == 0 {
      assert a + u == u;
    } else {
      assert (a + u)[0] == a[0];
      assert (a + u)[1..] == a[1..] + u;
      LStripPadded(a[1..], u);
    }
  }

  /** Trailing whitespace after a non-space character is what `rstrip()` removes. */
  lemma {:induction false} RStripPadded(u: string, b: string)
    requires AllSpace(b) && |u| > 0 && !IsSpace(u[|u| - 1])
    ensures RStrip(u + b) == u
    decreases |b|
  {
    if |b| == 0 {
      assert u + b == u;
    } else {
      var t := u + b;
      assert t[|t| - 1] == b[|b| - 1];
      assert t[..|t| - 1] == u + b[..|b| - 1];
      RStripPadded(u, b[..|b| - 1]);
    }
  }

  /** Whitespace around a text that neither starts nor ends with whitespace is
      exactly what `strip()` removes. */
  lemma {:induction false} StripPadded(a: string, s: string, b: string)
    requires AllSpace(a) && AllSpace(b)
    requires |s| > 0 && !IsSpace(s[0]) && !IsSpace(s[|s| - 1])
    ensures Strip(a + s + b) == s
  {
    assert a + s + b == a + (s + b);
    LStripPadded(a, s + b);
    RStripPadded(s, b);
  }

  /** Length of the run of non-whitespace characters at the front of `s`. */
  function WordLength(s: string): (n: nat)
    ensures n <= |s| && NoSpace(s[..n])
    ensures n < |s| ==> IsSpace(s[n])
    decreases |s|
  {
    if |s| == 0 || IsSpace(s[0]) then 0
    else
      var n := 1 + WordLength(s[1..]);
      assert s[..n] == [s[0]] + s[1..][..n - 1];
      n
  }

  /** Python's `s.split()` with no argument: the maximal runs of non-whitespace. */
  function Words(s: string): (ws: seq<string>)
    ensures forall i :: 0 <= i < |ws| ==> |ws[i]| > 0 && NoSpace(ws[i])
    decreases |s|
  {
    if |s| == 0 then []
    else if IsSpace(s[0]) then Words(s[1..])
    else
      var n := WordLength(s);
      [s[..n]] + Words(s[n..])
  }

  /** Valid words for `Words`: non-empty and free of whitespace. */
  predicate ValidWords(ws: seq<string>) {
    forall i :: 0 <= i < |ws| ==> |ws[i]| > 0 && NoSpace(ws[i])
  }

  lemma {:induction false} WordsSkipsSpace(pad: string, s: string)
    requires AllSpace(pad)
    ensures Words(pad + s) == Words(s)
    decreases |pad|
  {
    if |pad| > 0 {
      assert (pad + s)[0] == pad[0];
      assert (pad + s)[1..] == pad[1..] + s;
      WordsSkipsSpace(pad[1..], s);
    } else {
      assert pad + s == s;
    }
  }

  /** A text has no words exactly when it is all whitespace. */
  lemma {:induction false} WordsBlank(s: string)
    ensures Words(s) == [] <==> AllSpace(s)
    decreases |s|
  {
    if |s| > 0 {
      if IsSpace(s[0]) {
        WordsBlank(s[1..]);
        assert forall i :: 1 <= i < |s| ==> s[i] == s[1..][i - 1];
      }
    }
  }

  lemma {:induction false} WordsTakesWord(w: string, rest: string)
    requires |w| > 0 && NoSpace(w)
    requires |rest| == 0 || IsSpace(rest[0])
    ensures Words(w + rest) == [w] + Words(rest)
  {
    var s := w + rest;
    WordLengthOf(w, rest);
    assert s[..|w|] == w && s[|w|..] == rest;
  }

  lemma {:induction false} WordLengthOf(w: string, rest: string)
    requires NoSpace(w)
    requires |rest| == 0 || IsSpace(rest[0])
    ensures WordLength(w + rest) == |w|
    decreases |w|
  {
    if |w| > 0 {
      assert (w + rest)[1..] == w[1..] + rest;
      WordLengthOf(w[1..], rest);
    }
  }

  /** Splitting words joined by single spaces gives the words back. */
  lemma {:induction false} WordsOfJoin(ws: seq<string>)
    requires ValidWords(ws)
    ensures Words(Join(ws, " ")) == ws
    decreases |ws|
  {
    if |ws| == 1 {
      WordsTakesWord(ws[0], "");
      assert ws[0] + "" == ws[0];
    } else if |ws| > 1 {
      var tail := Join(ws[1..], " ");
      assert Join(ws, " ") == ws[0] + (" " + tail);
      WordsTakesWord(ws[0], " " + tail);
      WordsSkipsSpace(" ", tail);
      WordsOfJoin(ws[1..]);
    }
  }
}

=== FILE: trie_store.dfy ===
/** The character trie of `trie_structure.py` (its put/get/delete are the same
    in `test_trie.py`): a key is walked one character at a time through each
    node's `children` map; the terminal node carries the value, a leaf flag and
    a tombstone flag. Delete only raises the tombstone: the cleanup pass it runs
    afterwards removes nothing, so no node ever leaves the trie. */
module TrieStore {
  import opened Wrappers
  import opened Values

  /** A `TrieNode`: children by character, the stored value (`None` until a
      put reaches it), `is_leaf` and `is_deleted`. */
  datatype Node = Node(children: map<char, Node>, value: Value, isLeaf: bool, isDeleted: bool)

  /** A freshly constructed `TrieNode()`; also the root of a new `Trie()`. */
  const EmptyNode := Node(map[], Null, false, false)

  /** What a node says about itself, apart from its children. */
  datatype Label = Label(value: Value, isLeaf: bool, isDeleted: bool)

  const FreshLabel := Label(Null, false, false)

  function LabelOf(n: Node): Label {
    Label(n.value, n.isLeaf, n.isDeleted)
  }

  /** The answer of `get`. The source returns the stored value, the string
      `"Deleted"`, or `None`; `AsPython` maps the three back. */
  datatype Lookup = Found(value: Value) | Deleted | Absent

  function AsPython(r: Lookup): Value {
    match r
    case Found(v) => v
    case Deleted => Str("Deleted")
    case Absent => Null
  }

  // ---------------------------------------------------------------------------
  // Paths
  // ---------------------------------------------------------------------------

  /** The node a key's characters lead to, if each one has a child. */
  function Find(n: Node, key: string): Option<Node>
    decreases |key|
  {
    if |key| == 0 then Some(n)
    else if key[0] in n.children then Find(n.children[key[0]], key[1..])
    else None
  }

  predicate HasPath(n: Node, key: string) {
    Find(n, key).Some?
  }

  function LabelAt(n: Node, key: string): Option<Label> {
    match Find(n, key)
    case None => None
    case Some(m) => Some(LabelOf(m))
  }

  /** The key's node exists and carries a tombstone. */
  predicate Tombstoned(n: Node, key: string) {
    HasPath(n, key) && Find(n, key).value.isDeleted
  }

  predicate IsStrictPrefix(p: string, key: string) {
    |p| < |key| && key[..|p|] == p
  }

  // ---------------------------------------------------------------------------
  // Operations
  // ---------------------------------------------------------------------------

  /** `Trie.put`: creates the missing nodes of the key's path, then marks the
      terminal node a leaf holding `v`. The tombstone flag is left alone. */
  function Put(n: Node, key: string, v: Value): (r: Node)
    ensures HasPath(r, key)
    decreases |key|
  {
    if |key| == 0 then n.(isLeaf := true, value := v)
    else
      var child := if key[0] in n.children then n.children[key[0]] else EmptyNode;
      n.(children := n.children[key[0] := Put(child, key[1..], v)])
  }

  /** `Trie.get`: absent when a character has no child or the terminal node is
      not a leaf; the tombstone marker for a deleted leaf; else its value. */
  function Get(n: Node, key: string): (r: Lookup)
    ensures !HasPath(n, key) ==> r == Absent
    ensures HasPath(n, key) && !Find(n, key).value.isLeaf ==> r == Absent
    ensures r.Deleted? <==> HasPath(n, key) && Find(n, key).value.isLeaf && Find(n, key).value.isDeleted
    ensures r.Found? <==> HasPath(n, key) && Find(n, key).value.isLeaf && !Find(n, key).value.isDeleted
    ensures r.Found? ==> r.value == Find(n, key).value.value
    decreases |key|
  {
    if |key| == 0 then
      if n.isLeaf then (if !n.isDeleted then Found(n.value) else Deleted) else Absent
    else if key[0] !in n.children then Absent
    else Get(n.children[key[0]], key[1..])
  }

  /** `TrieNode.remove_if_unused`: `del self` unbinds the method's local name
      and removes nothing, whatever the node's flags and children. */
  function RemoveIfUnused(n: Node): Node {
    n
  }

  /** Marks the key's node deleted and runs the cleanup on every node of the
      path, from the root down to the terminal node. */
  function Tombstone(n: Node, key: string): Node
    requires HasPath(n, key)
    decreases |key|
  {
    if |key| == 0 then RemoveIfUnused(n.(isDeleted := true))
    else
      var c := key[0];
      RemoveIfUnused(n.(children := n.children[c := Tombstone(n.children[c], key[1..])]))
  }

  /** `Trie.delete`: nothing happens when a character of the key has no child;
      otherwise the terminal node is tombstoned and the trie keeps its shape. */
  function Delete(n: Node, key: string): (r: Node)
    ensures !HasPath(n, key) ==> r == n
    ensures HasPath(n, key) ==> Tombstoned(r, key)
  {
    if HasPath(n, key) then
      TombstoneLabels(n, key, key);
      Tombstone(n, key)
    else n
  }

  // ---------------------------------------------------------------------------
  // What put and delete do to every node
  // ---------------------------------------------------------------------------

  /** Two strings with the same first character compare as their tails do. */
  lemma SameHead(p: string, k: string)
    requires |p| > 0 && |k| > 0 && p[0] == k[0]
    ensures (p == k) <==> (p[1..] == k[1..])
    ensures IsStrictPrefix(p, k) <==> IsStrictPrefix(p[1..], k[1..])
  {
    if p[1..] == k[1..] {
      assert p == [p[0]] + p[1..] && k == [k[0]] + k[1..];
    }
    if IsStrictPrefix(p[1..], k[1..]) {
      assert k[..|p|] == [k[0]] + k[1..][..|p| - 1];
      assert p == [p[0]] + p[1..];
    }
    if IsStrictPrefix(p, k) {
      assert k[1..][..|p| - 1] == k[..|p|][1..];
    }
  }

  /** After `Put(t, k, v)`, the node of `k` is a leaf holding `v` with its old
      tombstone, the newly created strict prefixes of `k` are fresh non-leaf
      nodes, and every other node is as it was. */
  lemma {:induction false} PutLabels(t: Node, k: string, v: Value, p: string)
    ensures LabelAt(Put(t, k, v), p) ==
      if p == k then Some(Label(v, true, Tombstoned(t, k)))
      else if IsStrictPrefix(p, k) && !HasPath(t, p) then Some(FreshLabel)
      else LabelAt(t, p)
    decreases |k|
  {
    var r := Put(t, k, v);
    if |k| == 0 {
      if |p| > 0 {
        assert r.children == t.children;
      }
    } else if |p| == 0 {
      assert IsStrictPrefix(p, k) && HasPath(t, p);
    } else if p[0] != k[0] {
      if p[0] in t.children {
        assert r.children[p[0]] == t.children[p[0]];
      }
      assert p != k && !IsStrictPrefix(p, k);
    } else {
      var child := if k[0] in t.children then t.children[k[0]] else EmptyNode;
      PutLabels(child, k[1..], v, p[1..]);
      assert r.children[k[0]] == Put(child, k[1..], v);
      assert Find(r, p) == Find(Put(child, k[1..], v), p[1..]);
      SameHead(p, k);
      if k[0] in t.children {
        assert Find(t, p) == Find(child, p[1..]);
        assert Find(t, k) == Find(child, k[1..]);
      } else {
        assert Find(t, p).None? && Find(t, k).None?;
        if |p| > 1 {
          assert Find(EmptyNode, p[1..]).None?;
        }
      }
    }
  }

  /** Tombstoning changes only the flag of the key's own node. */
  lemma {:induction false} TombstoneLabels(t: Node, k: string, p: string)
    requires HasPath(t, k)
    ensures LabelAt(Tombstone(t, k), p) ==
      if p == k then Some(LabelAt(t, k).value.(isDeleted := true)) else LabelAt(t, p)
    decreases |k|
  {
    var r := Tombstone(t, k);
    if |k| == 0 {
      if |p| > 0 {
        assert r.children == t.children;
      }
    } else if |p| > 0 {
      if p[0] != k[0] {
        assert p != k;
        assert p[0] in r.children <==> p[0] in t.children;
        if p[0] in t.children {
          assert r.children[p[0]] == t.children[p[0]];
        }
      } else {
        var child := t.children[k[0]];
        TombstoneLabels(child, k[1..], p[1..]);
        assert Find(r, p) == Find(Tombstone(child, k[1..]), p[1..]);
        assert Find(t, p) == Find(child, p[1..]);
        SameHead(p, k);
      }
    }
  }

  /** After `Delete(t, k)` on a present path, the node of `k` is tombstoned
      and every other node, value and flag is unchanged; on a missing path
      nothing changes. */
  lemma DeleteLabels(t: Node, k: string, p: string)
    ensures LabelAt(Delete(t, k), p) ==
      if p == k && HasPath(t, k) then Some(LabelAt(t, k).value.(isDeleted := true)) else LabelAt(t, p)
  {
    if HasPath(t, k) {
      TombstoneLabels(t, k, p);
    }
  }

  // ---------------------------------------------------------------------------
  // Properties
  // ---------------------------------------------------------------------------

  /** put then get reads the value back, unless the key's node was tombstoned
      before: put never clears the flag, so get keeps reporting the marker. */
  lemma GetPut(t: Node, k: string, v: Value)
    ensures Get(Put(t, k, v), k) == if Tombstoned(t, k) then Deleted else Found(v)
  {
    PutLabels(t, k, v, k);
  }

  /** put leaves every other key's answer as it was; the nodes it creates on
      the way are not leaves, so the prefixes of `k` still read as absent. */
  lemma GetPutOther(t: Node, k: string, v: Value, other: string)
    requires other != k
    ensures Get(Put(t, k, v), other) == Get(t, other)
  {
    PutLabels(t, k, v, other);
  }

  /** A strict prefix of a stored key reads as absent when put had to create its node. */
  lemma GetPrefixAbsent(t: Node, k: string, v: Value, p: string)
    requires IsStrictPrefix(p, k) && !HasPath(t, p)
    ensures Get(Put(t, k, v), p) == Absent
  {
    PutLabels(t, k, v, p);
  }

  /** get after delete of a present key reports the tombstone for a leaf (and
      absence for an inner node), never the old value. */
  lemma GetDelete(t: Node, k: string)
    requires HasPath(t, k)
    ensures Get(Delete(t, k), k) == if Find(t, k).value.isLeaf then Deleted else Absent
    ensures !Get(Delete(t, k), k).Found?
  {
    DeleteLabels(t, k, k);
  }

  /** delete changes no other key's answer. */
  lemma GetDeleteOther(t: Node, k: string, other: string)
    requires other != k
    ensures Get(Delete(t, k), other) == Get(t, other)
  {
    DeleteLabels(t, k, other);
  }

  /** A second delete of the same key leaves the trie identical. */
  lemma {:induction false} DeleteIdempotent(t: Node, k: string)
    ensures Delete(Delete(t, k), k) == Delete(t, k)
  {
    if HasPath(t, k) {
      TombstoneTwice(t, k);
    }
  }

  lemma {:induction false} TombstoneTwice(t: Node, k: string)
    requires HasPath(t, k)
    ensures HasPath(Tombstone(t, k), k)
    ensures Tombstone(Tombstone(t, k), k) == Tombstone(t, k)
    decreases |k|
  {
    if |k| > 0 {
      var c := k[0];
      TombstoneTwice(t.children[c], k[1..]);
      var once := Tombstone(t, k);
      assert once.children[c] == Tombstone(t.children[c], k[1..]);
      assert once.children[c := Tombstone(once.children[c], k[1..])] == once.children;
    }
  }

  /** delete never removes a node: every path present before is present after, and no other. */
  lemma DeleteKeepsShape(t: Node, k: string, p: string)
    ensures HasPath(Delete(t, k), p) <==> HasPath(t, p)
  {
    DeleteLabels(t, k, p);
  }

  /** Putting a key again after deleting it does not bring the value back:
      the tombstone survives the put. */
  lemma PutAfterDelete(t: Node, k: string, v: Value)
    requires HasPath(t, k)
    ensures Get(Put(Delete(t, k), k, v), k) == Deleted
  {
    DeleteLabels(t, k, k);
    GetPut(Delete(t, k), k, v);
  }

  // ---------------------------------------------------------------------------
  // Loading a dict key by key
  // ---------------------------------------------------------------------------

  /** `for key, value in data.items(): trie.put(key, value)`. */
  function PutAll(t: Node, entries: seq<Field>): Node
    decreases |entries|
  {
    if |entries| == 0 then t
    else
      var last := entries[|entries| - 1];
      Put(PutAll(t, entries[..|entries| - 1]), last.key, last.val)
  }

  /** The value the last entry with key `k` carries. */
  function LastValue(entries: seq<Field>, k: string): Option<Value>
    decreases |entries|
  {
    if |entries| == 0 then None
    else if entries[|entries| - 1].key == k then Some(entries[|entries| - 1].val)
    else LastValue(entries[..|entries| - 1], k)
  }

  lemma PutKeepsTombstoned(t: Node, k: string, v: Value, p: string)
    ensures Tombstoned(Put(t, k, v), p) == Tombstoned(t, p)
  {
    PutLabels(t, k, v, p);
  }

  /** After loading a sequence of entries, each key reads as the last value
      given for it (or its tombstone), and keys not loaded read as before. */
  lemma {:induction false} GetPutAll(t: Node, entries: seq<Field>, k: string)
    ensures Tombstoned(PutAll(t, entries), k) == Tombstoned(t, k)
    ensures Get(PutAll(t, entries), k) ==
      match LastValue(entries, k)
      case None => Get(t, k)
      case Some(v) => if Tombstoned(t, k) then Deleted else Found(v)
    decreases |entries|
  {
    if |entries| > 0 {
      var init := entries[..|entries| - 1];
      var last := entries[|entries| - 1];
      GetPutAll(t, init, k);
      PutKeepsTombstoned(PutAll(t, init), last.key, last.val, k);
      if last.key == k {
        GetPut(PutAll(t, init), k, last.val);
      } else {
        GetPutOther(PutAll(t, init), last.key, last.val, k);
      }
    }
  }
}

=== FILE: values.dfy ===
/** The JSON-like values the store holds at its leaves: `None`, booleans,
    integers, strings, lists and dicts. A dict is an ordered list of fields,
    because Python dicts keep insertion order and the printer shows it. */
module Values {
  import opened Wrappers
  import opened Text

  datatype Value =
    | Null
    | Bool(b: bool)
    | Int(i: int)
    | Str(s: string)
    | List(items: seq<Value>)
    | Dict(fields: seq<Field>)

  datatype Field = Field(key: string, val: Value)

  /** `key in d` followed by `d[key]`: the first field carrying `key`. */
  function LookupField(fields: seq<Field>, key: string): (r: Option<Value>)
    ensures r.None? <==> forall i :: 0 <= i < |fields| ==> fields[i].key != key
    ensures r.Some? ==> exists i :: 0 <= i < |fields| && fields[i] == Field(key, r.value)
    decreases |fields|
  {
    if |fields| == 0 then None
    else if fields[0].key == key then Some(fields[0].val)
    else
      var r := LookupField(fields[1..], key);
      assert forall i :: 1 <= i < |fields| ==> fields[i] == fields[1..][i - 1];
      r
  }

  /** Python's `isinstance(v, numbers.Number)` over this union: `bool` is a
      subclass of `int`, so booleans count as numbers too. */
  predicate IsNumber(v: Value) {
    v.Int? || v.Bool?
  }

  /** `str(v)` for a value. */
  function PyStr(v: Value): string {
    match v
    case Str(s) => s
    case _ => Repr(v)
  }

  /** `repr(v)`, with strings quoted in single quotes and not escaped. */
  function Repr(v: Value): string
    decreases v, 1, 0
  {
    match v
    case Null => "None"
    case Bool(b) => if b then "True" else "False"
    case Int(i) => IntToDecimal(i)
    case Str(s) => "'" + s + "'"
    case List(items) => "[" + ReprItems(v, 0) + "]"
    case Dict(fields) => "{" + ReprFields(v, 0) + "}"
  }

  /** The first character of `repr(v)` tells the kind of container: `[` for
      a list, `{` for a dict and a single quote for a string, and no other
      kind of value starts with one of them. */
  lemma ReprKind(v: Value)
    ensures |Repr(v)| > 0
    ensures Repr(v)[0] == '[' <==> v.List?
    ensures Repr(v)[0] == '{' <==> v.Dict?
    ensures Repr(v)[0] == '\'' <==> v.Str?
  {
  }

  /** The items of a list from index `i` on, as `repr` joins them. */
  function ReprItems(owner: Value, i: nat): string
    requires owner.List?
    decreases owner, 0, |owner.items| - i
  {
    if i >= |owner.items| then ""
    else if i + 1 == |owner.items| then Repr(owner.items[i])
    else Repr(owner.items[i]) + ", " + ReprItems(owner, i + 1)
  }

  /** The fields of a dict from index `i` on, as `repr` joins them. */
  function ReprFields(owner: Value, i: nat): string
    requires owner.Dict?
    decreases owner, 0, |owner.fields| - i
  {
    if i >= |owner.fields| then ""
    else
      var f := owner.fields[i];
      var entry := "'" + f.key + "': " + Repr(f.val);
      if i + 1 == |owner.fields| then entry else entry + ", " + ReprFields(owner, i + 1)
  }
}

=== FILE: wrappers.dfy ===
/** Failure-compatible wrappers shared by the other modules. */
module Wrappers {

  /** A value that may be missing (Python's `None` where it means "not found"). */
  datatype Option<+T> = None | Some(value: T)

  /** A computation that either produces a value or raises an error. */
  datatype Result<+T, +E> = Ok(value: T) | Err(error: E) {

    predicate IsFailure() {
      Err?
    }

    function PropagateFailure<U>(): Result<U, E>
      requires Err?
    {
      Err(error)
    }

    function Extract(): T
      requires Ok?
    {
      value
    }
  }
}
